=== FILE: README.md ===
# Beluga jig logistics: encoder core and plan property checker, in Dafny

This project models the core of a Beluga logistics planner and proves
properties of the model. Aircraft ("Belugas") bring in jigs and take jigs
away. Trailers move the jigs between the aircraft, a set of racks and the
hangars of the production lines. Racks are two-ended: a jig is put down or
picked up from the aircraft side or from the production side.

The planner encodes one problem instance as a hierarchical, temporal planning
problem. A solver finds a plan, and a stand-alone checker says which
user-stated properties the plan satisfies.

The model covers five parts.

* **The plan property checker** (`check_plan_properties`). Files:
  `checker.dfy`, `checker_registry.dfy`, `checker_trace.dfy`,
  `checker_swaps.dfy`, `checker_final.dfy`, `checker_verdicts.dfy`,
  `checker_orders.dfy`, `checker_facts.dfy`.
  * Properties are filed by kind and parameters, as in the source's Python
    dictionaries. Python dictionaries are modelled by `Dicts.Dict`, a
    sequence of pairs with distinct keys, so iteration order is kept.
  * The initial racks seed the verdicts. The plan is then scanned once,
    front to back. Last, every kind is resolved.
  * Python exceptions (`KeyError`, `AssertionError`, `IndexError`, unknown
    names) become a `Fault` in a `Result`.
  * For nine of the twelve kinds of property, a lemma states when its id is
    reported, in terms of the plan and the initial racks alone
    (`CheckerVerdicts.Verdict*`). For the two order kinds and the
    before-flight kind, the `CheckerOrders` lemmas state what each step
    writes, and `CheckerFinal.FinalSetTrue` states how the scan's value is
    resolved.
* **The planning domain** (`world.dfy`, `world_facts.dfy`, `world_initial.dfy`).
  * The fluents become a `State`, and the initial state is built in the
    encoder's order.
  * The seven instantaneous actions become a transition function. Its
    right-hand sides are read in the pre-state. An action is not applicable
    when a precondition fails, a fluent it reads is undefined, or a bounded
    fluent (range 0..1000) would leave its range.
* **The temporal task network** (`network.dfy`, `network_facts.dfy`). It is
  a predicate over integer start and end times for every subtask:
  * proceeds to the next flight;
  * per-flight unload and load pairs;
  * per-line delivery chains;
  * the swap slots and how many of them are used.

  `set_ordered(a, b)` is read as `a.end < b.start`.
* **The swap budget.**
  * The swap count of a reference plan (`refplan.dfy`). It pairs actions
    with the put-downs and pick-ups of their subtasks; the pick-ups left
    unpaired are swaps.
  * The number of swap slots it leads to.
  * The `solve` command's loop over growing swap budgets (`driver.dfy`).
    The solver is an oracle parameter here.
* **The property reifiers** (`reify.dfy`, `reify_facts.dfy`).
  * Each reifier adds one boolean variable to the task network, cached by
    its name, together with the constraint defining it.
  * A solution is an assignment of the encoder's decision variables.

`basics.dfy`, `dicts.dfy` and `domain.dfy` hold the shared vocabulary. This
covers `Option`/`Result`, the ordered dictionary, and the problem-definition
records of `parser.py` (parser.py is not part of this model beyond those
records).

## Model

| member | source | states |
|---|---|---|
| Checker.Register | checker.py:48-96 | filing one property fails exactly when its name is not one of the twelve known kinds |
| Checker.Dispatch | checker.py:44-96 | the dispatch loop aborts exactly when some property in the table has an unknown name |
| Checker.AddTo | checker.py:108 | `setdefault(k, set()).add(x)`: key set grows by `k`, `k`'s set gains `x`, other keys unchanged |
| Checker.Mark | checker.py:127-129 | setting the id found under a key sets exactly that id, every other id keeps its value |
| Checker.OnLoad | checker.py:133-146 | a load aborts exactly when the jig has no type; otherwise only the verdicts and the load counters change |
| Checker.OnUnload | checker.py:122-131 | an unload touches only the verdicts and the unload counters |
| Checker.OnPutDown | checker.py:148-168 | a put-down touches only the verdicts, the racks used per jig, the racks thought empty and the swap counters |
| Checker.OnPickUp | checker.py:170-176 | a pick-up touches only the swap counters |
| Checker.OnDeliver | checker.py:178-203 | a delivery touches only the verdicts, the delivery counters and the jigs delivered per line |
| Checker.OnSwitch | checker.py:208-210 | a switch succeeds exactly when a flight is left after the first `1 + |switched|`, adds that flight to the flights switched to and changes nothing else; otherwise it raises IndexError |
| Checker.Step | checker.py:120-213 | an action with an unknown name aborts the scan |
| Checker.StepFrame | checker.py:120-213 | an action writes no verdict outside the tables of the kinds it is about |
| Checker.RackOrderLoopFrame | checker.py:157-164 | the rack-order loop writes only rack-order ids |
| Checker.LineOrderLoopFrame | checker.py:191-198 | the line-order loop writes only line-order ids |
| Checker.BeforeFlightLoopFrame | checker.py:200-203 | the before-flight loop writes only before-flight ids |
| CheckerFinal.DefaultsAt | checker.py:219-241 | a value already present stays; a listed id without one gets the default; unlisted ids stay unset |
| CheckerFinal.OnlyIfLoopFrame | checker.py:245-246 | the only-if loop writes only only-if ids |
| CheckerFinal.SizeLeqLoopFrame | checker.py:248-252 | the rack-size loop, when it succeeds, writes only rack-size ids |
| CheckerFinal.SwapsLeqLoopFrame | checker.py:254-255 | the swap-bound loop writes only swap-bound ids |
| Checker.Check | checker.py:5-269 | a property table holding an unknown name yields no result |
| CheckerRegistry.DispatchCounts | checker.py:44-96 | every non-empty id is filed at most once, and only ids of the table are filed |
| CheckerRegistry.DispatchFiled | checker.py:44-96 | the last property of each kind and parameters is filed under its id (a later equal key overwrites) |
| CheckerRegistry.RegisterFiledSame | checker.py:48-96 | filing a property files its id under its own kind and parameters |
| CheckerRegistry.RegisterFiledOther | checker.py:48-96 | filing a property leaves every other kind and parameters as they were |
| CheckerRegistry.RegisterCountIn | checker.py:48-96 | filing adds at most one occurrence of the id, in the slot of its kind |
| CheckerRegistry.SoleKind | checker.py:31-42 | an id filed at most once and filed under some kind is filed only there |
| CheckerTrace.RunUnload | checker.py:122-131 | the scan counts each flight's unloads, and the unload id of `(j, b, i)` becomes true exactly when the `i`-th unload from `b` (counting on from the counter's start) moves `j` |
| CheckerTrace.RunLoad | checker.py:133-146 | the load id of `(x, b, i)` becomes true exactly when load number `i` of `b` moves `x` or a jig of type `x` |
| CheckerTrace.RunDeliver | checker.py:178-187 | the delivery id of `(j, pl, i)` becomes true exactly when delivery number `i` to `pl` brings `j` |
| CheckerTrace.RunRackEmpty | checker.py:148-151 | the always-empty id of `r` becomes false exactly when the plan puts some jig down on `r` |
| CheckerTrace.RunRacks | checker.py:148-155 | the racks recorded for a jig grow by exactly its put-down racks; the racks thought empty lose exactly the racks put down on |
| CheckerTrace.StepSwitched | checker.py:208-210 | only a switch changes the flights switched to, adding the flight after as many as have been switched to |
| CheckerTrace.RunSwitched | checker.py:208-210 | with distinct flights, a pass holding `m` switches has switched to exactly the second to the `(m + 1)`-th flight, so `m` is below the number of flights |
| CheckerTrace.TooManySwitches | checker.py:208-210 | with distinct flights, a plan with at least one switch and at least as many switches as flights makes the pass fail |
| CheckerTrace.RunFrame | checker.py:120-213 | an id in none of the tables the scan writes keeps its value |
| CheckerTrace.StepOther | checker.py:120-213 | each counter is changed only by its own action kind |
| CheckerTrace.SeedFromFacts | checker.py:98-109 | seeding records each jig's initial racks and clears the occupied racks from those thought empty |
| CheckerTrace.SeedFromSat | checker.py:101-107 | seeding falsifies exactly the ids hit by an occupied rack |
| CheckerTrace.SeedHitRackEmpty | checker.py:102-104 | an always-empty id is hit by seeding exactly when its rack is initially occupied |
| CheckerTrace.SeedHitNeverOnRack | checker.py:105-107 | a never-on-rack id is hit exactly when its rack initially holds its jig |
| CheckerTrace.SeedHitOther | checker.py:98-109 | seeding touches no id outside the always-empty and never-on-rack tables |
| CheckerSwaps.PutDownSwaps | checker.py:166-168 | a put-down leaves the swap total, the number of counters and the counted triples unchanged |
| CheckerSwaps.PickUpSwaps | checker.py:170-176 | a pick-up adds one to the total plus the number of counters, and its triple to the counted triples |
| CheckerSwaps.RunSwaps | checker.py:166-176 | over the scan, total plus counters grows by the number of pick-ups, and the counted triples by the triples picked up |
| CheckerSwaps.SwapTotalOfPlan | checker.py:215 | the swap total is the number of pick-ups that are not the first of their (jig, trailer, side) |
| CheckerSwaps.SwapTotalPut | checker.py:215 | storing a counter replaces the old counter's contribution to the total |
| CheckerFinal.OnlyIfLoopHit | checker.py:245-246 | the only-if id of `(j, r)` becomes "`j` was put on at most one rack"; `r` is not consulted |
| CheckerFinal.SizeLeqLoopHit | checker.py:248-252 | the rack-size id of `(j, rs)` becomes "every rack `j` was on has size at most `rs`" |
| CheckerFinal.SizeLeqLoopErr | checker.py:248-252 | the rack-size loop raises KeyError exactly when some listed jig was on a rack of unknown size |
| CheckerFinal.SwapsLeqLoopHit | checker.py:254-255 | the swap-bound id of `n` becomes "total at most `n`" |
| CheckerFinal.FinalOutsideMiddle | checker.py:218-267 | outside the middle loops' tables, resolution keeps the scan's value and otherwise gives the kind's default |
| CheckerFinal.FinalSetTrue | checker.py:218-231 | unload, load, delivery, order and before-flight ids end true exactly when the scan set them true |
| CheckerFinal.FinalSetFalse | checker.py:233-241 | always-empty and never-on-rack ids end true exactly when nothing set them false |
| CheckerFinal.FinalAtLeastOne | checker.py:243 | the at-least-one id ends true exactly when some rack is still thought empty |
| CheckerFinal.FinalOnlyIf | checker.py:245-246 | the only-if id ends true exactly when the jig was put on at most one rack |
| CheckerFinal.FinalSizeLeq | checker.py:248-252 | the rack-size id ends true exactly when every rack the jig was on has a known size within the bound |
| CheckerFinal.FinalSwapsLeq | checker.py:254-255 | the swap-bound id ends true exactly when the swap total is within the bound |
| CheckerFinal.KindFacts | checker.py:218-267 | ids of the trace and order kinds are untouched by the middle loops and get their kind's default |
| CheckerVerdicts.Established | checker.py:5-269 | a property reported by a successful check is filed only under its own kind, and reported exactly when its resolved value is true |
| CheckerVerdicts.FiledAs | checker.py:44-96 | the table and key each kind of property is filed under |
| CheckerVerdicts.Seeded | checker.py:98-118 | the scan state after seeding, read off the initial racks |
| CheckerVerdicts.VerdictUnload | checker.py:122-131 | an unload property is reported exactly when the plan's `i`-th unload from the flight (from 0) is of the jig |
| CheckerVerdicts.VerdictLoad | checker.py:133-146 | a load property is reported exactly when the plan's `i`-th load onto the flight is of the jig or of a jig of the named type |
| CheckerVerdicts.VerdictDeliver | checker.py:178-187 | a delivery property is reported exactly when the plan's `i`-th delivery to the line is of the jig |
| CheckerVerdicts.VerdictRackEmpty | checker.py:101-151 | an always-empty property is reported exactly when the rack is initially empty and never put down on |
| CheckerVerdicts.RackEmptyResolved | checker.py:233-236 | the resolved always-empty value is "initially empty and never put down on" |
| CheckerVerdicts.VerdictNeverOnRack | checker.py:105-153 | a never-on-rack property is reported exactly when the rack does not initially hold the jig; put-downs play no part |
| CheckerVerdicts.NeverOnRackPass | checker.py:105-107 | after the scan a never-on-rack id is false when the rack initially held the jig, unset otherwise |
| CheckerVerdicts.NeverOnRackResolved | checker.py:238-241 | resolution turns the scan's never-on-rack verdict into the property's truth value |
| CheckerVerdicts.NeverOnRackUntouched | checker.py:120-213 | a never-on-rack id is in none of the tables the scan writes |
| CheckerVerdicts.VerdictAtLeastOne | checker.py:243 | the at-least-one property is reported exactly when some initial rack is empty and never put down on |
| CheckerVerdicts.AtLeastOneResolved | checker.py:243 | the resolved at-least-one value is "some rack stays empty" |
| CheckerVerdicts.VerdictOnlyIf | checker.py:245-246 | an only-if property is reported exactly when the jig is on at most one rack, initial racks and put-downs together |
| CheckerVerdicts.OnlyIfResolved | checker.py:245-246 | the resolved only-if value is "at most one rack" |
| CheckerVerdicts.VerdictSizeLeq | checker.py:248-252 | a rack-size property is reported exactly when every rack the jig is ever on has a known size within the bound |
| CheckerVerdicts.SizeLeqResolved | checker.py:248-252 | the resolved rack-size value is "every rack within the bound" |
| CheckerVerdicts.VerdictSwapsLeq | checker.py:254-255 | a swap-bound property is reported exactly when the plan's repeated pick-ups number at most the bound |
| CheckerVerdicts.SwapsLeqResolved | checker.py:254-255 | the resolved swap-bound value is "repeated pick-ups within the bound" |
| CheckerFacts.RunUnrecognised | checker.py:212-213 | an unknown action name anywhere in the plan aborts the scan |
| CheckerFacts.CheckRejectsUnknownAction | checker.py:212-213 | a plan with an unknown action name yields no result |
| CheckerFacts.PickUpTwice | checker.py:166-176 | a second pick-up of the same (jig, trailer, side) fails the assertion when no action in between puts down or picks up under that triple |
| CheckerFacts.EmptyIdReported | checker.py:243 | an instance of the checker.py:243 quirk: with no properties and one empty rack, the check reports the id "" |
| CheckerOrders.LineOrderFirst | checker.py:192-193 | delivering the first jig of a line order sets it to "the second not delivered yet" |
| CheckerOrders.LineOrderSecond | checker.py:194-198 | delivering the second jig sets it to "the first delivered", and aborts when that holds but the property is not already true |
| CheckerOrders.BeforeFlightSet | checker.py:200-203 | a delivery sets each before-flight id of its jig and line to "flight not yet switched to"; which flights have been switched to is `CheckerTrace.RunSwitched` |
| CheckerOrders.RackOrderFirst | checker.py:158-159 | putting the first jig of a rack order down sets it to "the second jig not yet on its rack" |
| CheckerOrders.RackOrderSecond | checker.py:160-164 | putting the second jig down looks the first rack up among the jigs: KeyError when no jig has that name; otherwise the value and the assertion as written |
| CheckerOrders.DeliverFirst | checker.py:191-193 | the line-order rule for the first jig, through a whole delivery step |
| CheckerOrders.DeliverSecond | checker.py:194-198 | the line-order rule for the second jig, through a whole delivery step |
| CheckerOrders.DeliverBeforeFlight | checker.py:200-203 | the before-flight rule, through a whole delivery step |
| CheckerOrders.PutDownFirst | checker.py:157-159 | the rack-order rule for the first jig, through a whole put-down step |
| CheckerOrders.PutDownSecond | checker.py:160-164 | the rack-order rule for the second jig, as written, through a whole put-down step |
| CheckerOrders.DeliverSelf | checker.py:191-198 | a line-order property naming the same jig and line twice makes every delivery of that jig to that line fail the assertion |
| CheckerOrders.PutDownSelf | checker.py:157-164 | a rack-order property naming the same jig and rack twice makes every put-down of that jig on that rack abort, unless a jig is named like the rack and has not been put on it |
| Dicts.KeysIff | checker.py:14 | a key is in the dictionary exactly when some item carries it |
| Dicts.FindSome | checker.py:14 | a successful lookup returns the value of an item carrying the key |
| Dicts.Put | checker.py:129 | storing keeps keys distinct, replaces the value in place or appends a new item |
| Dicts.TrueKeysExact | checker.py:269 | the reported ids are exactly the keys whose value is true |
| Domain.FindJigType | model.py:274-276 | the jig type returned has the name asked for; none is returned exactly when no type has it |
| Domain.FindJig | model.py:367-368 | the jig returned has the name asked for; none is returned exactly when no jig has it |
| World.SeedJigs | model.py:274-280 | jig sizes are seeded exactly when every jig's type is declared; only the three size fluents change; the values are `WorldInitial.SeedJigsJig` |
| World.ChainFlights | model.py:302-310 | the first flight becomes current; only the current and next flight fluents change |
| World.FreeHangars | model.py:316-318 | every declared hangar is free, every other hangar keeps its value or its absence, and no other fluent changes |
| World.SideTrailers | model.py:342-349 | every listed trailer gets the side; an unlisted trailer keeps its side or its lack of one, and no other fluent changes |
| World.PlaceRackJigs | model.py:366-375 | placing a rack's jigs succeeds exactly when every jig and its type are declared, and otherwise fails with a missing key; only positions and locations change |
| World.SeedRack | model.py:360-379 | seeding one rack fails exactly when placing its jigs fails; otherwise only free space, sizes, next, positions and locations change |
| World.SeedRacks | model.py:360-379 | seeding racks changes only free space, sizes, next, positions and locations |
| World.PlaceIncoming | model.py:383-387 | incoming jigs are placed exactly when all are declared; only locations change; where they end up is `WorldInitial.PlaceIncomingAt` |
| WorldFacts.PutDownEffects | model.py:465-491 | a put-down needs a matching occupied trailer, a matching size; it reduces free space by the jig size, takes one from `next`, gives opposite positions, racks the jig and frees the trailer |
| WorldFacts.PutDownThenPickUp | model.py:465-560 | a put-down followed by the pick-up of the same jig from the same side is enabled and restores free space, locations, trailers and every `next` |
| WorldFacts.PickUpThenPutDown | model.py:539-560 | a pick-up followed by the put-down back to the same rack and side is enabled and restores free space, locations, trailers, every `next` and the jig's position |
| WorldFacts.ApplyBalanced | model.py:405-416 | a well-sided action keeps every racked jig's two positions opposite |
| WorldFacts.ApplyAllBalanced | model.py:405-416 | so does every sequence of well-sided actions |
| WorldFacts.ApplyFreeSpace | model.py:294 | every action keeps free space within 0..1000 |
| WorldFacts.ApplyAllFreeSpace | model.py:294 | so does every sequence of actions |
| WorldFacts.DeliverThenGet | model.py:564-611 | a delivery empties the jig and takes the hangar; a second delivery there is refused; a get on a free production trailer is enabled and frees the hangar again |
| WorldFacts.UnloadThenLoad | model.py:393-461 | an unload needs the jig on the flight and a free aircraft-side trailer, which it occupies; loading the empty jig back onto the flight from that trailer restores the state exactly |
| WorldFacts.LoadNeedsEmpty | model.py:442-461 | only an empty jig can be loaded onto an aircraft |
| WorldFacts.EmptyStaysEmpty | model.py:587-590 | once empty, a jig stays empty through any sequence of actions |
| WorldFacts.ProceedAlongChain | model.py:647-650 | following the flight chain from the current flight reaches each later flight in turn |
| WorldFacts.InitialFlights | model.py:302-310 | initially the first flight is current; the proceeds reach each flight in order; from flight `m` only a proceed to flight `m+1` is enabled |
| WorldFacts.ChainFromMissing | model.py:302-310 | the last flight has no next flight |
| WorldInitial.PlaceRackJigsLoad | model.py:366-372 | placing a rack's jigs succeeds exactly when their sizes are known, and the occupied space is their sum |
| WorldInitial.SeedRacksJig | model.py:366-375 | the last listing of a jig on a rack at index `k` gives positions `k` and `-k` and puts it on that rack |
| WorldInitial.SeedRacksRack | model.py:377-379 | a rack gets its size, free space equal to size minus its jigs' sizes, and production-side `next` of `1 - n` |
| WorldInitial.InitialSteps | model.py:253-387 | the initial state is built in the encoder's order, with no positions, locations or rack fluents before the racks |
| WorldInitial.InitialJig | model.py:366-387 | in the initial state a racked jig that is not incoming has positions `k` and `-k` on its rack |
| WorldInitial.InitialRack | model.py:360-379 | in the initial state a rack has its size, its free space and `next` values `1 - n` and 0 |
| WorldInitial.InitialBalanced | model.py:360-387 | in the initial state every racked jig has opposite positions |
| WorldInitial.SeedJigsJig | model.py:274-280 | the last jig of a name fixes that name's size to its type's empty or loaded size by its flag, its empty size to the type's, and its emptiness to the flag |
| WorldInitial.SeedJigsFrame | model.py:274-280 | seeding jigs leaves the size fluents of every other name alone |
| WorldInitial.InitialJigSize | model.py:274-280 | in the initial state each jig's size fluents are those of its type and flag, and for a jig whose name is unique that size is the one the rack seeding charges |
| WorldInitial.InitialTrailerSide | model.py:342-349 | a factory trailer starts on the production side, any other beluga trailer on the aircraft side, and any other name has no side |
| WorldInitial.PlaceOnFlightAt | model.py:384-387 | every jig a flight lists is on that flight after its placement |
| WorldInitial.PlaceIncomingAt | model.py:383-387 | a jig that a flight brings in and no later flight does ends on that flight |
| WorldInitial.InitialIncoming | model.py:383-387 | in the initial state such a jig is on its flight, whatever rack lists it |
| Network.Outgoing | model.py:859-869 | an entry that is no declared type is a missing key; one starting "jig" succeeds exactly when it is a declared jig, and then loads that jig; one starting "type" always succeeds and loads any jig of that type; anything else fails the assertion |
| NetworkFacts.ProceedsTotallyOrdered | model.py:151-154 | the proceeds to the next flight happen one after another |
| NetworkFacts.FlightsInOrder | model.py:841-899 | every unload and load of an earlier flight ends before any of a later flight starts |
| NetworkFacts.FlightBracketed | model.py:841-899 | an activity of flight `i` happens after the proceed to it and before the proceed away from it |
| NetworkFacts.WithinFlight | model.py:836-846 | a flight's unloads, and its loads, are strictly ordered; each put-down starts within its delay of the unload |
| NetworkFacts.LineInOrder | model.py:905-969 | a line's deliveries start in schedule order; each entry is pick-up, delivery, get, put-down in that order |
| NetworkFacts.SwapSlots | model.py:971-1016 | the used count is within the slots; slot `i` is used exactly when `i` is below it; used slots are a prefix; starts increase; a used slot's mid points lie between its pick-up and put-down |
| NetworkFacts.PresenceDetermined | model.py:1007-1013 | the used count alone fixes which slots are used |
| NetworkWitness.Witness | model.py:151-167 | for every instance and every used count within the slots, some schedule satisfies all the constraints |
| RefPlan.NetworkOfProblem | model.py:799-969 | the network has one unload pair per incoming jig and one delivery pair and one get pair per scheduled jig; a jig has an unload pair exactly when a flight brings it in, and `(j, pl)` is a delivery pair exactly when `j` is in the schedule of line `pl` |
| RefPlan.IncomingPairs | model.py:799-846 | one unload pair per incoming jig of each flight, and a jig has one exactly when some flight brings it in |
| RefPlan.DeliveryPairs | model.py:905-969 | one delivery pair per scheduled jig of each line, and `(j, pl)` is one exactly when `j` is in the schedule of a line named `pl` |
| RefPlan.RefSwaps | model.py:709-797 | the count fails exactly when the marking pass does; otherwise it is the number of pick-ups that no load and no matched delivery is paired with |
| RefPlan.UnseenUnpartnered | model.py:709-797 | the pick-ups the marking pass leaves unseen are exactly those no load and no matched delivery is paired with |
| RefPlan.MarkSeenPartnered | model.py:736-766 | the marking pass marks only pick-ups that some load or matched delivery is paired with |
| RefPlan.StepSeenPartner | model.py:717-790 | a pick-up newly marked by the action at `k` is the one that action is paired with |
| RefPlan.LastPickUpOnly | model.py:739-747 | a position the backward search newly marks is a pick-up of the jig by the trailer at or before `m`, with no such pick-up after it up to `m` |
| RefPlan.MarkSeenPartner | model.py:709-766 | every partner of a scanned action is marked seen |
| RefPlan.SwapSlotCount | model.py:163-165 | without a reference plan the slots are the margin; with one, the margin plus the number of pick-ups nothing is paired with, and the count fails exactly when the marking pass does |
| Driver.FirstSolved | beluga.py:72-85 | the least budget with a plan, or none when no budget up to the last gives one |
| Driver.SolveGrowingBudget | beluga.py:68-95 | budgets 0, 1, … are tried in order; the first that gives a plan ends the loop; none within K means exit status 2; a plan without its JSON export fails the assertion |
| Reify.ReifyRackEmpty | model.py:1452-1474 | the rack reifier aborts exactly when the name is not a rack with initial values, even when cached; it returns the rack's named variable and only adds to the network |
| Reify.ReifyRacks | model.py:1440-1442 | the rack loop returns one variable per rack, in order |
| Reify.ReifyAtLeastOne | model.py:1431-1450 | a cached at-least-one variable is returned with the network unchanged |
| Reify.ReifySizeLeq | model.py:1476-1514 | a cached size variable is returned unchanged, whatever the bound |
| ReifyFacts.RackEmptyMemo | model.py:1461-1464 | a second rack reification returns the same variable and network |
| ReifyFacts.RackEmptyMeaning | model.py:1452-1474 | in any solution, a fresh rack variable is true exactly when the rack starts empty and no put-down variable selects it |
| ReifyFacts.RackEmptySound | model.py:1461-1472 | reifying a rack keeps every rack variable of the network defined, including its own |
| ReifyFacts.RacksOk | model.py:1440-1442 | the rack loop fails exactly when some name is not a rack with initial values |
| ReifyFacts.AtLeastOneOkAndMemo | model.py:1431-1450 | a fresh at-least-one reification fails exactly when some rack lacks initial values; a second call returns the same |
| ReifyFacts.AtLeastOneMeaning | model.py:1431-1450 | in any solution, a fresh at-least-one variable is true exactly when some rack starts empty and no put-down variable selects it |
| ReifyFacts.AtLeastOneSelfReference | model.py:1435-1442 | with a rack named "at_least_one_rack", the disjunction contains the variable it defines, so a solution may set it though no rack stays empty |
| ReifyFacts.RackVarNameClash | model.py:1463 | "at_least_one_rack" is the only rack whose variable name clashes with the at-least-one variable |
| ReifyFacts.SizeLeqMemo | model.py:1479-1480 | once a jig's size variable exists, reifying it for any other bound returns that variable |
| ReifyFacts.SizeLeqMeaning | model.py:1476-1514 | in any solution, a fresh size variable is true exactly when the initial rack, the unload and get legs' racks and every swap target of the jig have size within the bound |
| ReifyFacts.SizeLeqFails | model.py:1484-1497 | a fresh size reification raises KeyError exactly for an undeclared jig, and fails the assertion exactly for a jig with no initial rack, no unload and no get |
| ReifyFacts.SwapsLeqMemo | model.py:1521-1522 | a second swap-bound reification with the same bound returns the same variable and network |
| ReifyFacts.SwapsLeqMeaning | model.py:1516-1534 | in any solution, a fresh swap-bound variable is true exactly when the used swap count is within the bound |
| ReifyFacts.SwapsVarNameInjective | model.py:1521 | different bounds give different variable names |

## Left out

- Reading and writing files, JSON, command-line handling and `print`: the
  checker takes its inputs as values, and the solver is an oracle parameter
  of `Driver.SolveGrowingBudget`.
- The planning library and the solver: the task network is a predicate over
  chosen times, and actions are a transition function. Nothing says that
  the solver's plans satisfy both at once.
- HTN methods and tasks: `noop` versus `do` decompositions are represented
  only by the swap slots' `noop` flag. The intervals of the abstract tasks
  are not tied to those of their subtasks beyond what each constraint
  states.
- World.Apply: an action's `os` parameter is a free side. When it equals
  `s`, the two position effects target one fluent, and the model refuses
  the action unless they agree. No property is proved for such actions:
  `WorldFacts.ApplyBalanced` requires `os` to be the opposite side. The swap
  method (model.py:700-701) passes its own `oside` parameter, and nothing
  constrains it to be opposite.
- WorldFacts.PutDownThenPickUp and WorldFacts.PickUpThenPutDown: both
  require free space in 0..1000 before the first action, an invariant
  `WorldFacts.ApplyFreeSpace` proves for every action. The solver's fluent
  bounds are not otherwise modelled for the initial state.
- Initial values outside their fluent bounds (a rack overfilled by its
  jigs) are not rejected by `World.Initial`; the planning library's range
  checks at problem build time are not modelled.
- Parsing of property parameters: `int(...)` on a non-numeric or missing
  parameter (checker.py:49-92) is not modelled. Properties arrive typed.
- The order and before-flight verdicts are stated per step
  (`CheckerOrders`), not in closed form over the whole plan, because their
  values depend on interleavings that the step lemmas already fix.
- checker.py:152: `(j, r) in props_satisfied` compares a pair with string
  keys and is never true, so it is modelled as doing nothing. This is why
  `CheckerVerdicts.VerdictNeverOnRack` ignores put-downs.
- CheckerVerdicts.Verdict*: each verdict is proved for the last property
  of its kind and parameters (`LastOfItsKind`) and for a non-empty id. An
  earlier property with the same kind and parameters is overwritten in its
  table, so its id is never resolved and not reported. The id "" shares the
  slot that checker.py:243 always writes.
- Domain.FindJig / Domain.FindJigType: parser.py's `BelugaProblemDef`
  (parser.py:38-47) defines neither `get_jig` nor `get_jig_type`, which
  model.py:276 and 367-368 call. Both are assumed to return the first record
  with the given name, and to fail when none has it. Callers turn that
  failure into `MissingKey`.
- The `opposite` fluent (model.py:258-261) and the `free_trailers` fluent
  (model.py:338-340) are not part of `World.State`: no action reads or
  writes either.
- Domain.Action / Checker.OnPickUp: a side is one of two values. checker.py
  (lines 149 and 166-176) takes the side of a put-down or pick-up as any
  string of the plan and keeps a swap counter for each distinct string. A
  plan naming a third side cannot be written in this model.
- RefPlan.RefSwaps: the ordering of the source's nested scans is kept, but
  its subtask bookkeeping through the planning library's objects is
  replaced by the per-action pairing the encoder creates.
- Reify.ReifySwapsLeq: the meaning is proved for a fresh variable only. A
  cached variable keeps the meaning it got when it was created, because
  names are injective in the bound (`ReifyFacts.SwapsVarNameInjective`).
- CheckerTrace.RunSwitched / CheckerTrace.TooManySwitches: require
  distinct flight names. With a repeated name the set of flights switched
  to stops growing, and the pass need not fail: with flights A, B, B and
  three switches, checker.py:210 adds B twice and never runs past the end.
- WorldFacts.InitialFlights: requires distinct flight names. With a
  repeated name the `next_beluga` chain overwrites itself, and the lemma
  says nothing about that case.
- The production-line schedule is iterated through `sorted(schedule.items())`
  (model.py:908), which orders entries by their key. The model takes the
  schedule as a sequence already in that order.
- Reify: a solver solution is modelled as an `Assignment` of the decision
  variables the reifiers mention. Library expression objects are not
  modelled, and a constraint is what it says about an assignment.
- Reify.ReifyRackEmpty: `up.Bool(a == b)` on the two initial values
  (model.py:1461) is read as integer equality of free space and size.
  Like the source, the put-down variables are compared with the rack
  whether or not their leg or swap slot is actually carried out.
- The reference-plan analysis, the structural-constraint builders and the
  preference reifiers built on them (model.py:1033-1429, 1536 onwards) call
  the solver or handle library expressions. They are not part of this model.
- The `explain` command of beluga.py (lines 98-127), the legacy encoder
  up.py and the batch script convert_all.py are not part of this model.
- parser.py's `parse` and `parse_file` turn JSON into the records; only the
  records are modelled. The index-keyed incoming, outgoing and schedule
  maps become sequences in input order.

=== FILE: basics.dfy ===
/** Shared outcome types.

    The source is Python: a missing dictionary key raises KeyError, an
    `assert` raises AssertionError, a list index out of range raises
    IndexError, and unknown names are rejected by `assert False`. Each of
    those aborts the whole computation; here they become a `Fault` carried
    by `Result`.
 */
module Basics {

  datatype Option<+T> = None | Some(value: T)

  /** Why a computation aborted. */
  datatype Fault =
    | UnknownPropertyName(name: string)
    | UnknownActionName(name: string)
    | MissingKey
    | FailedAssertion
    | IndexOutOfRange

  datatype Result<+T> = Ok(value: T) | Err(fault: Fault) {
    predicate IsFailure() { Err? }

    function PropagateFailure<U>(): Result<U>
      requires Err?
    {
      Err(fault)
    }

    function Extract(): T
      requires Ok?
    {
      value
    }
  }

  /** Sum of a sequence of naturals. */
  function Sum(s: seq<nat>): nat
  {
    if |s| == 0 then 0 else s[0] + Sum(s[1..])
  }

  /** Number of elements of `s` satisfying `p`. */
  function CountWhere<T>(s: seq<T>, p: T -> bool): nat
  {
    if |s| == 0 then 0 else (if p(s[0]) then 1 else 0) + CountWhere(s[1..], p)
  }
}

=== FILE: checker.dfy ===
/** The plan property checker of checker.py (`check_plan_properties`).

    The checker is independent of the encoder: it reads a plan trace once,
    front to back, keeping counters, sets and dictionaries, and then
    resolves every property id to true or false. The result lists the ids
    resolved to true, in the order in which they were first given a value.

    Python aborts (KeyError, a failing `assert`, an IndexError, an unknown
    property or action name) are modelled as `Err` results. The code is
    modelled as written, quirks included; the quirks are pointed out where
    they occur and stated as lemmas in CheckerFacts and CheckerOrders.
 */
module Checker {
  import opened Basics
  import opened Dicts
  import opened Domain

  type PropId = string

  /** The property catalogue, with typed parameters. */
  datatype Property =
    | UnloadBeluga(jig: string, flight: string, index: int)
    | LoadBeluga(jigOrType: string, flight: string, index: int)
    | DeliverToProductionLine(jig: string, line: string, index: int)
    | RackAlwaysEmpty(rack: string)
    | AtLeastOneRackAlwaysEmpty
    | JigAlwaysPlacedOnRackSizeLeq(jig: string, size: int)
    | NumSwapsUsedLeq(bound: int)
    | JigNeverOnRack(jig: string, rack: string)
    | JigOnlyIfEverOnRack(jig: string, rack: string)
    | JigToProductionLineOrder(jig1: string, line1: string, jig2: string, line2: string)
    | JigToRackOrder(jig1: string, rack1: string, jig2: string, rack2: string)
    | JigToProductionLineBeforeFlight(jig: string, line: string, flight: string)
    | UnknownProperty(name: string)

  /** Per kind of property, the dictionary from its parameters to its id.
      A later property with the same parameters replaces the id of an
      earlier one. The at-least-one property has a single slot whose
      initial value is the empty string. */
  datatype Registry = Registry(
    unload: Dict<(string, string, int), PropId>,
    load: Dict<(string, string, int), PropId>,
    deliver: Dict<(string, string, int), PropId>,
    rackEmpty: Dict<string, PropId>,
    atLeastOne: PropId,
    sizeLeq: Dict<(string, int), PropId>,
    swapsLeq: Dict<int, PropId>,
    neverOnRack: Dict<(string, string), PropId>,
    onlyIf: Dict<(string, string), PropId>,
    lineOrder: Dict<(string, string, string, string), PropId>,
    rackOrder: Dict<(string, string, string, string), PropId>,
    beforeFlight: Dict<(string, string, string), PropId>)

  const EmptyRegistry: Registry := Registry([], [], [], [], "", [], [], [], [], [], [], [])

  /** Files one property under its kind (one branch of checker.py:48-96):
      the dictionary of that kind gets the id under the property's
      parameters and every other slot is left as it is. An unknown name
      aborts. */
  function Register(reg: Registry, id: PropId, p: Property): (r: Result<Registry>)
    ensures r.Err? <==> p.UnknownProperty?
  {
    if p.UnknownProperty? then Err(UnknownPropertyName(p.name))
    else Ok(Registry(
      if p.UnloadBeluga? then Put(reg.unload, (p.jig, p.flight, p.index), id) else reg.unload,
      if p.LoadBeluga? then Put(reg.load, (p.jigOrType, p.flight, p.index), id) else reg.load,
      if p.DeliverToProductionLine? then Put(reg.deliver, (p.jig, p.line, p.index), id) else reg.deliver,
      if p.RackAlwaysEmpty? then Put(reg.rackEmpty, p.rack, id) else reg.rackEmpty,
      if p.AtLeastOneRackAlwaysEmpty? then id else reg.atLeastOne,
      if p.JigAlwaysPlacedOnRackSizeLeq? then Put(reg.sizeLeq, (p.jig, p.size), id) else reg.sizeLeq,
      if p.NumSwapsUsedLeq? then Put(reg.swapsLeq, p.bound, id) else reg.swapsLeq,
      if p.JigNeverOnRack? then Put(reg.neverOnRack, (p.jig, p.rack), id) else reg.neverOnRack,
      if p.JigOnlyIfEverOnRack? then Put(reg.onlyIf, (p.jig, p.rack), id) else reg.onlyIf,
      if p.JigToProductionLineOrder? then Put(reg.lineOrder, (p.jig1, p.line1, p.jig2, p.line2), id)
      else reg.lineOrder,
      if p.JigToRackOrder? then Put(reg.rackOrder, (p.jig1, p.rack1, p.jig2, p.rack2), id) else reg.rackOrder,
      if p.JigToProductionLineBeforeFlight? then Put(reg.beforeFlight, (p.jig, p.line, p.flight), id)
      else reg.beforeFlight))
  }

  /** The dispatch loop over the property table (checker.py:44-96): it
      aborts exactly when some property has an unknown name. */
  function Dispatch(props: Dict<PropId, Property>): (r: Result<Registry>)
    ensures r.Err? <==> exists i :: 0 <= i < |props| && props[i].1.UnknownProperty?
    decreases |props|
  {
    if |props| == 0 then Ok(EmptyRegistry)
    else
      var front: Dict<PropId, Property> := props[..|props| - 1];
      var (id, p) := props[|props| - 1];
      assert forall i :: 0 <= i < |front| ==> front[i] == props[i];
      var reg :- Dispatch(front);
      Register(reg, id, p)
  }

  /** The state of the pass over the trace. */
  datatype Scan = Scan(
    sat: Dict<PropId, bool>,                     // props_satisfied
    used: map<string, set<string>>,              // racks_used_to_put_jig
    thoughtEmpty: set<string>,                   // racks_thought_empty
    unloads: map<string, nat>,                   // unloads_encountered
    loads: map<string, nat>,                     // loads_encountered
    delivers: map<string, nat>,                  // delivers_encountered
    switched: set<string>,                       // switches_to_next_flight_encountered
    delivered: map<string, set<string>>,         // jigs_delivered_to_pl
    swaps: Dict<(string, string, Side), nat>)    // swaps_picks_and_puts

  /** A counter of a per-key tally: its value, or 0 when the key has none yet. */
  function Count(m: map<string, nat>, k: string): nat
  {
    if k in m then m[k] else 0
  }

  /** Adds `x` to the set kept under `k`, starting from an empty set when
      `k` has none yet. */
  function AddTo(m: map<string, set<string>>, k: string, x: string): (m': map<string, set<string>>)
    ensures m'.Keys == m.Keys + {k}
    ensures m'[k] == (if k in m then m[k] else {}) + {x}
    ensures forall k' :: k' in m && k' != k ==> m'[k'] == m[k']
  {
    m[k := (if k in m then m[k] else {}) + {x}]
  }

  /** Sets the property filed under a key, when there is one. */
  function Mark(sat: Dict<PropId, bool>, id: Option<PropId>, v: bool): (r: Dict<PropId, bool>)
    ensures id.Some? ==> Find(r, id.value) == Some(v)
    ensures forall q :: (id.None? || q != id.value) ==> Find(r, q) == Find(sat, q)
  {
    if id.Some? then Put(sat, id.value, v) else sat
  }

  /** Initial racks (checker.py:98-109): a rack holding jigs falsifies its
      always-empty property and is not thought empty; each of its jigs
      falsifies its never-on-rack property and records the rack as used. */
  function Seed(reg: Registry, racks: Dict<string, seq<string>>): Scan
  {
    SeedFrom(reg, racks, Start(racks))
  }

  /** Nothing counted yet; every rack is thought empty. */
  function Start(racks: Dict<string, seq<string>>): Scan
  {
    Scan([], map[], Keys(racks), map[], map[], map[], {}, map[], [])
  }

  function SeedFrom(reg: Registry, racks: seq<(string, seq<string>)>, st: Scan): Scan
    decreases |racks|
  {
    if |racks| == 0 then st
    else
      var (r, jigs) := racks[0];
      var st' := if |jigs| > 0 then
          SeedJigs(reg, r, jigs, st.(sat := Mark(st.sat, Find(reg.rackEmpty, r), false)))
        else st;
      SeedFrom(reg, racks[1..], st')
  }

  function SeedJigs(reg: Registry, r: string, jigs: seq<string>, st: Scan): Scan
    decreases |jigs|
  {
    if |jigs| == 0 then st
    else
      var j := jigs[0];
      var st' := st.(
        sat := Mark(st.sat, Find(reg.neverOnRack, (j, r)), false),
        used := AddTo(st.used, j, r),
        thoughtEmpty := st.thoughtEmpty - {r});
      SeedJigs(reg, r, jigs[1..], st')
  }

  /** The jig-to-rack-order loop of a put-down of `j` on `r`
      (checker.py:157-164), with `used` already recording the put-down.
      checker.py:161 looks the racks used for a jig up under the name of the
      first rack instead of under the name of the first jig, so the lookup
      fails with a missing key unless some jig happens to share the rack's
      name. */
  function RackOrderLoop(
    entries: seq<((string, string, string, string), PropId)>,
    used: map<string, set<string>>, sat: Dict<PropId, bool>, j: string, r: string
  ): (res: Result<Dict<PropId, bool>>)
    decreases |entries|
  {
    if |entries| == 0 then Ok(sat)
    else
      var (key, id) := entries[0];
      var (j1, r1, j2, r2) := key;
      var sat1 := if j == j1 && r == r1 then Put(sat, id, !(j2 in used && r2 in used[j2])) else sat;
      var sat2 :-
        if j == j2 && r == r2 then
          if j1 in used then
            if r1 !in used then Err(MissingKey)
            else if r1 in used[r1] then
              (match Find(sat1, id)
               case None => Err(MissingKey)
               case Some(b) => if b then Ok(sat1) else Err(FailedAssertion))
            else Ok(Put(sat1, id, false))
          else Ok(Put(sat1, id, false))
        else Ok(sat1);
      RackOrderLoop(entries[1..], used, sat2, j, r)
  }

  /** The rack-order loop writes only rack-order ids. */
  lemma {:induction false} RackOrderLoopFrame(
    entries: seq<((string, string, string, string), PropId)>,
    used: map<string, set<string>>, sat: Dict<PropId, bool>, j: string, r: string, q: PropId)
    requires RackOrderLoop(entries, used, sat, j, r).Ok?
    requires q !in Values(entries)
    ensures Find(RackOrderLoop(entries, used, sat, j, r).value, q) == Find(sat, q)
    decreases |entries|
  {
    if |entries| > 0 {
      var (key, id) := entries[0];
      var (j1, r1, j2, r2) := key;
      var sat1 := if j == j1 && r == r1 then Put(sat, id, !(j2 in used && r2 in used[j2])) else sat;
      var sat2 :=
        if j == j2 && r == r2 && !(j1 in used && r1 in used && r1 in used[r1]) then Put(sat1, id, false) else sat1;
      assert RackOrderLoop(entries, used, sat, j, r) == RackOrderLoop(entries[1..], used, sat2, j, r);
      RackOrderLoopFrame(entries[1..], used, sat2, j, r, q);
    }
  }

  /** The jig-to-production-line-order loop of a delivery of `j` to `pl`
      (checker.py:191-198), with `delivered` already recording it. Line 196
      asserts that an order property already true stays true. */
  function LineOrderLoop(
    entries: seq<((string, string, string, string), PropId)>,
    delivered: map<string, set<string>>, sat: Dict<PropId, bool>, j: string, pl: string
  ): (res: Result<Dict<PropId, bool>>)
    decreases |entries|
  {
    if |entries| == 0 then Ok(sat)
    else
      var (key, id) := entries[0];
      var (j1, pl1, j2, pl2) := key;
      var sat1 := if j == j1 && pl == pl1 then Put(sat, id, !(pl2 in delivered && j2 in delivered[pl2])) else sat;
      var sat2 :-
        if j == j2 && pl == pl2 then
          if pl1 in delivered && j1 in delivered[pl1] then
            (match Find(sat1, id)
             case None => Err(MissingKey)
             case Some(b) => if b then Ok(sat1) else Err(FailedAssertion))
          else Ok(Put(sat1, id, false))
        else Ok(sat1);
      LineOrderLoop(entries[1..], delivered, sat2, j, pl)
  }

  /** The line-order loop writes only line-order ids. */
  lemma {:induction false} LineOrderLoopFrame(
    entries: seq<((string, string, string, string), PropId)>,
    delivered: map<string, set<string>>, sat: Dict<PropId, bool>, j: string, pl: string, q: PropId)
    requires LineOrderLoop(entries, delivered, sat, j, pl).Ok?
    requires q !in Values(entries)
    ensures Find(LineOrderLoop(entries, delivered, sat, j, pl).value, q) == Find(sat, q)
    decreases |entries|
  {
    if |entries| > 0 {
      var (key, id) := entries[0];
      var (j1, pl1, j2, pl2) := key;
      var sat1 := if j == j1 && pl == pl1 then Put(sat, id, !(pl2 in delivered && j2 in delivered[pl2])) else sat;
      var sat2 :=
        if j == j2 && pl == pl2 && !(pl1 in delivered && j1 in delivered[pl1]) then Put(sat1, id, false) else sat1;
      assert LineOrderLoop(entries, delivered, sat, j, pl) == LineOrderLoop(entries[1..], delivered, sat2, j, pl);
      LineOrderLoopFrame(entries[1..], delivered, sat2, j, pl, q);
    }
  }

  /** The before-flight loop of a delivery of `j` to `pl` (checker.py:200-203). */
  function BeforeFlightLoop(
    entries: seq<((string, string, string), PropId)>,
    switched: set<string>, sat: Dict<PropId, bool>, j: string, pl: string
  ): (res: Dict<PropId, bool>)
    decreases |entries|
  {
    if |entries| == 0 then sat
    else
      var (key, id) := entries[0];
      var (jj, pll, fli) := key;
      var sat1 := if jj == j && pll == pl then Put(sat, id, fli !in switched) else sat;
      BeforeFlightLoop(entries[1..], switched, sat1, j, pl)
  }

  /** The before-flight loop writes only before-flight ids. */
  lemma {:induction false} BeforeFlightLoopFrame(
    entries: seq<((string, string, string), PropId)>,
    switched: set<string>, sat: Dict<PropId, bool>, j: string, pl: string, q: PropId)
    requires q !in Values(entries)
    ensures Find(BeforeFlightLoop(entries, switched, sat, j, pl), q) == Find(sat, q)
    decreases |entries|
  {
    if |entries| > 0 {
      var (key, id) := entries[0];
      var (jj, pll, fli) := key;
      var sat1 := if jj == j && pll == pl then Put(sat, id, fli !in switched) else sat;
      BeforeFlightLoopFrame(entries[1..], switched, sat1, j, pl, q);
    }
  }

  /** The ids an action may write. */
  function Written(reg: Registry, a: Action): set<PropId>
  {
    match a
    case UnloadBeluga(_, _, _) => Values(reg.unload)
    case LoadBeluga(_, _, _) => Values(reg.load)
    case PutDownRack(_, _, _, _) => Values(reg.rackEmpty) + Values(reg.rackOrder)
    case DeliverToHangar(_, _, _, _) => Values(reg.deliver) + Values(reg.lineOrder) + Values(reg.beforeFlight)
    case _ => {}
  }

  /** An unload of `j` from flight `b` (checker.py:122-131): the unload
      property filed under the flight's current unload number becomes true. */
  function OnUnload(reg: Registry, st: Scan, j: string, b: string): (st': Scan)
    ensures st' == st.(sat := st'.sat, unloads := st'.unloads)
  {
    var ji := Count(st.unloads, b);
    st.(sat := Mark(st.sat, Find(reg.unload, (j, b, ji)), true), unloads := st.unloads[b := ji + 1])
  }

  /** A load of `j` onto flight `b` (checker.py:133-146): the load property
      filed under the jig's name and the one filed under its type become
      true. The first is set before the type lookup can fail. */
  function OnLoad(reg: Registry, jigTypes: map<string, string>, st: Scan, j: string, b: string): (r: Result<Scan>)
    ensures r.Err? <==> j !in jigTypes
    ensures r.Ok? ==> r.value == st.(sat := r.value.sat, loads := r.value.loads)
  {
    var ji := Count(st.loads, b);
    var sat1 := Mark(st.sat, Find(reg.load, (j, b, ji)), true);
    if j !in jigTypes then Err(MissingKey)
    else Ok(st.(sat := Mark(sat1, Find(reg.load, (jigTypes[j], b, ji)), true), loads := st.loads[b := ji + 1]))
  }

  /** A put-down of `j` on `r` with trailer `t` on side `s`
      (checker.py:148-168). */
  function OnPutDown(reg: Registry, st: Scan, j: string, t: string, r: string, s: Side): (res: Result<Scan>)
    ensures res.Ok? ==> res.value == st.(sat := res.value.sat, used := res.value.used,
                                          thoughtEmpty := res.value.thoughtEmpty, swaps := res.value.swaps)
  {
    var sat1 := Mark(st.sat, Find(reg.rackEmpty, r), false);
    // checker.py:152 looks a (jig, rack) pair up among property ids, which
    // are strings: the test never succeeds and a put-down leaves every
    // never-on-rack property as it is
    var used1 := AddTo(st.used, j, r);
    var sat2 :- RackOrderLoop(reg.rackOrder, used1, sat1, j, r);
    Ok(st.(sat := sat2, used := used1, thoughtEmpty := st.thoughtEmpty - {r}, swaps := PutBack(st.swaps, (j, t, s))))
  }

  /** The swap counter update of a put-down (checker.py:166-168): an even
      counter becomes odd; an odd or missing one stays as it is. */
  function PutBack(swaps: Dict<(string, string, Side), nat>, key: (string, string, Side)): Dict<(string, string, Side), nat>
  {
    match Find(swaps, key)
    case Some(c) => if c % 2 == 0 then Put<(string, string, Side), nat>(swaps, key, c + 1) else swaps
    case None => swaps
  }

  /** A pick-up of `j` with trailer `t` on side `s` (checker.py:170-176):
      the first one starts the swap counter at 0; a later one asserts that
      the counter is odd. */
  function OnPickUp(st: Scan, j: string, t: string, s: Side): (res: Result<Scan>)
    ensures res.Ok? ==> res.value == st.(swaps := res.value.swaps)
  {
    match Find(st.swaps, (j, t, s))
    case Some(c) =>
      if c % 2 == 0 then Err(FailedAssertion)
      else Ok(st.(swaps := Put<(string, string, Side), nat>(st.swaps, (j, t, s), c + 1)))
    case None => Ok(st.(swaps := Put<(string, string, Side), nat>(st.swaps, (j, t, s), 0)))
  }

  /** A delivery of `j` to production line `pl` (checker.py:178-203). */
  function OnDeliver(reg: Registry, st: Scan, j: string, pl: string): (res: Result<Scan>)
    ensures res.Ok? ==> res.value == st.(sat := res.value.sat, delivers := res.value.delivers,
                                          delivered := res.value.delivered)
  {
    var pli := Count(st.delivers, pl);
    var sat1 := Mark(st.sat, Find(reg.deliver, (j, pl, pli)), true);
    var delivered1 := AddTo(st.delivered, pl, j);
    var sat2 :- LineOrderLoop(reg.lineOrder, delivered1, sat1, j, pl);
    var sat3 := BeforeFlightLoop(reg.beforeFlight, st.switched, sat2, j, pl);
    Ok(st.(sat := sat3, delivers := st.delivers[pl := pli + 1], delivered := delivered1))
  }

  /** A switch to the next flight (checker.py:208-210): the k-th switch,
      counting from 1, records the k-th flight after the first. The flight
      named by the action is not consulted; running out of flights raises
      IndexError. */
  function OnSwitch(flights: seq<string>, st: Scan): (res: Result<Scan>)
    ensures res.Ok? <==> |st.switched| + 1 < |flights|
    ensures res.Err? ==> res.fault == IndexOutOfRange
    ensures res.Ok? ==> res.value == st.(switched := st.switched + {flights[|st.switched| + 1]})
  {
    var k := |st.switched| + 1;
    if k < |flights| then Ok(st.(switched := st.switched + {flights[k]}))
    else Err(IndexOutOfRange)
  }

  /** One action of the trace (checker.py:120-213). */
  function Step(
    reg: Registry, flights: seq<string>, jigTypes: map<string, string>, st: Scan, a: Action
  ): (res: Result<Scan>)
    ensures a.Unrecognised? ==> res == Err(UnknownActionName(a.name))
  {
    match a
    case UnloadBeluga(j, b, _) => Ok(OnUnload(reg, st, j, b))
    case LoadBeluga(j, b, _) => OnLoad(reg, jigTypes, st, j, b)
    case PutDownRack(j, t, r, s) => OnPutDown(reg, st, j, t, r, s)
    case PickUpRack(j, t, _, s) => OnPickUp(st, j, t, s)
    case DeliverToHangar(j, _, _, pl) => OnDeliver(reg, st, j, pl)
    case GetFromHangar(_, _, _) => Ok(st)
    case SwitchToNextBeluga(_) => OnSwitch(flights, st)
    case Unrecognised(name) => Err(UnknownActionName(name))
  }

  /** An action writes only the ids of the kinds it is about. */
  lemma StepFrame(
    reg: Registry, flights: seq<string>, jigTypes: map<string, string>, st: Scan, a: Action, q: PropId)
    requires Step(reg, flights, jigTypes, st, a).Ok?
    requires q !in Written(reg, a)
    ensures Find(Step(reg, flights, jigTypes, st, a).value.sat, q) == Find(st.sat, q)
  {
    match a
    case UnloadBeluga(j, b, _) =>
      var key := (j, b, Count(st.unloads, b));
      if Find(reg.unload, key).Some? {
        FindInValues(reg.unload, key, Find(reg.unload, key).value);
      }
    case LoadBeluga(j, b, _) =>
      var key := (j, b, Count(st.loads, b));
      if Find(reg.load, key).Some? {
        FindInValues(reg.load, key, Find(reg.load, key).value);
      }
      if j in jigTypes && Find(reg.load, (jigTypes[j], b, Count(st.loads, b))).Some? {
        var key' := (jigTypes[j], b, Count(st.loads, b));
        FindInValues(reg.load, key', Find(reg.load, key').value);
      }
    case PutDownRack(j, t, r, s) =>
      if Find(reg.rackEmpty, r).Some? {
        FindInValues(reg.rackEmpty, r, Find(reg.rackEmpty, r).value);
      }
      var sat1 := Mark(st.sat, Find(reg.rackEmpty, r), false);
      RackOrderLoopFrame(reg.rackOrder, AddTo(st.used, j, r), sat1, j, r, q);
    case DeliverToHangar(j, _, _, pl) =>
      var key := (j, pl, Count(st.delivers, pl));
      if Find(reg.deliver, key).Some? {
        FindInValues(reg.deliver, key, Find(reg.deliver, key).value);
      }
      var sat1 := Mark(st.sat, Find(reg.deliver, (j, pl, Count(st.delivers, pl))), true);
      var delivered1 := AddTo(st.delivered, pl, j);
      LineOrderLoopFrame(reg.lineOrder, delivered1, sat1, j, pl, q);
      var sat2 := LineOrderLoop(reg.lineOrder, delivered1, sat1, j, pl).value;
      BeforeFlightLoopFrame(reg.beforeFlight, st.switched, sat2, j, pl, q);
    case _ =>
  }

  /** The pass over the trace, front to back; the first abort ends it. */
  function Run(
    reg: Registry, flights: seq<string>, jigTypes: map<string, string>, st: Scan, plan: seq<Action>
  ): (res: Result<Scan>)
    decreases |plan|
  {
    if |plan| == 0 then Ok(st)
    else
      var st' :- Run(reg, flights, jigTypes, st, plan[..|plan| - 1]);
      Step(reg, flights, jigTypes, st', plan[|plan| - 1])
  }

  /** Total swaps (checker.py:215): each counter contributes half of itself,
      rounded down. */
  function SwapTotal(swaps: seq<((string, string, Side), nat)>): nat
  {
    if |swaps| == 0 then 0 else swaps[0].1 / 2 + SwapTotal(swaps[1..])
  }

  /** Every id of `entries` is either still unset in `sat` or set to `b`. */
  predicate AbsentOr<K>(sat: Dict<PropId, bool>, entries: seq<(K, PropId)>, b: bool)
    decreases |entries|
  {
    |entries| == 0 || (Find(sat, entries[0].1) != Some(!b) && AbsentOr(sat, entries[1..], b))
  }

  /** Gives every listed id that has no value yet the value `b`. */
  function Defaults<K>(sat: Dict<PropId, bool>, entries: seq<(K, PropId)>, b: bool): (r: Dict<PropId, bool>)
    decreases |entries|
  {
    if |entries| == 0 then sat
    else
      var id := entries[0].1;
      Defaults(if Find(sat, id).None? then Put(sat, id, b) else sat, entries[1..], b)
  }

  /** checker.py:245-246: the rack parameter is not consulted. */
  function OnlyIfLoop(
    entries: seq<((string, string), PropId)>, used: map<string, set<string>>, sat: Dict<PropId, bool>
  ): (r: Dict<PropId, bool>)
    decreases |entries|
  {
    if |entries| == 0 then sat
    else
      var ((j, _), id) := entries[0];
      OnlyIfLoop(entries[1..], used, Put(sat, id, j !in used || |used[j]| <= 1))
  }

  /** checker.py:248-252: the largest rack a jig has been on is at most the
      bound; a rack without a known size raises KeyError. */
  function SizeLeqLoop(
    entries: seq<((string, int), PropId)>, used: map<string, set<string>>,
    racksSize: map<string, int>, sat: Dict<PropId, bool>
  ): (r: Result<Dict<PropId, bool>>)
    decreases |entries|
  {
    if |entries| == 0 then Ok(sat)
    else
      var ((j, rs), id) := entries[0];
      if j in used && exists r :: r in used[j] && r !in racksSize then Err(MissingKey)
      else
        var holds := j !in used || forall r :: r in used[j] ==> racksSize[r] <= rs;
        SizeLeqLoop(entries[1..], used, racksSize, Put(sat, id, holds))
  }

  function SwapsLeqLoop(entries: seq<(int, PropId)>, total: nat, sat: Dict<PropId, bool>): (r: Dict<PropId, bool>)
    decreases |entries|
  {
    if |entries| == 0 then sat
    else SwapsLeqLoop(entries[1..], total, Put(sat, entries[0].1, total <= entries[0].0))
  }

  /** The first five resolutions (checker.py:218-241): every unload, load
      and delivery property set during the pass must be true, every
      always-empty and never-on-rack property set must be false, and the
      ones not set get the opposite value. */
  function ResolveTrace(reg: Registry, sat: Dict<PropId, bool>): (r: Result<Dict<PropId, bool>>)
  {
    if !AbsentOr(sat, reg.unload, true) then Err(FailedAssertion) else
    var s1 := Defaults(sat, reg.unload, false);
    if !AbsentOr(s1, reg.load, true) then Err(FailedAssertion) else
    var s2 := Defaults(s1, reg.load, false);
    if !AbsentOr(s2, reg.deliver, true) then Err(FailedAssertion) else
    var s3 := Defaults(s2, reg.deliver, false);
    if !AbsentOr(s3, reg.rackEmpty, false) then Err(FailedAssertion) else
    var s4 := Defaults(s3, reg.rackEmpty, true);
    if !AbsentOr(s4, reg.neverOnRack, false) then Err(FailedAssertion) else
    Ok(Defaults(s4, reg.neverOnRack, true))
  }

  /** Resolution of every property after the pass (checker.py:215-267). */
  function Finalise(reg: Registry, st: Scan, racksSize: map<string, int>): Result<Dict<PropId, bool>>
  {
    var s5 :- ResolveTrace(reg, st.sat);
    // written even when no at-least-one property was given, under the id ""
    var s6 := Put(s5, reg.atLeastOne, |st.thoughtEmpty| > 0);
    var s7 := OnlyIfLoop(reg.onlyIf, st.used, s6);
    var s8 :- SizeLeqLoop(reg.sizeLeq, st.used, racksSize, s7);
    var s9 := SwapsLeqLoop(reg.swapsLeq, SwapTotal(st.swaps), s8);
    Ok(ResolveOrders(reg, s9))
  }

  /** The last three resolutions (checker.py:258-268): order and
      before-flight properties never set are false. */
  function ResolveOrders(reg: Registry, sat: Dict<PropId, bool>): Dict<PropId, bool>
  {
    Defaults(Defaults(Defaults(sat, reg.lineOrder, false), reg.rackOrder, false), reg.beforeFlight, false)
  }

  /** `check_plan_properties`: the ids of the properties the plan satisfies. */
  function Check(
    props: Dict<PropId, Property>, plan: seq<Action>, flights: seq<string>,
    jigTypes: map<string, string>, racksInitial: Dict<string, seq<string>>, racksSize: map<string, int>
  ): (r: Result<seq<PropId>>)
    ensures (exists i :: 0 <= i < |props| && props[i].1.UnknownProperty?) ==> r.Err?
  {
    var reg :- Dispatch(props);
    var st :- Run(reg, flights, jigTypes, Seed(reg, racksInitial), plan);
    var sat :- Finalise(reg, st, racksSize);
    Ok(TrueKeys(sat))
  }
}

=== FILE: checker_facts.dfy ===
/** Consequences of the checker as written: which inputs abort it, and the
    quirks of checker.py shown on small concrete inputs. */
module CheckerFacts {
  import opened Basics
  import opened Dicts
  import opened Domain
  import opened Checker

  /** An action outside the seven known names aborts the pass wherever it
      occurs in the trace. */
  lemma {:induction false} RunUnrecognised(
    reg: Registry, flights: seq<string>, jigTypes: map<string, string>, st: Scan, plan: seq<Action>, i: int)
    requires 0 <= i < |plan| && plan[i].Unrecognised?
    ensures Run(reg, flights, jigTypes, st, plan).Err?
    decreases |plan|
  {
    if i < |plan| - 1 {
      RunUnrecognised(reg, flights, jigTypes, st, plan[..|plan| - 1], i);
    }
  }

  /** With well-named properties, a trace holding an unknown action name
      yields no result (checker.py:212-213). */
  lemma CheckRejectsUnknownAction(
    props: Dict<PropId, Property>, plan: seq<Action>, flights: seq<string>,
    jigTypes: map<string, string>, racksInitial: Dict<string, seq<string>>, racksSize: map<string, int>, i: int)
    requires 0 <= i < |plan| && plan[i].Unrecognised?
    ensures Check(props, plan, flights, jigTypes, racksInitial, racksSize).Err?
  {
    if Dispatch(props).Ok? {
      RunUnrecognised(Dispatch(props).value, flights, jigTypes, Seed(Dispatch(props).value, racksInitial), plan, i);
    }
  }

  /** Whether an action puts down or picks up jig `j` with trailer `t` on side `s`. */
  predicate MovesOn(a: Action, j: string, t: string, s: Side)
  {
    (a.PutDownRack? || a.PickUpRack?) && a.j == j && a.t == t && a.s == s
  }

  /** A second pick-up under the same jig, trailer and side, after any
      actions none of which puts that jig down or picks it up with that
      trailer on that side, fails the assertion of checker.py:173. */
  lemma PickUpTwice(
    reg: Registry, flights: seq<string>, jigTypes: map<string, string>, st: Scan, st1: Scan, st2: Scan,
    j: string, t: string, r: string, r': string, s: Side, mid: seq<Action>)
    requires Step(reg, flights, jigTypes, st, PickUpRack(j, t, r, s)) == Ok(st1)
    requires forall i :: 0 <= i < |mid| ==> !MovesOn(mid[i], j, t, s)
    requires Run(reg, flights, jigTypes, st1, mid) == Ok(st2)
    ensures Step(reg, flights, jigTypes, st2, PickUpRack(j, t, r', s)) == Err(FailedAssertion)
  {
    RunKeepsCounter(reg, flights, jigTypes, st1, mid, j, t, s);
    PickUpAgain(st, j, t, s);
  }

  /** An action that neither puts down nor picks up under a triple leaves
      that triple's swap counter as it is. */
  lemma StepKeepsCounter(
    reg: Registry, flights: seq<string>, jigTypes: map<string, string>, st: Scan, a: Action,
    j: string, t: string, s: Side)
    requires Step(reg, flights, jigTypes, st, a).Ok? && !MovesOn(a, j, t, s)
    ensures Find(Step(reg, flights, jigTypes, st, a).value.swaps, (j, t, s)) == Find(st.swaps, (j, t, s))
  {
    match a
    case PutDownRack(j', t', r', s') =>
      assert Find(PutBack(st.swaps, (j', t', s')), (j, t, s)) == Find(st.swaps, (j, t, s));
    case PickUpRack(j', t', _, s') =>
    case _ =>
  }

  /** So does a run of such actions. */
  lemma {:induction false} RunKeepsCounter(
    reg: Registry, flights: seq<string>, jigTypes: map<string, string>, st: Scan, mid: seq<Action>,
    j: string, t: string, s: Side)
    requires Run(reg, flights, jigTypes, st, mid).Ok?
    requires forall i :: 0 <= i < |mid| ==> !MovesOn(mid[i], j, t, s)
    ensures Find(Run(reg, flights, jigTypes, st, mid).value.swaps, (j, t, s)) == Find(st.swaps, (j, t, s))
    decreases |mid|
  {
    if |mid| > 0 {
      var pre := mid[..|mid| - 1];
      assert Run(reg, flights, jigTypes, st, pre).Ok?;
      RunKeepsCounter(reg, flights, jigTypes, st, pre, j, t, s);
      StepKeepsCounter(reg, flights, jigTypes, Run(reg, flights, jigTypes, st, pre).value, mid[|mid| - 1], j, t, s);
    }
  }

  /** The counter a pick-up leaves is even, so the same pick-up again fails. */
  lemma PickUpAgain(st: Scan, j: string, t: string, s: Side)
    requires OnPickUp(st, j, t, s).Ok?
    ensures OnPickUp(OnPickUp(st, j, t, s).value, j, t, s) == Err(FailedAssertion)
  {
    var st1 := OnPickUp(st, j, t, s).value;
    match Find(st.swaps, (j, t, s))
    case Some(c) =>
      assert Find(st1.swaps, (j, t, s)) == Some(c + 1);
    case None =>
      assert Find(st1.swaps, (j, t, s)) == Some(0);
  }

  /** Without an at-least-one property, the id "" is still written
      (checker.py:243) and reported when some rack is empty. */
  lemma EmptyIdReported()
    ensures Check([], [], [], map[], [("r1", [])], map[]) == Ok([""])
  {
    var racks: Dict<string, seq<string>> := [("r1", [])];
    var st := Seed(EmptyRegistry, racks);
    assert Dispatch([]) == Ok(EmptyRegistry);
    assert Keys(racks) == {"r1"};
    assert st.thoughtEmpty == {"r1"} && st.sat == [];
    assert Run(EmptyRegistry, [], map[], st, []) == Ok(st);
    assert ResolveTrace(EmptyRegistry, []) == Ok([]);
    var s6: Dict<PropId, bool> := [("", true)];
    assert Put([], "", true) == s6;
    assert Finalise(EmptyRegistry, st, map[]) == Ok(s6);
    assert TrueKeys(s6) == [""];
  }
}

=== FILE: checker_final.dfy ===
/** What the resolution after the pass (checker.py:215-268) gives an id
    filed in exactly one registry slot, per kind of slot. */
module CheckerFinal {
  import opened Basics
  import opened Dicts
  import opened Domain
  import opened Checker
  import opened CheckerRegistry
  import opened CheckerTrace

  /** In a dictionary holding `v` at most once, under key `k`: either the
      first item is that one and the rest does not hold `v`, or the rest
      still holds `v` under `k`. */
  lemma HeadOrRest<K(!new), V(!new)>(d: seq<(K, V)>, v: V, k: K)
    requires |d| > 0 && CountVal(d, v) <= 1 && Find(d, k) == Some(v)
    ensures d[0].1 == v ==> d[0].0 == k && v !in Values(d[1..])
    ensures d[0].1 != v ==> Find(d[1..], k) == Some(v) && CountVal(d[1..], v) <= 1
  {
    if d[0].1 == v && d[0].0 != k {
      FindInValues(d[1..], k, v);
    }
  }

  /** The only-if loop gives the id of `(j, r)` the value "`j` was put on
      at most one rack"; `r` plays no part. */
  lemma {:induction false} OnlyIfLoopHit(
    entries: seq<((string, string), PropId)>, used: map<string, set<string>>, sat: Dict<PropId, bool>,
    p: PropId, j: string, r: string)
    requires CountVal(entries, p) <= 1 && Find(entries, (j, r)) == Some(p)
    ensures Find(OnlyIfLoop(entries, used, sat), p) == Some(|Racks(used, j)| <= 1)
    decreases |entries|
  {
    HeadOrRest(entries, p, (j, r));
    var ((j0, _), id) := entries[0];
    var sat1 := Put(sat, id, j0 !in used || |used[j0]| <= 1);
    if id != p {
      OnlyIfLoopHit(entries[1..], used, sat1, p, j, r);
    } else {
      OnlyIfLoopFrame(entries[1..], used, sat1, p);
    }
  }

  /** The rack-size loop gives the id of `(j, rs)` the value "every rack
      `j` was put on has a size of at most `rs`". */
  lemma {:induction false} SizeLeqLoopHit(
    entries: seq<((string, int), PropId)>, used: map<string, set<string>>, racksSize: map<string, int>,
    sat: Dict<PropId, bool>, p: PropId, j: string, rs: int)
    requires SizeLeqLoop(entries, used, racksSize, sat).Ok?
    requires CountVal(entries, p) <= 1 && Find(entries, (j, rs)) == Some(p)
    ensures Find(SizeLeqLoop(entries, used, racksSize, sat).value, p)
         == Some(forall x :: x in Racks(used, j) ==> x in racksSize && racksSize[x] <= rs)
    decreases |entries|
  {
    HeadOrRest(entries, p, (j, rs));
    var ((j0, rs0), id) := entries[0];
    var holds := j0 !in used || forall x :: x in used[j0] ==> racksSize[x] <= rs0;
    if id != p {
      SizeLeqLoopHit(entries[1..], used, racksSize, Put(sat, id, holds), p, j, rs);
    } else {
      SizeLeqLoopFrame(entries[1..], used, racksSize, Put(sat, id, holds), p);
    }
  }

  /** The rack-size loop raises KeyError exactly when some listed jig was
      put on a rack of unknown size. */
  lemma {:induction false} SizeLeqLoopErr(
    entries: seq<((string, int), PropId)>, used: map<string, set<string>>, racksSize: map<string, int>,
    sat: Dict<PropId, bool>)
    ensures SizeLeqLoop(entries, used, racksSize, sat).Err?
        <==> exists i :: 0 <= i < |entries| && !(Racks(used, entries[i].0.0) <= racksSize.Keys)
    decreases |entries|
  {
    if |entries| > 0 {
      var ((j, rs), id) := entries[0];
      if !(j in used && exists x :: x in used[j] && x !in racksSize) {
        var holds := j !in used || forall x :: x in used[j] ==> racksSize[x] <= rs;
        SizeLeqLoopErr(entries[1..], used, racksSize, Put(sat, id, holds));
        if exists i :: 0 <= i < |entries| && !(Racks(used, entries[i].0.0) <= racksSize.Keys) {
          var i :| 0 <= i < |entries| && !(Racks(used, entries[i].0.0) <= racksSize.Keys);
          assert entries[1..][i - 1] == entries[i];
        }
        if exists i :: 0 <= i < |entries[1..]| && !(Racks(used, entries[1..][i].0.0) <= racksSize.Keys) {
          var i :| 0 <= i < |entries[1..]| && !(Racks(used, entries[1..][i].0.0) <= racksSize.Keys);
          assert entries[i + 1] == entries[1..][i];
        }
      }
    }
  }

  /** The swap-bound loop gives the id of `n` the value "the total is at
      most `n`". */
  lemma {:induction false} SwapsLeqLoopHit(
    entries: seq<(int, PropId)>, total: nat, sat: Dict<PropId, bool>, p: PropId, n: int)
    requires CountVal(entries, p) <= 1 && Find(entries, n) == Some(p)
    ensures Find(SwapsLeqLoop(entries, total, sat), p) == Some(total <= n)
    decreases |entries|
  {
    HeadOrRest(entries, p, n);
    if entries[0].1 != p {
      SwapsLeqLoopHit(entries[1..], total, Put(sat, entries[0].1, total <= entries[0].0), p, n);
    } else {
      SwapsLeqLoopFrame(entries[1..], total, Put(sat, entries[0].1, total <= entries[0].0), p);
    }
  }

  /** Stages of a successful resolution. */
  lemma FinaliseParts(reg: Registry, st: Scan, racksSize: map<string, int>)
    returns (s5: Dict<PropId, bool>, s7: Dict<PropId, bool>, s8: Dict<PropId, bool>, s9: Dict<PropId, bool>)
    requires Finalise(reg, st, racksSize).Ok?
    ensures ResolveTrace(reg, st.sat) == Ok(s5)
    ensures s7 == OnlyIfLoop(reg.onlyIf, st.used, Put(s5, reg.atLeastOne, |st.thoughtEmpty| > 0))
    ensures SizeLeqLoop(reg.sizeLeq, st.used, racksSize, s7) == Ok(s8)
    ensures s9 == SwapsLeqLoop(reg.swapsLeq, SwapTotal(st.swaps), s8)
    ensures Finalise(reg, st, racksSize).value == ResolveOrders(reg, s9)
  {
    s5 := ResolveTrace(reg, st.sat).value;
    s7 := OnlyIfLoop(reg.onlyIf, st.used, Put(s5, reg.atLeastOne, |st.thoughtEmpty| > 0));
    s8 := SizeLeqLoop(reg.sizeLeq, st.used, racksSize, s7).value;
    s9 := SwapsLeqLoop(reg.swapsLeq, SwapTotal(st.swaps), s8);
  }

  /** Filling in defaults: a present value stays, a listed id without one
      gets the default. */
  lemma {:induction false} DefaultsAt<K>(sat: Dict<PropId, bool>, entries: seq<(K, PropId)>, b: bool, p: PropId)
    ensures Find(Defaults(sat, entries, b), p)
         == if Find(sat, p).Some? then Find(sat, p) else if p in Values(entries) then Some(b) else None
    decreases |entries|
  {
    if |entries| > 0 {
      var id := entries[0].1;
      DefaultsAt(if Find(sat, id).None? then Put(sat, id, b) else sat, entries[1..], b, p);
    }
  }

  /** The only-if loop leaves every id outside its table as it is. */
  lemma {:induction false} OnlyIfLoopFrame(
    entries: seq<((string, string), PropId)>, used: map<string, set<string>>, sat: Dict<PropId, bool>, q: PropId)
    requires q !in Values(entries)
    ensures Find(OnlyIfLoop(entries, used, sat), q) == Find(sat, q)
    decreases |entries|
  {
    if |entries| > 0 {
      var ((j, _), id) := entries[0];
      OnlyIfLoopFrame(entries[1..], used, Put(sat, id, j !in used || |used[j]| <= 1), q);
    }
  }

  /** The rack-size loop, when it succeeds, leaves every id outside its
      table as it is. */
  lemma {:induction false} SizeLeqLoopFrame(
    entries: seq<((string, int), PropId)>, used: map<string, set<string>>, racksSize: map<string, int>,
    sat: Dict<PropId, bool>, q: PropId)
    requires SizeLeqLoop(entries, used, racksSize, sat).Ok? && q !in Values(entries)
    ensures Find(SizeLeqLoop(entries, used, racksSize, sat).value, q) == Find(sat, q)
    decreases |entries|
  {
    if |entries| > 0 {
      var ((j, rs), id) := entries[0];
      var holds := j !in used || forall x :: x in used[j] ==> racksSize[x] <= rs;
      SizeLeqLoopFrame(entries[1..], used, racksSize, Put(sat, id, holds), q);
    }
  }

  /** The swap-bound loop leaves every id outside its table as it is. */
  lemma {:induction false} SwapsLeqLoopFrame(entries: seq<(int, PropId)>, total: nat, sat: Dict<PropId, bool>, q: PropId)
    requires q !in Values(entries)
    ensures Find(SwapsLeqLoop(entries, total, sat), q) == Find(sat, q)
    decreases |entries|
  {
    if |entries| > 0 {
      SwapsLeqLoopFrame(entries[1..], total, Put(sat, entries[0].1, total <= entries[0].0), q);
    }
  }

  /** The first five resolutions keep every value set during the pass and
      give the unset unload, load and delivery ids false and the unset
      always-empty and never-on-rack ids true. */
  lemma ResolveTraceAt(reg: Registry, sat: Dict<PropId, bool>, p: PropId)
    requires ResolveTrace(reg, sat).Ok?
    ensures Find(ResolveTrace(reg, sat).value, p)
         == if Find(sat, p).Some? then Find(sat, p)
            else if p in Values(reg.unload) || p in Values(reg.load) || p in Values(reg.deliver) then Some(false)
            else if p in Values(reg.rackEmpty) || p in Values(reg.neverOnRack) then Some(true)
            else None
  {
    var s1 := Defaults(sat, reg.unload, false);
    var s2 := Defaults(s1, reg.load, false);
    var s3 := Defaults(s2, reg.deliver, false);
    var s4 := Defaults(s3, reg.rackEmpty, true);
    assert ResolveTrace(reg, sat) == Ok(Defaults(s4, reg.neverOnRack, true));
    DefaultsAt(sat, reg.unload, false, p);
    DefaultsAt(s1, reg.load, false, p);
    DefaultsAt(s2, reg.deliver, false, p);
    DefaultsAt(s3, reg.rackEmpty, true, p);
    DefaultsAt(s4, reg.neverOnRack, true, p);
  }

  /** The last three resolutions keep every present value and give the
      unset order and before-flight ids false. */
  lemma ResolveOrdersAt(reg: Registry, sat: Dict<PropId, bool>, p: PropId)
    ensures Find(ResolveOrders(reg, sat), p)
         == if Find(sat, p).Some? then Find(sat, p)
            else if p in Values(reg.lineOrder) || p in Values(reg.rackOrder) || p in Values(reg.beforeFlight)
            then Some(false)
            else None
  {
    var s10 := Defaults(sat, reg.lineOrder, false);
    var s11 := Defaults(s10, reg.rackOrder, false);
    DefaultsAt(sat, reg.lineOrder, false, p);
    DefaultsAt(s10, reg.rackOrder, false, p);
    DefaultsAt(s11, reg.beforeFlight, false, p);
  }

  /** The three loops of the middle of the resolution leave every id outside
      their tables as it is. */
  lemma MiddleFrame(reg: Registry, st: Scan, racksSize: map<string, int>, s7: Dict<PropId, bool>, p: PropId)
    requires SizeLeqLoop(reg.sizeLeq, st.used, racksSize, s7).Ok?
    requires p !in Values(reg.sizeLeq) && p !in Values(reg.swapsLeq)
    ensures Find(SwapsLeqLoop(reg.swapsLeq, SwapTotal(st.swaps), SizeLeqLoop(reg.sizeLeq, st.used, racksSize, s7).value), p)
         == Find(s7, p)
  {
    var s8 := SizeLeqLoop(reg.sizeLeq, st.used, racksSize, s7).value;
    SizeLeqLoopFrame(reg.sizeLeq, st.used, racksSize, s7, p);
    SwapsLeqLoopFrame(reg.swapsLeq, SwapTotal(st.swaps), s8, p);
  }

  /** The value the resolution gives an id the pass left unset: the
      default of the first table, in resolution order, that lists it. */
  function Default(reg: Registry, p: PropId): Option<bool>
  {
    if p in Values(reg.unload) || p in Values(reg.load) || p in Values(reg.deliver) then Some(false)
    else if p in Values(reg.rackEmpty) || p in Values(reg.neverOnRack) then Some(true)
    else if p in Values(reg.lineOrder) || p in Values(reg.rackOrder) || p in Values(reg.beforeFlight) then Some(false)
    else None
  }

  /** The default of each kind; none for the kinds the middle loops write. */
  function KindDefault(kind: Kind): Option<bool>
  {
    match kind
    case RackEmptyKind => Some(true)
    case NeverOnRackKind => Some(true)
    case AtLeastOneKind => None
    case OnlyIfKind => None
    case SizeLeqKind => None
    case SwapsLeqKind => None
    case _ => Some(false)
  }

  /** An id filed only in a trace or order slot is untouched by the middle
      loops and gets the default of its kind. */
  lemma KindFacts(reg: Registry, p: PropId, kind: Kind)
    requires FiledOnlyIn(reg, p, kind) && KindDefault(kind).Some?
    ensures reg.atLeastOne != p && p !in Values(reg.onlyIf) && p !in Values(reg.sizeLeq) && p !in Values(reg.swapsLeq)
    ensures Default(reg, p) == KindDefault(kind)
  {
    match kind {
      case UnloadKind =>
      case LoadKind =>
      case DeliverKind =>
      case RackEmptyKind =>
      case NeverOnRackKind =>
      case LineOrderKind =>
      case RackOrderKind =>
      case BeforeFlightKind =>
    }
  }

  /** Outside the middle loops' tables, the resolution keeps the value the
      pass left and otherwise gives the default. */
  lemma FinalOutsideMiddle(reg: Registry, st: Scan, racksSize: map<string, int>, p: PropId)
    requires Finalise(reg, st, racksSize).Ok?
    requires reg.atLeastOne != p && p !in Values(reg.onlyIf) && p !in Values(reg.sizeLeq) && p !in Values(reg.swapsLeq)
    ensures Find(Finalise(reg, st, racksSize).value, p) == if Find(st.sat, p).Some? then Find(st.sat, p) else Default(reg, p)
  {
    var s5, s7, s8, s9 := FinaliseParts(reg, st, racksSize);
    ResolveTraceAt(reg, st.sat, p);
    OnlyIfLoopFrame(reg.onlyIf, st.used, Put(s5, reg.atLeastOne, |st.thoughtEmpty| > 0), p);
    MiddleFrame(reg, st, racksSize, s7, p);
    ResolveOrdersAt(reg, s9, p);
  }

  /** An unload, load, delivery, order or before-flight id ends up true
      exactly when the pass set it to true. */
  lemma FinalSetTrue(reg: Registry, st: Scan, racksSize: map<string, int>, p: PropId, kind: Kind)
    requires Finalise(reg, st, racksSize).Ok? && FiledOnlyIn(reg, p, kind)
    requires KindDefault(kind) == Some(false)
    ensures Find(Finalise(reg, st, racksSize).value, p) == Some(Find(st.sat, p) == Some(true))
  {
    KindFacts(reg, p, kind);
    FinalOutsideMiddle(reg, st, racksSize, p);
    BoolOption(Find(st.sat, p), false);
  }

  /** An always-empty or never-on-rack id ends up true exactly when neither
      the initial racks nor the pass set it to false. */
  lemma FinalSetFalse(reg: Registry, st: Scan, racksSize: map<string, int>, p: PropId, kind: Kind)
    requires Finalise(reg, st, racksSize).Ok? && FiledOnlyIn(reg, p, kind)
    requires KindDefault(kind) == Some(true)
    ensures Find(Finalise(reg, st, racksSize).value, p) == Some(Find(st.sat, p) != Some(false))
  {
    KindFacts(reg, p, kind);
    FinalOutsideMiddle(reg, st, racksSize, p);
    BoolOption(Find(st.sat, p), true);
  }

  /** A present truth value, or a default, as a plain truth value. */
  lemma BoolOption(x: Option<bool>, d: bool)
    ensures (if x.Some? then x else Some(d)) == Some(if d then x != Some(false) else x == Some(true))
  {
    match x {
      case Some(b) => assert b || !b;
      case None =>
    }
  }

  /** Where an id filed only under a middle-loop kind is not filed. */
  lemma MiddleFacts(reg: Registry, p: PropId, kind: Kind)
    requires FiledOnlyIn(reg, p, kind)
    ensures kind != AtLeastOneKind ==> reg.atLeastOne != p
    ensures kind != OnlyIfKind ==> p !in Values(reg.onlyIf)
    ensures kind != SizeLeqKind ==> p !in Values(reg.sizeLeq)
    ensures kind != SwapsLeqKind ==> p !in Values(reg.swapsLeq)
    ensures kind == OnlyIfKind ==> CountVal(reg.onlyIf, p) == 1
    ensures kind == SizeLeqKind ==> CountVal(reg.sizeLeq, p) == 1
    ensures kind == SwapsLeqKind ==> CountVal(reg.swapsLeq, p) == 1
  {
    Elsewhere(reg, p, kind, AtLeastOneKind);
    Elsewhere(reg, p, kind, OnlyIfKind);
    Elsewhere(reg, p, kind, SizeLeqKind);
    Elsewhere(reg, p, kind, SwapsLeqKind);
  }

  /** A value present after the rack-size loop survives the swap-bound loop
      and the order defaults when the swap-bound table does not list it. */
  lemma AfterSizeLeq(reg: Registry, total: nat, s8: Dict<PropId, bool>, s9: Dict<PropId, bool>, p: PropId)
    requires s9 == SwapsLeqLoop(reg.swapsLeq, total, s8)
    requires p !in Values(reg.swapsLeq) && Find(s8, p).Some?
    ensures Find(ResolveOrders(reg, s9), p) == Find(s8, p)
  {
    SwapsLeqLoopFrame(reg.swapsLeq, total, s8, p);
    ResolveOrdersAt(reg, s9, p);
  }

  /** A value present after the only-if loop survives the rest of the
      resolution when neither later loop lists it. */
  lemma AfterOnlyIf(
    reg: Registry, used: map<string, set<string>>, racksSize: map<string, int>, total: nat,
    s7: Dict<PropId, bool>, s8: Dict<PropId, bool>, s9: Dict<PropId, bool>, p: PropId)
    requires SizeLeqLoop(reg.sizeLeq, used, racksSize, s7) == Ok(s8)
    requires s9 == SwapsLeqLoop(reg.swapsLeq, total, s8)
    requires p !in Values(reg.sizeLeq) && p !in Values(reg.swapsLeq) && Find(s7, p).Some?
    ensures Find(ResolveOrders(reg, s9), p) == Find(s7, p)
  {
    SizeLeqLoopFrame(reg.sizeLeq, used, racksSize, s7, p);
    AfterSizeLeq(reg, total, s8, s9, p);
  }

  /** The at-least-one id ends up true exactly when some rack is still
      thought empty after the pass. */
  lemma FinalAtLeastOne(reg: Registry, st: Scan, racksSize: map<string, int>, p: PropId)
    requires Finalise(reg, st, racksSize).Ok? && FiledOnlyIn(reg, p, AtLeastOneKind)
    ensures Find(Finalise(reg, st, racksSize).value, p) == Some(|st.thoughtEmpty| > 0)
  {
    var s5, s7, s8, s9 := FinaliseParts(reg, st, racksSize);
    MiddleFacts(reg, p, AtLeastOneKind);
    var s6 := Put(s5, reg.atLeastOne, |st.thoughtEmpty| > 0);
    OnlyIfLoopFrame(reg.onlyIf, st.used, s6, p);
    AfterOnlyIf(reg, st.used, racksSize, SwapTotal(st.swaps), s7, s8, s9, p);
  }

  /** The only-if id of `(j, r)` ends up true exactly when `j` was put on at
      most one rack. */
  lemma FinalOnlyIf(reg: Registry, st: Scan, racksSize: map<string, int>, p: PropId, j: string, r: string)
    requires Finalise(reg, st, racksSize).Ok? && FiledOnlyIn(reg, p, OnlyIfKind)
    requires Find(reg.onlyIf, (j, r)) == Some(p)
    ensures Find(Finalise(reg, st, racksSize).value, p) == Some(|Racks(st.used, j)| <= 1)
  {
    var s5, s7, s8, s9 := FinaliseParts(reg, st, racksSize);
    MiddleFacts(reg, p, OnlyIfKind);
    OnlyIfLoopHit(reg.onlyIf, st.used, Put(s5, reg.atLeastOne, |st.thoughtEmpty| > 0), p, j, r);
    AfterOnlyIf(reg, st.used, racksSize, SwapTotal(st.swaps), s7, s8, s9, p);
  }

  /** The rack-size id of `(j, rs)` ends up true exactly when every rack `j`
      was put on has a size of at most `rs`. */
  lemma FinalSizeLeq(reg: Registry, st: Scan, racksSize: map<string, int>, p: PropId, j: string, rs: int)
    requires Finalise(reg, st, racksSize).Ok? && FiledOnlyIn(reg, p, SizeLeqKind)
    requires Find(reg.sizeLeq, (j, rs)) == Some(p)
    ensures Find(Finalise(reg, st, racksSize).value, p)
         == Some(forall x :: x in Racks(st.used, j) ==> x in racksSize && racksSize[x] <= rs)
  {
    var s5, s7, s8, s9 := FinaliseParts(reg, st, racksSize);
    MiddleFacts(reg, p, SizeLeqKind);
    SizeLeqLoopHit(reg.sizeLeq, st.used, racksSize, s7, p, j, rs);
    AfterSizeLeq(reg, SwapTotal(st.swaps), s8, s9, p);
  }

  /** The swap-bound id of `n` ends up true exactly when the swap total is
      at most `n`. */
  lemma FinalSwapsLeq(reg: Registry, st: Scan, racksSize: map<string, int>, p: PropId, n: int)
    requires Finalise(reg, st, racksSize).Ok? && FiledOnlyIn(reg, p, SwapsLeqKind)
    requires Find(reg.swapsLeq, n) == Some(p)
    ensures Find(Finalise(reg, st, racksSize).value, p) == Some(SwapTotal(st.swaps) <= n)
  {
    var s5, s7, s8, s9 := FinaliseParts(reg, st, racksSize);
    MiddleFacts(reg, p, SwapsLeqKind);
    SwapsLeqSettled(reg, SwapTotal(st.swaps), s8, p, n);
  }

  /** The value the swap-bound loop gives its id survives the order defaults. */
  lemma SwapsLeqSettled(reg: Registry, total: nat, s8: Dict<PropId, bool>, p: PropId, n: int)
    requires CountVal(reg.swapsLeq, p) == 1 && Find(reg.swapsLeq, n) == Some(p)
    ensures Find(ResolveOrders(reg, SwapsLeqLoop(reg.swapsLeq, total, s8)), p) == Some(total <= n)
  {
    SwapsLeqLoopHit(reg.swapsLeq, total, s8, p, n);
    ResolveOrdersAt(reg, SwapsLeqLoop(reg.swapsLeq, total, s8), p);
  }
}

=== FILE: checker_orders.dfy ===
/** What one delivery or put-down does to the order and before-flight
    properties (checker.py:157-164, 191-203).

    Each lemma looks at one property id filed under one key of its table;
    the other entries of the table are visited too, but, the id being filed
    once, they leave its value alone. The per-jig lemmas exclude an order
    property whose two jigs and places coincide; `DeliverSelf` and
    `PutDownSelf` state that such a property aborts the step instead. */
module CheckerOrders {
  import opened Basics
  import opened Dicts
  import opened Domain
  import opened Checker

  /** `j` has been delivered to production line `pl`. */
  predicate DeliveredTo(delivered: map<string, set<string>>, j: string, pl: string)
  {
    pl in delivered && j in delivered[pl]
  }

  /** Delivering the first jig of a line-order property sets it to whether
      the second one has not been delivered yet. */
  lemma {:induction false} LineOrderFirst(
    entries: seq<((string, string, string, string), PropId)>, delivered: map<string, set<string>>,
    sat: Dict<PropId, bool>, j: string, pl: string, j2: string, pl2: string, id: PropId)
    requires Find(entries, (j, pl, j2, pl2)) == Some(id) && CountVal(entries, id) <= 1
    requires (j2, pl2) != (j, pl)
    requires LineOrderLoop(entries, delivered, sat, j, pl).Ok?
    ensures Find(LineOrderLoop(entries, delivered, sat, j, pl).value, id) == Some(!DeliveredTo(delivered, j2, pl2))
    decreases |entries|
  {
    var (key, id0) := entries[0];
    var (a1, b1, a2, b2) := key;
    var sat1 := if j == a1 && pl == b1 then Put(sat, id0, !DeliveredTo(delivered, a2, b2)) else sat;
    var sat2 := if j == a2 && pl == b2 && !DeliveredTo(delivered, a1, b1) then Put(sat1, id0, false) else sat1;
    assert LineOrderLoop(entries, delivered, sat, j, pl) == LineOrderLoop(entries[1..], delivered, sat2, j, pl);
    if key == (j, pl, j2, pl2) {
      LineOrderLoopFrame(entries[1..], delivered, sat2, j, pl, id);
    } else {
      FindInValues(entries[1..], (j, pl, j2, pl2), id);
      LineOrderFirst(entries[1..], delivered, sat2, j, pl, j2, pl2, id);
    }
  }

  /** Delivering the second jig of a line-order property sets it to false
      when the first has not been delivered; when it has, the property must
      already be true (the assertion of checker.py:196) and stays so. */
  lemma {:induction false} LineOrderSecond(
    entries: seq<((string, string, string, string), PropId)>, delivered: map<string, set<string>>,
    sat: Dict<PropId, bool>, j: string, pl: string, j1: string, pl1: string, id: PropId)
    requires Find(entries, (j1, pl1, j, pl)) == Some(id) && CountVal(entries, id) <= 1
    requires (j1, pl1) != (j, pl)
    ensures LineOrderLoop(entries, delivered, sat, j, pl).Ok? ==>
              Find(LineOrderLoop(entries, delivered, sat, j, pl).value, id) == Some(DeliveredTo(delivered, j1, pl1))
    ensures DeliveredTo(delivered, j1, pl1) && Find(sat, id) != Some(true) ==>
              LineOrderLoop(entries, delivered, sat, j, pl).Err?
    decreases |entries|
  {
    var (key, id0) := entries[0];
    var (a1, b1, a2, b2) := key;
    var sat1 := if j == a1 && pl == b1 then Put(sat, id0, !DeliveredTo(delivered, a2, b2)) else sat;
    var sat2 := if j == a2 && pl == b2 && !DeliveredTo(delivered, a1, b1) then Put(sat1, id0, false) else sat1;
    if j == a2 && pl == b2 && DeliveredTo(delivered, a1, b1) && Find(sat1, id0) != Some(true) {
      assert LineOrderLoop(entries, delivered, sat, j, pl).Err?;
    } else {
      assert LineOrderLoop(entries, delivered, sat, j, pl) == LineOrderLoop(entries[1..], delivered, sat2, j, pl);
      if key == (j1, pl1, j, pl) {
        if LineOrderLoop(entries, delivered, sat, j, pl).Ok? {
          LineOrderLoopFrame(entries[1..], delivered, sat2, j, pl, id);
        }
      } else {
        FindInValues(entries[1..], (j1, pl1, j, pl), id);
        LineOrderSecond(entries[1..], delivered, sat2, j, pl, j1, pl1, id);
      }
    }
  }

  /** A delivery of `j` to `pl` sets each of its before-flight properties to
      whether the flight has not been switched to yet. */
  lemma {:induction false} BeforeFlightSet(
    entries: seq<((string, string, string), PropId)>, switched: set<string>,
    sat: Dict<PropId, bool>, j: string, pl: string, f: string, id: PropId)
    requires Find(entries, (j, pl, f)) == Some(id) && CountVal(entries, id) <= 1
    ensures Find(BeforeFlightLoop(entries, switched, sat, j, pl), id) == Some(f !in switched)
    decreases |entries|
  {
    var (key, id0) := entries[0];
    var (jj, pll, fli) := key;
    var sat1 := if jj == j && pll == pl then Put(sat, id0, fli !in switched) else sat;
    if key == (j, pl, f) {
      BeforeFlightLoopFrame(entries[1..], switched, sat1, j, pl, id);
    } else {
      FindInValues(entries[1..], (j, pl, f), id);
      BeforeFlightSet(entries[1..], switched, sat1, j, pl, f, id);
    }
  }

  /** `j` has been placed on `r` (initially or by a put-down). */
  predicate PlacedOn(used: map<string, set<string>>, j: string, r: string)
  {
    j in used && r in used[j]
  }

  /** Putting the first jig of a rack-order property down on its rack sets
      the property to whether the second jig has not been on its rack. */
  lemma {:induction false} RackOrderFirst(
    entries: seq<((string, string, string, string), PropId)>, used: map<string, set<string>>,
    sat: Dict<PropId, bool>, j: string, r: string, j2: string, r2: string, id: PropId)
    requires Find(entries, (j, r, j2, r2)) == Some(id) && CountVal(entries, id) <= 1
    requires (j2, r2) != (j, r)
    requires RackOrderLoop(entries, used, sat, j, r).Ok?
    ensures Find(RackOrderLoop(entries, used, sat, j, r).value, id) == Some(!PlacedOn(used, j2, r2))
    decreases |entries|
  {
    var (key, id0) := entries[0];
    var (a1, b1, a2, b2) := key;
    var sat1 := if j == a1 && r == b1 then Put(sat, id0, !PlacedOn(used, a2, b2)) else sat;
    var sat2 := if j == a2 && r == b2 && !(a1 in used && b1 in used && b1 in used[b1]) then Put(sat1, id0, false) else sat1;
    assert RackOrderLoop(entries, used, sat, j, r) == RackOrderLoop(entries[1..], used, sat2, j, r);
    if key == (j, r, j2, r2) {
      RackOrderLoopFrame(entries[1..], used, sat2, j, r, id);
    } else {
      FindInValues(entries[1..], (j, r, j2, r2), id);
      RackOrderFirst(entries[1..], used, sat2, j, r, j2, r2, id);
    }
  }

  /** Putting the second jig of a rack-order property down on its rack,
      once the first jig has been placed somewhere, looks the first RACK up
      among the placed jigs (checker.py:161): without a jig of that name
      the lookup raises KeyError. Otherwise the property becomes false
      unless the first rack is recorded under that jig's name, in which
      case it must already be true (checker.py:162). */
  lemma {:induction false} RackOrderSecond(
    entries: seq<((string, string, string, string), PropId)>, used: map<string, set<string>>,
    sat: Dict<PropId, bool>, j: string, r: string, j1: string, r1: string, id: PropId)
    requires Find(entries, (j1, r1, j, r)) == Some(id) && CountVal(entries, id) <= 1
    requires (j1, r1) != (j, r)
    ensures j1 in used && r1 !in used ==> RackOrderLoop(entries, used, sat, j, r).Err?
    ensures RackOrderLoop(entries, used, sat, j, r).Ok? ==>
              Find(RackOrderLoop(entries, used, sat, j, r).value, id) == Some(j1 in used && PlacedOn(used, r1, r1))
    ensures j1 in used && PlacedOn(used, r1, r1) && Find(sat, id) != Some(true) ==>
              RackOrderLoop(entries, used, sat, j, r).Err?
    decreases |entries|
  {
    var (key, id0) := entries[0];
    var (a1, b1, a2, b2) := key;
    var sat1 := if j == a1 && r == b1 then Put(sat, id0, !PlacedOn(used, a2, b2)) else sat;
    var sat2 := if j == a2 && r == b2 && !(a1 in used && b1 in used && b1 in used[b1]) then Put(sat1, id0, false) else sat1;
    if j == a2 && r == b2 && a1 in used && (b1 !in used || (b1 in used[b1] && Find(sat1, id0) != Some(true))) {
      assert RackOrderLoop(entries, used, sat, j, r).Err?;
    } else {
      assert RackOrderLoop(entries, used, sat, j, r) == RackOrderLoop(entries[1..], used, sat2, j, r);
      if key == (j1, r1, j, r) {
        if RackOrderLoop(entries, used, sat, j, r).Ok? {
          RackOrderLoopFrame(entries[1..], used, sat2, j, r, id);
        }
      } else {
        FindInValues(entries[1..], (j1, r1, j, r), id);
        RackOrderSecond(entries[1..], used, sat2, j, r, j1, r1, id);
      }
    }
  }

  /** A mark through a table that does not hold an id leaves that id alone. */
  lemma MarkElsewhere<K(!new)>(sat: Dict<PropId, bool>, table: Dict<K, PropId>, key: K, v: bool, id: PropId)
    requires CountVal(table, id) == 0
    ensures Find(Mark(sat, Find(table, key), v), id) == Find(sat, id)
  {
    if Find(table, key) == Some(id) {
      FindInValues(table, key, id);
    }
  }

  /** A line-order property whose two jigs and lines coincide aborts the
      loop: the first branch sets it false, and the second then asserts it. */
  lemma {:induction false} LineOrderSelfLoop(
    entries: seq<((string, string, string, string), PropId)>, delivered: map<string, set<string>>,
    j: string, pl: string, id: PropId)
    requires Find(entries, (j, pl, j, pl)) == Some(id) && DeliveredTo(delivered, j, pl)
    ensures forall sat :: LineOrderLoop(entries, delivered, sat, j, pl).Err?
    decreases |entries|
  {
    if entries[0].0 != (j, pl, j, pl) {
      LineOrderSelfLoop(entries[1..], delivered, j, pl, id);
    }
  }

  /** checker.py:191-198: a line-order property about one jig and line
      twice makes every delivery of that jig to that line abort. */
  lemma DeliverSelf(reg: Registry, st: Scan, j: string, pl: string, id: PropId)
    requires Find(reg.lineOrder, (j, pl, j, pl)) == Some(id)
    ensures OnDeliver(reg, st, j, pl).Err?
  {
    LineOrderSelfLoop(reg.lineOrder, AddTo(st.delivered, pl, j), j, pl, id);
  }

  /** A rack-order property whose two jigs and racks coincide aborts the
      loop once its jig has been on its rack, unless some jig is named like
      the rack and has never been put on a rack of that name: the line-161
      lookup by rack name then finds nothing to assert. */
  lemma {:induction false} RackOrderSelfLoop(
    entries: seq<((string, string, string, string), PropId)>, used: map<string, set<string>>,
    j: string, r: string, id: PropId)
    requires Find(entries, (j, r, j, r)) == Some(id) && PlacedOn(used, j, r)
    requires !(r in used && r !in used[r])
    ensures forall sat :: RackOrderLoop(entries, used, sat, j, r).Err?
    decreases |entries|
  {
    if entries[0].0 != (j, r, j, r) {
      RackOrderSelfLoop(entries[1..], used, j, r, id);
    }
  }

  /** checker.py:157-164: a rack-order property about one jig and rack
      twice makes every put-down of that jig on that rack abort, except in
      the case of a jig named like the rack that has not been on it. */
  lemma PutDownSelf(reg: Registry, st: Scan, j: string, t: string, r: string, s: Side, id: PropId)
    requires Find(reg.rackOrder, (j, r, j, r)) == Some(id)
    ensures var used1 := AddTo(st.used, j, r);
      !(r in used1 && r !in used1[r]) ==> OnPutDown(reg, st, j, t, r, s).Err?
  {
    var used1 := AddTo(st.used, j, r);
    if !(r in used1 && r !in used1[r]) {
      RackOrderSelfLoop(reg.rackOrder, used1, j, r, id);
    }
  }

  /** checker.py:193-194: delivering the first jig of a line-order property
      sets it true exactly when the second has not been delivered yet. */
  lemma DeliverFirst(reg: Registry, st: Scan, j: string, pl: string, j2: string, pl2: string, id: PropId)
    requires Find(reg.lineOrder, (j, pl, j2, pl2)) == Some(id) && CountVal(reg.lineOrder, id) <= 1
    requires id !in Values(reg.beforeFlight)
    requires (j2, pl2) != (j, pl) && OnDeliver(reg, st, j, pl).Ok?
    ensures Find(OnDeliver(reg, st, j, pl).value.sat, id) == Some(!DeliveredTo(st.delivered, j2, pl2))
  {
    var sat1 := Mark(st.sat, Find(reg.deliver, (j, pl, Count(st.delivers, pl))), true);
    var delivered1 := AddTo(st.delivered, pl, j);
    assert DeliveredTo(delivered1, j2, pl2) == DeliveredTo(st.delivered, j2, pl2);
    LineOrderFirst(reg.lineOrder, delivered1, sat1, j, pl, j2, pl2, id);
    var sat2 := LineOrderLoop(reg.lineOrder, delivered1, sat1, j, pl).value;
    BeforeFlightLoopFrame(reg.beforeFlight, st.switched, sat2, j, pl, id);
    assert OnDeliver(reg, st, j, pl).value.sat == BeforeFlightLoop(reg.beforeFlight, st.switched, sat2, j, pl);
  }

  /** checker.py:195-198: delivering the second jig of a line-order property
      sets it false when the first has not been delivered; otherwise the
      property must already be true, or the delivery aborts. */
  lemma DeliverSecond(reg: Registry, st: Scan, j: string, pl: string, j1: string, pl1: string, id: PropId)
    requires Find(reg.lineOrder, (j1, pl1, j, pl)) == Some(id) && CountVal(reg.lineOrder, id) <= 1
    requires CountVal(reg.deliver, id) == 0 && id !in Values(reg.beforeFlight)
    requires (j1, pl1) != (j, pl)
    ensures OnDeliver(reg, st, j, pl).Ok? ==>
              Find(OnDeliver(reg, st, j, pl).value.sat, id) == Some(DeliveredTo(st.delivered, j1, pl1))
    ensures DeliveredTo(st.delivered, j1, pl1) && Find(st.sat, id) != Some(true) ==> OnDeliver(reg, st, j, pl).Err?
  {
    var sat1 := Mark(st.sat, Find(reg.deliver, (j, pl, Count(st.delivers, pl))), true);
    var delivered1 := AddTo(st.delivered, pl, j);
    assert DeliveredTo(delivered1, j1, pl1) == DeliveredTo(st.delivered, j1, pl1);
    MarkElsewhere(st.sat, reg.deliver, (j, pl, Count(st.delivers, pl)), true, id);
    LineOrderSecond(reg.lineOrder, delivered1, sat1, j, pl, j1, pl1, id);
    if OnDeliver(reg, st, j, pl).Ok? {
      var sat2 := LineOrderLoop(reg.lineOrder, delivered1, sat1, j, pl).value;
      BeforeFlightLoopFrame(reg.beforeFlight, st.switched, sat2, j, pl, id);
      assert OnDeliver(reg, st, j, pl).value.sat == BeforeFlightLoop(reg.beforeFlight, st.switched, sat2, j, pl);
    }
  }

  /** checker.py:200-203: a delivery of `j` to `pl` sets each before-flight
      property about them to whether the flight has not been switched to. */
  lemma DeliverBeforeFlight(reg: Registry, st: Scan, j: string, pl: string, f: string, id: PropId)
    requires Find(reg.beforeFlight, (j, pl, f)) == Some(id) && CountVal(reg.beforeFlight, id) <= 1
    requires OnDeliver(reg, st, j, pl).Ok?
    ensures Find(OnDeliver(reg, st, j, pl).value.sat, id) == Some(f !in st.switched)
  {
    var sat1 := Mark(st.sat, Find(reg.deliver, (j, pl, Count(st.delivers, pl))), true);
    var sat2 := LineOrderLoop(reg.lineOrder, AddTo(st.delivered, pl, j), sat1, j, pl).value;
    BeforeFlightSet(reg.beforeFlight, st.switched, sat2, j, pl, f, id);
    assert OnDeliver(reg, st, j, pl).value.sat == BeforeFlightLoop(reg.beforeFlight, st.switched, sat2, j, pl);
  }

  /** checker.py:158-159: putting the first jig of a rack-order property
      down on its rack sets it true exactly when the second jig has not
      been on its rack. */
  lemma PutDownFirst(reg: Registry, st: Scan, j: string, t: string, r: string, s: Side, j2: string, r2: string, id: PropId)
    requires Find(reg.rackOrder, (j, r, j2, r2)) == Some(id) && CountVal(reg.rackOrder, id) <= 1
    requires (j2, r2) != (j, r) && OnPutDown(reg, st, j, t, r, s).Ok?
    ensures Find(OnPutDown(reg, st, j, t, r, s).value.sat, id) == Some(!PlacedOn(st.used, j2, r2))
  {
    var sat1 := Mark(st.sat, Find(reg.rackEmpty, r), false);
    var used1 := AddTo(st.used, j, r);
    assert PlacedOn(used1, j2, r2) == PlacedOn(st.used, j2, r2);
    RackOrderFirst(reg.rackOrder, used1, sat1, j, r, j2, r2, id);
    assert OnPutDown(reg, st, j, t, r, s).value.sat == RackOrderLoop(reg.rackOrder, used1, sat1, j, r).value;
  }

  /** checker.py:160-164, as written: putting the second jig of a
      rack-order property down on its rack aborts with KeyError when the
      first jig has been placed and no jig is named like the first rack;
      otherwise the property ends up true exactly when the first jig has
      been placed and the first rack is recorded under the jig named like
      it, and then it must already have been true. */
  lemma PutDownSecond(reg: Registry, st: Scan, j: string, t: string, r: string, s: Side, j1: string, r1: string, id: PropId)
    requires Find(reg.rackOrder, (j1, r1, j, r)) == Some(id) && CountVal(reg.rackOrder, id) <= 1
    requires CountVal(reg.rackEmpty, id) == 0
    requires (j1, r1) != (j, r)
    ensures var used1 := AddTo(st.used, j, r);
      j1 in used1 && r1 !in used1 ==> OnPutDown(reg, st, j, t, r, s).Err?
    ensures var used1 := AddTo(st.used, j, r);
      OnPutDown(reg, st, j, t, r, s).Ok? ==>
        Find(OnPutDown(reg, st, j, t, r, s).value.sat, id) == Some(j1 in used1 && PlacedOn(used1, r1, r1))
    ensures var used1 := AddTo(st.used, j, r);
      j1 in used1 && PlacedOn(used1, r1, r1) && Find(st.sat, id) != Some(true) ==> OnPutDown(reg, st, j, t, r, s).Err?
  {
    var sat1 := Mark(st.sat, Find(reg.rackEmpty, r), false);
    var used1 := AddTo(st.used, j, r);
    MarkElsewhere(st.sat, reg.rackEmpty, r, false, id);
    RackOrderSecond(reg.rackOrder, used1, sat1, j, r, j1, r1, id);
  }
}

=== FILE: checker_registry.dfy ===
/** Facts about the property registry built by the checker's dispatch loop:
    which id is filed under which parameters, and when a property id is
    filed in a single slot. */
module CheckerRegistry {
  import opened Basics
  import opened Dicts
  import opened Domain
  import opened Checker

  /** The twelve kinds of registry slot. */
  datatype Kind =
    | UnloadKind | LoadKind | DeliverKind | RackEmptyKind | AtLeastOneKind | SizeLeqKind
    | SwapsLeqKind | NeverOnRackKind | OnlyIfKind | LineOrderKind | RackOrderKind | BeforeFlightKind

  /** Number of slots of one kind holding the id `p`. */
  function CountIn(reg: Registry, p: PropId, kind: Kind): nat
  {
    match kind
    case UnloadKind => CountVal(reg.unload, p)
    case LoadKind => CountVal(reg.load, p)
    case DeliverKind => CountVal(reg.deliver, p)
    case RackEmptyKind => CountVal(reg.rackEmpty, p)
    case AtLeastOneKind => if reg.atLeastOne == p then 1 else 0
    case SizeLeqKind => CountVal(reg.sizeLeq, p)
    case SwapsLeqKind => CountVal(reg.swapsLeq, p)
    case NeverOnRackKind => CountVal(reg.neverOnRack, p)
    case OnlyIfKind => CountVal(reg.onlyIf, p)
    case LineOrderKind => CountVal(reg.lineOrder, p)
    case RackOrderKind => CountVal(reg.rackOrder, p)
    case BeforeFlightKind => CountVal(reg.beforeFlight, p)
  }

  /** Number of registry slots holding the id `p`. */
  function Occurrences(reg: Registry, p: PropId): nat
  {
    CountIn(reg, p, UnloadKind) + CountIn(reg, p, LoadKind) + CountIn(reg, p, DeliverKind)
    + CountIn(reg, p, RackEmptyKind) + CountIn(reg, p, AtLeastOneKind) + CountIn(reg, p, SizeLeqKind)
    + CountIn(reg, p, SwapsLeqKind) + CountIn(reg, p, NeverOnRackKind) + CountIn(reg, p, OnlyIfKind)
    + CountIn(reg, p, LineOrderKind) + CountIn(reg, p, RackOrderKind) + CountIn(reg, p, BeforeFlightKind)
  }

  /** The kind of slot a known property is filed in. */
  function KindOf(p: Property): Kind
    requires !p.UnknownProperty?
  {
    match p
    case UnloadBeluga(_, _, _) => UnloadKind
    case LoadBeluga(_, _, _) => LoadKind
    case DeliverToProductionLine(_, _, _) => DeliverKind
    case RackAlwaysEmpty(_) => RackEmptyKind
    case AtLeastOneRackAlwaysEmpty => AtLeastOneKind
    case JigAlwaysPlacedOnRackSizeLeq(_, _) => SizeLeqKind
    case NumSwapsUsedLeq(_) => SwapsLeqKind
    case JigNeverOnRack(_, _) => NeverOnRackKind
    case JigOnlyIfEverOnRack(_, _) => OnlyIfKind
    case JigToProductionLineOrder(_, _, _, _) => LineOrderKind
    case JigToRackOrder(_, _, _, _) => RackOrderKind
    case JigToProductionLineBeforeFlight(_, _, _) => BeforeFlightKind
  }

  /** `p` is filed in exactly one slot, and that slot is of kind `kind`. */
  predicate FiledOnlyIn(reg: Registry, p: PropId, kind: Kind)
  {
    Occurrences(reg, p) == 1 && CountIn(reg, p, kind) == 1
  }

  /** An id filed at most once and filed under some kind is filed only there. */
  lemma SoleKind(reg: Registry, p: PropId, kind: Kind)
    requires Occurrences(reg, p) <= 1 && CountIn(reg, p, kind) > 0
    ensures FiledOnlyIn(reg, p, kind)
  {
    match kind
    case UnloadKind =>
    case LoadKind =>
    case DeliverKind =>
    case RackEmptyKind =>
    case AtLeastOneKind =>
    case SizeLeqKind =>
    case SwapsLeqKind =>
    case NeverOnRackKind =>
    case OnlyIfKind =>
    case LineOrderKind =>
    case RackOrderKind =>
    case BeforeFlightKind =>
  }

  /** An id filed only in a slot of kind `kind` is in no slot of another kind. */
  lemma Elsewhere(reg: Registry, p: PropId, kind: Kind, k: Kind)
    requires FiledOnlyIn(reg, p, kind)
    ensures CountIn(reg, p, k) == if k == kind then 1 else 0
  {
  }

  /** The id filed under a property's kind and parameters, if any. */
  function Filed(reg: Registry, prop: Property): Option<PropId>
  {
    match prop
    case UnloadBeluga(j, b, i) => Find(reg.unload, (j, b, i))
    case LoadBeluga(j, b, i) => Find(reg.load, (j, b, i))
    case DeliverToProductionLine(j, pl, i) => Find(reg.deliver, (j, pl, i))
    case RackAlwaysEmpty(r) => Find(reg.rackEmpty, r)
    case AtLeastOneRackAlwaysEmpty => Some(reg.atLeastOne)
    case JigAlwaysPlacedOnRackSizeLeq(j, rs) => Find(reg.sizeLeq, (j, rs))
    case NumSwapsUsedLeq(ns) => Find(reg.swapsLeq, ns)
    case JigNeverOnRack(j, r) => Find(reg.neverOnRack, (j, r))
    case JigOnlyIfEverOnRack(j, r) => Find(reg.onlyIf, (j, r))
    case JigToProductionLineOrder(j1, pl1, j2, pl2) => Find(reg.lineOrder, (j1, pl1, j2, pl2))
    case JigToRackOrder(j1, r1, j2, r2) => Find(reg.rackOrder, (j1, r1, j2, r2))
    case JigToProductionLineBeforeFlight(j, pl, b) => Find(reg.beforeFlight, (j, pl, b))
    case UnknownProperty(_) => None
  }

  /** The k-th property is the last one with its kind and parameters. */
  predicate LastOfItsKind(props: seq<(PropId, Property)>, k: int)
  {
    0 <= k < |props| && forall k' :: k < k' < |props| ==> props[k'].1 != props[k].1
  }

  /** One turn of the dispatch loop. */
  lemma DispatchLast(props: Dict<PropId, Property>)
    requires |props| > 0 && Dispatch(props).Ok?
    ensures Dispatch(props[..|props| - 1]).Ok?
    ensures Dispatch(props)
         == Register(Dispatch(props[..|props| - 1]).value, props[|props| - 1].0, props[|props| - 1].1)
  {
  }

  /** Filing one property adds at most one occurrence of its id, in the
      slot of its own kind. */
  lemma RegisterCountIn(reg: Registry, id: PropId, p: Property, q: PropId, k: Kind)
    requires Register(reg, id, p).Ok?
    ensures CountIn(Register(reg, id, p).value, q, k) <= CountIn(reg, q, k) + (if k == KindOf(p) && q == id then 1 else 0)
  {
    var reg' := Register(reg, id, p).value;
    match k
    case UnloadKind =>
      if p.UnloadBeluga? {
        assert reg'.unload == Put(reg.unload, (p.jig, p.flight, p.index), id);
        CountValPut(reg.unload, (p.jig, p.flight, p.index), id, q);
      } else {
        assert reg'.unload == reg.unload;
      }
    case LoadKind =>
      if p.LoadBeluga? {
        assert reg'.load == Put(reg.load, (p.jigOrType, p.flight, p.index), id);
        CountValPut(reg.load, (p.jigOrType, p.flight, p.index), id, q);
      } else {
        assert reg'.load == reg.load;
      }
    case DeliverKind =>
      if p.DeliverToProductionLine? {
        assert reg'.deliver == Put(reg.deliver, (p.jig, p.line, p.index), id);
        CountValPut(reg.deliver, (p.jig, p.line, p.index), id, q);
      } else {
        assert reg'.deliver == reg.deliver;
      }
    case RackEmptyKind =>
      if p.RackAlwaysEmpty? {
        assert reg'.rackEmpty == Put(reg.rackEmpty, p.rack, id);
        CountValPut(reg.rackEmpty, p.rack, id, q);
      } else {
        assert reg'.rackEmpty == reg.rackEmpty;
      }
    case SizeLeqKind =>
      if p.JigAlwaysPlacedOnRackSizeLeq? {
        assert reg'.sizeLeq == Put(reg.sizeLeq, (p.jig, p.size), id);
        CountValPut(reg.sizeLeq, (p.jig, p.size), id, q);
      } else {
        assert reg'.sizeLeq == reg.sizeLeq;
      }
    case SwapsLeqKind =>
      if p.NumSwapsUsedLeq? {
        assert reg'.swapsLeq == Put(reg.swapsLeq, p.bound, id);
        CountValPut(reg.swapsLeq, p.bound, id, q);
      } else {
        assert reg'.swapsLeq == reg.swapsLeq;
      }
    case NeverOnRackKind =>
      if p.JigNeverOnRack? {
        assert reg'.neverOnRack == Put(reg.neverOnRack, (p.jig, p.rack), id);
        CountValPut(reg.neverOnRack, (p.jig, p.rack), id, q);
      } else {
        assert reg'.neverOnRack == reg.neverOnRack;
      }
    case OnlyIfKind =>
      if p.JigOnlyIfEverOnRack? {
        assert reg'.onlyIf == Put(reg.onlyIf, (p.jig, p.rack), id);
        CountValPut(reg.onlyIf, (p.jig, p.rack), id, q);
      } else {
        assert reg'.onlyIf == reg.onlyIf;
      }
    case LineOrderKind =>
      if p.JigToProductionLineOrder? {
        assert reg'.lineOrder == Put(reg.lineOrder, (p.jig1, p.line1, p.jig2, p.line2), id);
        CountValPut(reg.lineOrder, (p.jig1, p.line1, p.jig2, p.line2), id, q);
      } else {
        assert reg'.lineOrder == reg.lineOrder;
      }
    case RackOrderKind =>
      if p.JigToRackOrder? {
        assert reg'.rackOrder == Put(reg.rackOrder, (p.jig1, p.rack1, p.jig2, p.rack2), id);
        CountValPut(reg.rackOrder, (p.jig1, p.rack1, p.jig2, p.rack2), id, q);
      } else {
        assert reg'.rackOrder == reg.rackOrder;
      }
    case BeforeFlightKind =>
      if p.JigToProductionLineBeforeFlight? {
        assert reg'.beforeFlight == Put(reg.beforeFlight, (p.jig, p.line, p.flight), id);
        CountValPut(reg.beforeFlight, (p.jig, p.line, p.flight), id, q);
      } else {
        assert reg'.beforeFlight == reg.beforeFlight;
      }
    case AtLeastOneKind =>
  }

  lemma RegisterCounts(reg: Registry, id: PropId, p: Property, q: PropId)
    requires Register(reg, id, p).Ok?
    ensures Occurrences(Register(reg, id, p).value, q) <= Occurrences(reg, q) + (if q == id then 1 else 0)
  {
    forall k ensures CountIn(Register(reg, id, p).value, q, k)
                     <= CountIn(reg, q, k) + (if k == KindOf(p) && q == id then 1 else 0) {
      RegisterCountIn(reg, id, p, q, k);
    }
  }

  /** Property ids are the keys of a dictionary, so every id other than the
      empty string is filed at most once, and only ids of the table are
      filed at all. The empty string is the at-least-one slot's initial
      value and can be filed twice. */
  lemma {:induction false} DispatchCounts(props: Dict<PropId, Property>, q: PropId)
    requires Dispatch(props).Ok?
    requires q != ""
    ensures Occurrences(Dispatch(props).value, q) <= (if q in Keys(props) then 1 else 0)
    decreases |props|
  {
    if |props| == 0 {
      assert Dispatch(props).value == EmptyRegistry;
      forall k ensures CountIn(EmptyRegistry, q, k) == 0 {
      }
    } else {
      var front: Dict<PropId, Property> := props[..|props| - 1];
      var (id, p) := props[|props| - 1];
      DispatchLast(props);
      KeysSnoc(props);
      LastKeyFresh(props);
      DispatchCounts(front, q);
      RegisterCounts(Dispatch(front).value, id, p, q);
    }
  }

  /** Filing a property files its id under its own kind and parameters. */
  lemma RegisterFiledSame(reg: Registry, id: PropId, p: Property)
    requires Register(reg, id, p).Ok?
    ensures Filed(Register(reg, id, p).value, p) == Some(id)
  {
  }

  /** Filing a property leaves what is filed under other kinds or
      parameters as it was. */
  lemma RegisterFiledOther(reg: Registry, id: PropId, p: Property, x: Property)
    requires Register(reg, id, p).Ok?
    requires !x.UnknownProperty? && x != p
    ensures Filed(Register(reg, id, p).value, x) == Filed(reg, x)
  {
    var reg' := Register(reg, id, p).value;
    match x
    case UnloadBeluga(j, b, i) =>
      if p.UnloadBeluga? {
        assert reg'.unload == Put(reg.unload, (p.jig, p.flight, p.index), id);
        assert (p.jig, p.flight, p.index) != (j, b, i);
      } else {
        assert reg'.unload == reg.unload;
      }
    case LoadBeluga(j, b, i) =>
      if p.LoadBeluga? {
        assert reg'.load == Put(reg.load, (p.jigOrType, p.flight, p.index), id);
        assert (p.jigOrType, p.flight, p.index) != (j, b, i);
      } else {
        assert reg'.load == reg.load;
      }
    case DeliverToProductionLine(j, pl, i) =>
      if p.DeliverToProductionLine? {
        assert reg'.deliver == Put(reg.deliver, (p.jig, p.line, p.index), id);
        assert (p.jig, p.line, p.index) != (j, pl, i);
      } else {
        assert reg'.deliver == reg.deliver;
      }
    case RackAlwaysEmpty(r) =>
      if p.RackAlwaysEmpty? {
        assert reg'.rackEmpty == Put(reg.rackEmpty, p.rack, id);
        assert p.rack != r;
      } else {
        assert reg'.rackEmpty == reg.rackEmpty;
      }
    case JigAlwaysPlacedOnRackSizeLeq(j, rs) =>
      if p.JigAlwaysPlacedOnRackSizeLeq? {
        assert reg'.sizeLeq == Put(reg.sizeLeq, (p.jig, p.size), id);
        assert (p.jig, p.size) != (j, rs);
      } else {
        assert reg'.sizeLeq == reg.sizeLeq;
      }
    case NumSwapsUsedLeq(ns) =>
      if p.NumSwapsUsedLeq? {
        assert reg'.swapsLeq == Put(reg.swapsLeq, p.bound, id);
        assert p.bound != ns;
      } else {
        assert reg'.swapsLeq == reg.swapsLeq;
      }
    case JigNeverOnRack(j, r) =>
      if p.JigNeverOnRack? {
        assert reg'.neverOnRack == Put(reg.neverOnRack, (p.jig, p.rack), id);
        assert (p.jig, p.rack) != (j, r);
      } else {
        assert reg'.neverOnRack == reg.neverOnRack;
      }
    case JigOnlyIfEverOnRack(j, r) =>
      if p.JigOnlyIfEverOnRack? {
        assert reg'.onlyIf == Put(reg.onlyIf, (p.jig, p.rack), id);
        assert (p.jig, p.rack) != (j, r);
      } else {
        assert reg'.onlyIf == reg.onlyIf;
      }
    case JigToProductionLineOrder(j1, pl1, j2, pl2) =>
      if p.JigToProductionLineOrder? {
        assert reg'.lineOrder == Put(reg.lineOrder, (p.jig1, p.line1, p.jig2, p.line2), id);
        assert (p.jig1, p.line1, p.jig2, p.line2) != (j1, pl1, j2, pl2);
      } else {
        assert reg'.lineOrder == reg.lineOrder;
      }
    case JigToRackOrder(j1, r1, j2, r2) =>
      if p.JigToRackOrder? {
        assert reg'.rackOrder == Put(reg.rackOrder, (p.jig1, p.rack1, p.jig2, p.rack2), id);
        assert (p.jig1, p.rack1, p.jig2, p.rack2) != (j1, r1, j2, r2);
      } else {
        assert reg'.rackOrder == reg.rackOrder;
      }
    case JigToProductionLineBeforeFlight(j, pl, b) =>
      if p.JigToProductionLineBeforeFlight? {
        assert reg'.beforeFlight == Put(reg.beforeFlight, (p.jig, p.line, p.flight), id);
        assert (p.jig, p.line, p.flight) != (j, pl, b);
      } else {
        assert reg'.beforeFlight == reg.beforeFlight;
      }
    case AtLeastOneRackAlwaysEmpty =>
      assert reg'.atLeastOne == reg.atLeastOne;
  }

  /** The dispatch loop files the last property of each kind and
      parameters under its id. */
  lemma {:induction false} DispatchFiled(props: Dict<PropId, Property>, k: int)
    requires Dispatch(props).Ok?
    requires LastOfItsKind(props, k)
    ensures Filed(Dispatch(props).value, props[k].1) == Some(props[k].0)
    decreases |props|
  {
    var front: Dict<PropId, Property> := props[..|props| - 1];
    var (id, p) := props[|props| - 1];
    DispatchLast(props);
    assert !props[k].1.UnknownProperty?;
    if k < |props| - 1 {
      assert front[k] == props[k];
      RegisterFiledOther(Dispatch(front).value, id, p, props[k].1);
      DispatchFiled(front, k);
    } else {
      RegisterFiledSame(Dispatch(front).value, id, p);
    }
  }

  /** The pieces of a successful check. */
  lemma Decompose(
    props: Dict<PropId, Property>, plan: seq<Action>, flights: seq<string>,
    jigTypes: map<string, string>, racksInitial: Dict<string, seq<string>>, racksSize: map<string, int>
  ) returns (reg: Registry, st: Scan, sat: Dict<PropId, bool>)
    requires Check(props, plan, flights, jigTypes, racksInitial, racksSize).Ok?
    ensures Dispatch(props) == Ok(reg)
    ensures Run(reg, flights, jigTypes, Seed(reg, racksInitial), plan) == Ok(st)
    ensures Finalise(reg, st, racksSize) == Ok(sat)
    ensures Check(props, plan, flights, jigTypes, racksInitial, racksSize).value == TrueKeys(sat)
  {
    reg := Dispatch(props).value;
    st := Run(reg, flights, jigTypes, Seed(reg, racksInitial), plan).value;
    sat := Finalise(reg, st, racksSize).value;
  }
}

=== FILE: checker_swaps.dfy ===
/** The swap count of checker.py:170-176 and 215 against the plan.

    Each (jig, trailer, side) triple gets a counter on its first pick-up.
    A later pick-up needs the counter odd and makes it even; a put-down
    makes an even counter odd. The total is the sum of half of every
    counter, rounded down. Read off the plan, that is the number of
    pick-ups minus the number of distinct triples picked up: every pick-up
    but the first of its triple counts as one swap. */
module CheckerSwaps {
  import opened Basics
  import opened Dicts
  import opened Domain
  import opened Checker
  import opened CheckerTrace

  type SwapKey = (string, string, Side)

  /** The triple an action picks up, if it is a pick-up. */
  function PickOf(a: Action): seq<SwapKey>
  {
    if a.PickUpRack? then [(a.j, a.t, a.s)] else []
  }

  /** The triples picked up by the plan, in plan order. */
  function Picks(plan: seq<Action>): seq<SwapKey>
    decreases |plan|
  {
    if |plan| == 0 then [] else Picks(plan[..|plan| - 1]) + PickOf(plan[|plan| - 1])
  }

  /** The distinct triples of a list. */
  function Distinct(s: seq<SwapKey>): set<SwapKey>
  {
    set i | 0 <= i < |s| :: s[i]
  }

  lemma DistinctSnoc(s: seq<SwapKey>, x: seq<SwapKey>)
    ensures Distinct(s + x) == Distinct(s) + Distinct(x)
  {
    forall k | k in Distinct(s + x) ensures k in Distinct(s) + Distinct(x) {
      var i :| 0 <= i < |s + x| && (s + x)[i] == k;
      if i >= |s| {
        assert x[i - |s|] == k;
      }
    }
    forall k | k in Distinct(s) + Distinct(x) ensures k in Distinct(s + x) {
      if k in Distinct(s) {
        var i :| 0 <= i < |s| && s[i] == k;
        assert (s + x)[i] == k;
      } else {
        var i :| 0 <= i < |x| && x[i] == k;
        assert (s + x)[|s| + i] == k;
      }
    }
  }

  lemma DistinctOne(k: SwapKey)
    ensures Distinct([k]) == {k}
  {
    assert [k][0] == k;
  }

  /** A dictionary has as many items as keys. */
  lemma {:induction false} DictSize<K(!new), V>(d: Dict<K, V>)
    ensures |Keys(d)| == |d|
  {
    if |d| > 0 {
      var rest: Dict<K, V> := d[1..];
      KeysIff(rest, d[0].0);
      DictSize(rest);
    }
  }

  lemma {:induction false} SwapTotalAppend(d: seq<(SwapKey, nat)>, item: (SwapKey, nat))
    ensures SwapTotal(d + [item]) == SwapTotal(d) + item.1 / 2
  {
    if |d| > 0 {
      assert (d + [item])[1..] == d[1..] + [item];
      SwapTotalAppend(d[1..], item);
    }
  }

  lemma {:induction false} SwapTotalOverwrite(d: seq<(SwapKey, nat)>, i: nat, v: nat)
    requires i < |d|
    ensures SwapTotal(d[i := (d[i].0, v)]) == SwapTotal(d) - d[i].1 / 2 + v / 2
  {
    if i == 0 {
      assert d[i := (d[i].0, v)][1..] == d[1..];
    } else {
      assert d[i := (d[i].0, v)][1..] == d[1..][i - 1 := (d[i].0, v)];
      SwapTotalOverwrite(d[1..], i - 1, v);
    }
  }

  /** Storing a counter replaces the contribution of the old one, if any. */
  lemma SwapTotalPut(d: Dict<SwapKey, nat>, k: SwapKey, v: nat)
    ensures SwapTotal(Put<SwapKey, nat>(d, k, v)) + (if Find(d, k).Some? then Find(d, k).value / 2 else 0) == SwapTotal(d) + v / 2
  {
    if k in Keys(d) {
      var i := IndexOf(d, k);
      FindItem(d, i);
      SwapTotalOverwrite(d, i, v);
    } else {
      SwapTotalAppend(d, (k, v));
    }
  }

  /** A put-down leaves the total, the number of counters and the counted
      triples as they are. */
  lemma PutDownSwaps(reg: Registry, st: Scan, j: string, t: string, r: string, s: Side)
    requires OnPutDown(reg, st, j, t, r, s).Ok?
    ensures var sw := OnPutDown(reg, st, j, t, r, s).value.swaps;
      SwapTotal(sw) == SwapTotal(st.swaps) && |sw| == |st.swaps| && Keys(sw) == Keys(st.swaps)
  {
    assert OnPutDown(reg, st, j, t, r, s).value.swaps == PutBack(st.swaps, (j, t, s));
    PutBackSwaps(st.swaps, (j, t, s));
  }

  lemma PutBackSwaps(d: Dict<SwapKey, nat>, k: SwapKey)
    ensures SwapTotal(PutBack(d, k)) == SwapTotal(d) && |PutBack(d, k)| == |d| && Keys(PutBack(d, k)) == Keys(d)
  {
    var c := Find(d, k);
    if c.Some? && c.value % 2 == 0 {
      SwapTotalPut(d, k, c.value + 1);
    }
  }

  /** A pick-up either adds one to the total of a counted triple or starts
      counting a new triple. */
  lemma PickUpSwaps(st: Scan, j: string, t: string, s: Side)
    requires OnPickUp(st, j, t, s).Ok?
    ensures var sw := OnPickUp(st, j, t, s).value.swaps;
      && SwapTotal(sw) + |sw| == SwapTotal(st.swaps) + |st.swaps| + 1
      && Keys(sw) == Keys(st.swaps) + {(j, t, s)}
  {
    var c := Find(st.swaps, (j, t, s));
    SwapTotalPut(st.swaps, (j, t, s), if c.Some? then c.value + 1 else 0);
  }

  /** One action adds its pick-up, if any, to the total plus the number of
      counters, and its triple to the counted triples. */
  lemma StepSwaps(reg: Registry, flights: seq<string>, jigTypes: map<string, string>, st: Scan, a: Action)
    requires Step(reg, flights, jigTypes, st, a).Ok?
    ensures var sw := Step(reg, flights, jigTypes, st, a).value.swaps;
      && SwapTotal(sw) + |sw| == SwapTotal(st.swaps) + |st.swaps| + |PickOf(a)|
      && Keys(sw) == Keys(st.swaps) + Distinct(PickOf(a))
  {
    if a.PutDownRack? {
      assert Step(reg, flights, jigTypes, st, a) == OnPutDown(reg, st, a.j, a.t, a.r, a.s);
      PutDownSwaps(reg, st, a.j, a.t, a.r, a.s);
    } else if a.PickUpRack? {
      assert Step(reg, flights, jigTypes, st, a) == OnPickUp(st, a.j, a.t, a.s);
      DistinctOne((a.j, a.t, a.s));
      PickUpSwaps(st, a.j, a.t, a.s);
    } else {
      assert Step(reg, flights, jigTypes, st, a).value.swaps == st.swaps;
    }
  }

  /** Over a whole pass: the total plus the number of counters grows by the
      number of pick-ups, and the counted triples by the triples picked up. */
  lemma {:induction false} RunSwaps(
    reg: Registry, flights: seq<string>, jigTypes: map<string, string>, st0: Scan, plan: seq<Action>)
    requires Run(reg, flights, jigTypes, st0, plan).Ok?
    ensures var sw := Run(reg, flights, jigTypes, st0, plan).value.swaps;
      && SwapTotal(sw) + |sw| == SwapTotal(st0.swaps) + |st0.swaps| + |Picks(plan)|
      && Keys(sw) == Keys(st0.swaps) + Distinct(Picks(plan))
    decreases |plan|
  {
    if |plan| > 0 {
      var front := plan[..|plan| - 1];
      RunLast(reg, flights, jigTypes, st0, plan);
      RunSwaps(reg, flights, jigTypes, st0, front);
      StepSwaps(reg, flights, jigTypes, Run(reg, flights, jigTypes, st0, front).value, plan[|plan| - 1]);
      DistinctSnoc(Picks(front), PickOf(plan[|plan| - 1]));
    }
  }

  /** From no counters: the swap total is the number of pick-ups that are
      not the first of their triple. */
  lemma SwapTotalOfPlan(
    reg: Registry, flights: seq<string>, jigTypes: map<string, string>, st0: Scan, plan: seq<Action>)
    requires st0.swaps == [] && Run(reg, flights, jigTypes, st0, plan).Ok?
    ensures SwapTotal(Run(reg, flights, jigTypes, st0, plan).value.swaps) == |Picks(plan)| - |Distinct(Picks(plan))|
  {
    RunSwaps(reg, flights, jigTypes, st0, plan);
    DictSize(Run(reg, flights, jigTypes, st0, plan).value.swaps);
  }
}

=== FILE: checker_trace.dfy ===
/** What the pass over the trace computes, stated against reference
    definitions read directly off the plan: per flight the jigs unloaded
    and loaded in order, per production line the jigs delivered in order,
    the racks each jig is put down on, the racks put down on at all, and
    the pick-ups per jig, trailer and side. */
module CheckerTrace {
  import opened Basics
  import opened Dicts
  import opened Domain
  import opened Checker
  import opened CheckerRegistry

  /** The jig an action unloads from flight `b`, if it is such an unload. */
  function UnloadOf(a: Action, b: string): seq<string>
  {
    match a
    case UnloadBeluga(j, b', _) => if b' == b then [j] else []
    case _ => []
  }

  /** The jigs unloaded from flight `b`, in plan order. */
  function Unloads(plan: seq<Action>, b: string): seq<string>
    decreases |plan|
  {
    if |plan| == 0 then [] else Unloads(plan[..|plan| - 1], b) + UnloadOf(plan[|plan| - 1], b)
  }

  /** The `i`-th element of a sequence whose numbering starts at `c0`. */
  predicate NthIs(s: seq<string>, c0: int, i: int, j: string)
  {
    c0 <= i < c0 + |s| && s[i - c0] == j
  }

  /** Numbering in a sequence extended by at most one element. */
  lemma NthSnoc(s: seq<string>, x: seq<string>, c0: int, i: int, j: string)
    requires |x| <= 1
    ensures NthIs(s + x, c0, i, j) <==> NthIs(s, c0, i, j) || (x == [j] && i == c0 + |s|)
  {
    if c0 <= i < c0 + |s| {
      assert (s + x)[i - c0] == s[i - c0];
    }
  }

  /** The pass over a nonempty plan is the pass over all but its last
      action, followed by that action. */
  lemma RunLast(reg: Registry, flights: seq<string>, jigTypes: map<string, string>, st0: Scan, plan: seq<Action>)
    requires |plan| > 0 && Run(reg, flights, jigTypes, st0, plan).Ok?
    ensures Run(reg, flights, jigTypes, st0, plan[..|plan| - 1]).Ok?
    ensures Run(reg, flights, jigTypes, st0, plan)
         == Step(reg, flights, jigTypes, Run(reg, flights, jigTypes, st0, plan[..|plan| - 1]).value, plan[|plan| - 1])
  {
  }

  /** The kinds of id an action may write. */
  function WrittenKinds(a: Action): set<Kind>
  {
    match a
    case UnloadBeluga(_, _, _) => {UnloadKind}
    case LoadBeluga(_, _, _) => {LoadKind}
    case PutDownRack(_, _, _, _) => {RackEmptyKind, RackOrderKind}
    case DeliverToHangar(_, _, _, _) => {DeliverKind, LineOrderKind, BeforeFlightKind}
    case _ => {}
  }

  /** An id filed only under a kind the action does not write is not
      written by it. */
  lemma NotWritten(reg: Registry, p: PropId, kind: Kind, a: Action)
    requires FiledOnlyIn(reg, p, kind) && kind !in WrittenKinds(a)
    ensures p !in Written(reg, a)
  {
    match a
    case UnloadBeluga(_, _, _) => Elsewhere(reg, p, kind, UnloadKind);
    case LoadBeluga(_, _, _) => Elsewhere(reg, p, kind, LoadKind);
    case PutDownRack(_, _, _, _) =>
      Elsewhere(reg, p, kind, RackEmptyKind);
      Elsewhere(reg, p, kind, RackOrderKind);
    case DeliverToHangar(_, _, _, _) =>
      Elsewhere(reg, p, kind, DeliverKind);
      Elsewhere(reg, p, kind, LineOrderKind);
      Elsewhere(reg, p, kind, BeforeFlightKind);
    case _ =>
  }

  /** The counters an action of another kind leaves alone. */
  lemma StepOther(reg: Registry, flights: seq<string>, jigTypes: map<string, string>, st: Scan, a: Action)
    requires Step(reg, flights, jigTypes, st, a).Ok?
    ensures !a.UnloadBeluga? ==> Step(reg, flights, jigTypes, st, a).value.unloads == st.unloads
    ensures !a.LoadBeluga? ==> Step(reg, flights, jigTypes, st, a).value.loads == st.loads
    ensures !a.DeliverToHangar? ==> Step(reg, flights, jigTypes, st, a).value.delivers == st.delivers
    ensures !a.PutDownRack? ==> Step(reg, flights, jigTypes, st, a).value.used == st.used
    ensures !a.PutDownRack? ==> Step(reg, flights, jigTypes, st, a).value.thoughtEmpty == st.thoughtEmpty
    ensures !a.SwitchToNextBeluga? ==> Step(reg, flights, jigTypes, st, a).value.switched == st.switched
  {
  }

  /** One action: an unload of flight `b` advances its counter and makes
      the matching unload property true; nothing else touches either. */
  lemma StepUnload(
    reg: Registry, flights: seq<string>, jigTypes: map<string, string>, st: Scan, a: Action,
    p: PropId, j: string, b: string, i: int)
    requires Step(reg, flights, jigTypes, st, a).Ok?
    requires Find(reg.unload, (j, b, i)) == Some(p) && FiledOnlyIn(reg, p, UnloadKind)
    ensures Count(Step(reg, flights, jigTypes, st, a).value.unloads, b) == Count(st.unloads, b) + |UnloadOf(a, b)|
    ensures Find(Step(reg, flights, jigTypes, st, a).value.sat, p)
         == if UnloadOf(a, b) == [j] && Count(st.unloads, b) == i then Some(true) else Find(st.sat, p)
  {
    if a.UnloadBeluga? {
      var ji := Count(st.unloads, a.b);
      assert Step(reg, flights, jigTypes, st, a) == Ok(OnUnload(reg, st, a.j, a.b));
      assert CountVal(reg.unload, p) == CountIn(reg, p, UnloadKind);
      if Find(reg.unload, (a.j, a.b, ji)) == Some(p) {
        CountValUnique(reg.unload, p, (a.j, a.b, ji), (j, b, i));
      }
    } else {
      NotWritten(reg, p, UnloadKind, a);
      StepOther(reg, flights, jigTypes, st, a);
      StepFrame(reg, flights, jigTypes, st, a, p);
    }
  }

  /** The pass counts the unloads of each flight, and the unload property
      filed under `(j, b, i)` becomes true exactly when the unload numbered
      `i` of `b` moves `j`; otherwise it keeps its value. */
  lemma {:induction false} RunUnload(
    reg: Registry, flights: seq<string>, jigTypes: map<string, string>, st0: Scan, plan: seq<Action>,
    p: PropId, j: string, b: string, i: int)
    requires Run(reg, flights, jigTypes, st0, plan).Ok?
    requires Find(reg.unload, (j, b, i)) == Some(p) && FiledOnlyIn(reg, p, UnloadKind)
    ensures Count(Run(reg, flights, jigTypes, st0, plan).value.unloads, b) == Count(st0.unloads, b) + |Unloads(plan, b)|
    ensures Find(Run(reg, flights, jigTypes, st0, plan).value.sat, p)
         == if NthIs(Unloads(plan, b), Count(st0.unloads, b), i, j) then Some(true) else Find(st0.sat, p)
    decreases |plan|
  {
    if |plan| > 0 {
      var front := plan[..|plan| - 1];
      var a := plan[|plan| - 1];
      RunLast(reg, flights, jigTypes, st0, plan);
      RunUnload(reg, flights, jigTypes, st0, front, p, j, b, i);
      var st := Run(reg, flights, jigTypes, st0, front).value;
      StepUnload(reg, flights, jigTypes, st, a, p, j, b, i);
      assert Unloads(plan, b) == Unloads(front, b) + UnloadOf(a, b);
      NthSnoc(Unloads(front, b), UnloadOf(a, b), Count(st0.unloads, b), i, j);
    }
  }

  /** The jig an action loads onto flight `b`, if it is such a load. */
  function LoadOf(a: Action, b: string): seq<string>
  {
    match a
    case LoadBeluga(j, b', _) => if b' == b then [j] else []
    case _ => []
  }

  /** The jigs loaded onto flight `b`, in plan order. */
  function Loads(plan: seq<Action>, b: string): seq<string>
    decreases |plan|
  {
    if |plan| == 0 then [] else Loads(plan[..|plan| - 1], b) + LoadOf(plan[|plan| - 1], b)
  }

  /** A load property names either the jig itself or the jig's type. */
  predicate LoadedAs(jigTypes: map<string, string>, j: string, x: string)
  {
    j == x || (j in jigTypes && jigTypes[j] == x)
  }

  /** The `i`-th load, numbering from `c0`, is of `x` or of a jig of type `x`. */
  predicate NthLoadedAs(s: seq<string>, c0: int, i: int, jigTypes: map<string, string>, x: string)
  {
    c0 <= i < c0 + |s| && LoadedAs(jigTypes, s[i - c0], x)
  }

  /** Numbering of loads in a sequence extended by at most one element. */
  lemma NthLoadedSnoc(s: seq<string>, x: seq<string>, c0: int, i: int, jigTypes: map<string, string>, y: string)
    requires |x| <= 1
    ensures NthLoadedAs(s + x, c0, i, jigTypes, y)
        <==> NthLoadedAs(s, c0, i, jigTypes, y) || (|x| == 1 && i == c0 + |s| && LoadedAs(jigTypes, x[0], y))
  {
    if c0 <= i < c0 + |s| {
      assert (s + x)[i - c0] == s[i - c0];
    }
  }

  lemma StepLoad(
    reg: Registry, flights: seq<string>, jigTypes: map<string, string>, st: Scan, a: Action,
    p: PropId, x: string, b: string, i: int)
    requires Step(reg, flights, jigTypes, st, a).Ok?
    requires Find(reg.load, (x, b, i)) == Some(p) && FiledOnlyIn(reg, p, LoadKind)
    ensures Count(Step(reg, flights, jigTypes, st, a).value.loads, b) == Count(st.loads, b) + |LoadOf(a, b)|
    ensures Find(Step(reg, flights, jigTypes, st, a).value.sat, p)
         == if |LoadOf(a, b)| == 1 && Count(st.loads, b) == i && LoadedAs(jigTypes, LoadOf(a, b)[0], x)
            then Some(true) else Find(st.sat, p)
  {
    if a.LoadBeluga? {
      var ji := Count(st.loads, a.b);
      assert Step(reg, flights, jigTypes, st, a) == OnLoad(reg, jigTypes, st, a.j, a.b);
      assert CountVal(reg.load, p) == CountIn(reg, p, LoadKind);
      if Find(reg.load, (a.j, a.b, ji)) == Some(p) {
        CountValUnique(reg.load, p, (a.j, a.b, ji), (x, b, i));
      }
      if Find(reg.load, (jigTypes[a.j], a.b, ji)) == Some(p) {
        CountValUnique(reg.load, p, (jigTypes[a.j], a.b, ji), (x, b, i));
      }
    } else {
      NotWritten(reg, p, LoadKind, a);
      StepOther(reg, flights, jigTypes, st, a);
      StepFrame(reg, flights, jigTypes, st, a, p);
    }
  }

  /** The pass counts the loads of each flight, and the load property
      filed under `(x, b, i)` becomes true exactly when the load numbered
      `i` of `b` moves `x` or a jig of type `x`. */
  lemma {:induction false} RunLoad(
    reg: Registry, flights: seq<string>, jigTypes: map<string, string>, st0: Scan, plan: seq<Action>,
    p: PropId, x: string, b: string, i: int)
    requires Run(reg, flights, jigTypes, st0, plan).Ok?
    requires Find(reg.load, (x, b, i)) == Some(p) && FiledOnlyIn(reg, p, LoadKind)
    ensures Count(Run(reg, flights, jigTypes, st0, plan).value.loads, b) == Count(st0.loads, b) + |Loads(plan, b)|
    ensures Find(Run(reg, flights, jigTypes, st0, plan).value.sat, p)
         == if NthLoadedAs(Loads(plan, b), Count(st0.loads, b), i, jigTypes, x) then Some(true) else Find(st0.sat, p)
    decreases |plan|
  {
    if |plan| > 0 {
      var front := plan[..|plan| - 1];
      var a := plan[|plan| - 1];
      RunLast(reg, flights, jigTypes, st0, plan);
      RunLoad(reg, flights, jigTypes, st0, front, p, x, b, i);
      var st := Run(reg, flights, jigTypes, st0, front).value;
      StepLoad(reg, flights, jigTypes, st, a, p, x, b, i);
      assert Loads(plan, b) == Loads(front, b) + LoadOf(a, b);
      NthLoadedSnoc(Loads(front, b), LoadOf(a, b), Count(st0.loads, b), i, jigTypes, x);
    }
  }

  /** The jig an action delivers to production line `pl`, if it is such a
      delivery. */
  function DeliveryOf(a: Action, pl: string): seq<string>
  {
    match a
    case DeliverToHangar(j, _, _, pl') => if pl' == pl then [j] else []
    case _ => []
  }

  /** The jigs delivered to production line `pl`, in plan order. */
  function Deliveries(plan: seq<Action>, pl: string): seq<string>
    decreases |plan|
  {
    if |plan| == 0 then [] else Deliveries(plan[..|plan| - 1], pl) + DeliveryOf(plan[|plan| - 1], pl)
  }

  /** Outside the order and before-flight properties, a delivery only sets
      the delivery property filed under the line's current count. */
  lemma DeliverSat(reg: Registry, st: Scan, j: string, pl: string, p: PropId)
    requires OnDeliver(reg, st, j, pl).Ok?
    requires p !in Values(reg.lineOrder) && p !in Values(reg.beforeFlight)
    ensures Find(OnDeliver(reg, st, j, pl).value.sat, p)
         == Find(Mark(st.sat, Find(reg.deliver, (j, pl, Count(st.delivers, pl))), true), p)
  {
    var sat1 := Mark(st.sat, Find(reg.deliver, (j, pl, Count(st.delivers, pl))), true);
    var delivered1 := AddTo(st.delivered, pl, j);
    LineOrderLoopFrame(reg.lineOrder, delivered1, sat1, j, pl, p);
    var sat2 := LineOrderLoop(reg.lineOrder, delivered1, sat1, j, pl).value;
    BeforeFlightLoopFrame(reg.beforeFlight, st.switched, sat2, j, pl, p);
  }

  lemma StepDeliver(
    reg: Registry, flights: seq<string>, jigTypes: map<string, string>, st: Scan, a: Action,
    p: PropId, j: string, pl: string, i: int)
    requires Step(reg, flights, jigTypes, st, a).Ok?
    requires Find(reg.deliver, (j, pl, i)) == Some(p) && FiledOnlyIn(reg, p, DeliverKind)
    ensures Count(Step(reg, flights, jigTypes, st, a).value.delivers, pl) == Count(st.delivers, pl) + |DeliveryOf(a, pl)|
    ensures Find(Step(reg, flights, jigTypes, st, a).value.sat, p)
         == if DeliveryOf(a, pl) == [j] && Count(st.delivers, pl) == i then Some(true) else Find(st.sat, p)
  {
    if a.DeliverToHangar? {
      var pli := Count(st.delivers, a.pl);
      assert Step(reg, flights, jigTypes, st, a) == OnDeliver(reg, st, a.j, a.pl);
      assert CountVal(reg.deliver, p) == CountIn(reg, p, DeliverKind);
      Elsewhere(reg, p, DeliverKind, LineOrderKind);
      Elsewhere(reg, p, DeliverKind, BeforeFlightKind);
      DeliverSat(reg, st, a.j, a.pl, p);
      if Find(reg.deliver, (a.j, a.pl, pli)) == Some(p) {
        CountValUnique(reg.deliver, p, (a.j, a.pl, pli), (j, pl, i));
      }
    } else {
      NotWritten(reg, p, DeliverKind, a);
      StepOther(reg, flights, jigTypes, st, a);
      StepFrame(reg, flights, jigTypes, st, a, p);
    }
  }

  /** `StepDeliver` for the last action of a plan. */
  lemma DeliverLast(
    reg: Registry, flights: seq<string>, jigTypes: map<string, string>, st0: Scan, plan: seq<Action>,
    p: PropId, j: string, pl: string, i: int)
    requires |plan| > 0 && Run(reg, flights, jigTypes, st0, plan).Ok?
    requires Find(reg.deliver, (j, pl, i)) == Some(p) && FiledOnlyIn(reg, p, DeliverKind)
    ensures Run(reg, flights, jigTypes, st0, plan[..|plan| - 1]).Ok?
    ensures var st := Run(reg, flights, jigTypes, st0, plan[..|plan| - 1]).value;
      var st' := Run(reg, flights, jigTypes, st0, plan).value;
      var a := plan[|plan| - 1];
      && Count(st'.delivers, pl) == Count(st.delivers, pl) + |DeliveryOf(a, pl)|
      && Find(st'.sat, p) == if DeliveryOf(a, pl) == [j] && Count(st.delivers, pl) == i then Some(true) else Find(st.sat, p)
  {
    RunLast(reg, flights, jigTypes, st0, plan);
    StepDeliver(reg, flights, jigTypes, Run(reg, flights, jigTypes, st0, plan[..|plan| - 1]).value, plan[|plan| - 1], p, j, pl, i);
  }

  /** The pass counts the deliveries to each production line, and the
      delivery property filed under `(j, pl, i)` becomes true exactly when
      delivery number `i` to `pl` brings `j`. */
  lemma {:induction false} RunDeliver(
    reg: Registry, flights: seq<string>, jigTypes: map<string, string>, st0: Scan, plan: seq<Action>,
    p: PropId, j: string, pl: string, i: int)
    requires Run(reg, flights, jigTypes, st0, plan).Ok?
    requires Find(reg.deliver, (j, pl, i)) == Some(p) && FiledOnlyIn(reg, p, DeliverKind)
    ensures Count(Run(reg, flights, jigTypes, st0, plan).value.delivers, pl) == Count(st0.delivers, pl) + |Deliveries(plan, pl)|
    ensures Find(Run(reg, flights, jigTypes, st0, plan).value.sat, p)
         == if NthIs(Deliveries(plan, pl), Count(st0.delivers, pl), i, j) then Some(true) else Find(st0.sat, p)
    decreases |plan|
  {
    if |plan| > 0 {
      var front := plan[..|plan| - 1];
      var a := plan[|plan| - 1];
      DeliverLast(reg, flights, jigTypes, st0, plan, p, j, pl, i);
      RunDeliver(reg, flights, jigTypes, st0, front, p, j, pl, i);
      var st := Run(reg, flights, jigTypes, st0, front).value;
      assert Deliveries(plan, pl) == Deliveries(front, pl) + DeliveryOf(a, pl);
      NthSnoc(Deliveries(front, pl), DeliveryOf(a, pl), Count(st0.delivers, pl), i, j);
    }
  }

  /** Some action of the plan puts a jig down on rack `r`. */
  predicate PutDownOn(plan: seq<Action>, r: string)
  {
    exists i :: 0 <= i < |plan| && plan[i].PutDownRack? && plan[i].r == r
  }

  /** The racks jig `j` is put down on by the plan. */
  function PutTargets(plan: seq<Action>, j: string): set<string>
  {
    set i | 0 <= i < |plan| && plan[i].PutDownRack? && plan[i].j == j :: plan[i].r
  }

  /** The racks the plan puts any jig down on. */
  function PutRacks(plan: seq<Action>): set<string>
  {
    set i | 0 <= i < |plan| && plan[i].PutDownRack? :: plan[i].r
  }

  /** The three sets above, for a plan extended by one action. */
  lemma PlanLast(plan: seq<Action>, j: string, r: string)
    requires |plan| > 0
    ensures var front := plan[..|plan| - 1]; var a := plan[|plan| - 1];
      && (PutDownOn(plan, r) <==> PutDownOn(front, r) || (a.PutDownRack? && a.r == r))
      && PutTargets(plan, j) == PutTargets(front, j) + (if a.PutDownRack? && a.j == j then {a.r} else {})
      && PutRacks(plan) == PutRacks(front) + (if a.PutDownRack? then {a.r} else {})
  {
    var front := plan[..|plan| - 1];
    var a := plan[|plan| - 1];
    assert forall i :: 0 <= i < |front| ==> front[i] == plan[i];
    if PutDownOn(plan, r) && !(a.PutDownRack? && a.r == r) {
      var i :| 0 <= i < |plan| && plan[i].PutDownRack? && plan[i].r == r;
      assert i < |front|;
    }
  }

  /** Outside the rack-order properties, a put-down only falsifies the
      always-empty property of its rack. */
  lemma PutDownSat(reg: Registry, st: Scan, j: string, t: string, r: string, s: Side, p: PropId)
    requires OnPutDown(reg, st, j, t, r, s).Ok?
    requires p !in Values(reg.rackOrder)
    ensures Find(OnPutDown(reg, st, j, t, r, s).value.sat, p) == Find(Mark(st.sat, Find(reg.rackEmpty, r), false), p)
  {
    RackOrderLoopFrame(reg.rackOrder, AddTo(st.used, j, r), Mark(st.sat, Find(reg.rackEmpty, r), false), j, r, p);
  }

  lemma StepRackEmpty(
    reg: Registry, flights: seq<string>, jigTypes: map<string, string>, st: Scan, a: Action,
    p: PropId, r: string)
    requires Step(reg, flights, jigTypes, st, a).Ok?
    requires Find(reg.rackEmpty, r) == Some(p) && FiledOnlyIn(reg, p, RackEmptyKind)
    ensures Find(Step(reg, flights, jigTypes, st, a).value.sat, p)
         == if a.PutDownRack? && a.r == r then Some(false) else Find(st.sat, p)
  {
    if a.PutDownRack? {
      assert Step(reg, flights, jigTypes, st, a) == OnPutDown(reg, st, a.j, a.t, a.r, a.s);
      assert CountVal(reg.rackEmpty, p) == CountIn(reg, p, RackEmptyKind);
      Elsewhere(reg, p, RackEmptyKind, RackOrderKind);
      PutDownSat(reg, st, a.j, a.t, a.r, a.s, p);
      if Find(reg.rackEmpty, a.r) == Some(p) {
        CountValUnique(reg.rackEmpty, p, a.r, r);
      }
    } else {
      NotWritten(reg, p, RackEmptyKind, a);
      StepFrame(reg, flights, jigTypes, st, a, p);
    }
  }

  /** The rack-always-empty property of `r` becomes false exactly when the
      plan puts some jig down on `r`; otherwise it keeps its value. */
  lemma {:induction false} RunRackEmpty(
    reg: Registry, flights: seq<string>, jigTypes: map<string, string>, st0: Scan, plan: seq<Action>,
    p: PropId, r: string)
    requires Run(reg, flights, jigTypes, st0, plan).Ok?
    requires Find(reg.rackEmpty, r) == Some(p) && FiledOnlyIn(reg, p, RackEmptyKind)
    ensures Find(Run(reg, flights, jigTypes, st0, plan).value.sat, p)
         == if PutDownOn(plan, r) then Some(false) else Find(st0.sat, p)
    decreases |plan|
  {
    if |plan| > 0 {
      var front := plan[..|plan| - 1];
      RunLast(reg, flights, jigTypes, st0, plan);
      RunRackEmpty(reg, flights, jigTypes, st0, front, p, r);
      StepRackEmpty(reg, flights, jigTypes, Run(reg, flights, jigTypes, st0, front).value, plan[|plan| - 1], p, r);
      PlanLast(plan, "", r);
    }
  }

  /** The racks recorded for jig `j`. */
  function Racks(used: map<string, set<string>>, j: string): set<string>
  {
    if j in used then used[j] else {}
  }

  lemma StepRacks(reg: Registry, flights: seq<string>, jigTypes: map<string, string>, st: Scan, a: Action, j: string)
    requires Step(reg, flights, jigTypes, st, a).Ok?
    ensures Racks(Step(reg, flights, jigTypes, st, a).value.used, j)
         == Racks(st.used, j) + (if a.PutDownRack? && a.j == j then {a.r} else {})
    ensures Step(reg, flights, jigTypes, st, a).value.thoughtEmpty
         == st.thoughtEmpty - (if a.PutDownRack? then {a.r} else {})
  {
    if a.PutDownRack? {
      assert Step(reg, flights, jigTypes, st, a) == OnPutDown(reg, st, a.j, a.t, a.r, a.s);
    } else {
      StepOther(reg, flights, jigTypes, st, a);
    }
  }

  /** The pass adds to the racks of jig `j` exactly the racks the plan puts
      it down on, and removes from the racks thought empty exactly the
      racks the plan puts anything down on. */
  lemma {:induction false} RunRacks(
    reg: Registry, flights: seq<string>, jigTypes: map<string, string>, st0: Scan, plan: seq<Action>, j: string)
    requires Run(reg, flights, jigTypes, st0, plan).Ok?
    ensures Racks(Run(reg, flights, jigTypes, st0, plan).value.used, j) == Racks(st0.used, j) + PutTargets(plan, j)
    ensures Run(reg, flights, jigTypes, st0, plan).value.thoughtEmpty == st0.thoughtEmpty - PutRacks(plan)
    decreases |plan|
  {
    if |plan| > 0 {
      var front := plan[..|plan| - 1];
      RunLast(reg, flights, jigTypes, st0, plan);
      RunRacks(reg, flights, jigTypes, st0, front, j);
      StepRacks(reg, flights, jigTypes, Run(reg, flights, jigTypes, st0, front).value, plan[|plan| - 1], j);
      PlanLast(plan, j, "");
    }
  }

  /** An id that no action writes keeps its value through the pass. */
  lemma {:induction false} RunFrame(
    reg: Registry, flights: seq<string>, jigTypes: map<string, string>, st0: Scan, plan: seq<Action>, p: PropId)
    requires Run(reg, flights, jigTypes, st0, plan).Ok?
    requires p !in Values(reg.unload) && p !in Values(reg.load) && p !in Values(reg.deliver)
    requires p !in Values(reg.rackEmpty) && p !in Values(reg.rackOrder)
    requires p !in Values(reg.lineOrder) && p !in Values(reg.beforeFlight)
    ensures Find(Run(reg, flights, jigTypes, st0, plan).value.sat, p) == Find(st0.sat, p)
    decreases |plan|
  {
    if |plan| > 0 {
      var front := plan[..|plan| - 1];
      RunLast(reg, flights, jigTypes, st0, plan);
      RunFrame(reg, flights, jigTypes, st0, front, p);
      StepFrame(reg, flights, jigTypes, Run(reg, flights, jigTypes, st0, front).value, plan[|plan| - 1], p);
    }
  }

  /** The number of switches to the next flight in a plan. */
  function Switches(plan: seq<Action>): nat
    decreases |plan|
  {
    if |plan| == 0 then 0
    else Switches(plan[..|plan| - 1]) + (if plan[|plan| - 1].SwitchToNextBeluga? then 1 else 0)
  }

  /** The flights in order after the first, up to the `m`-th of them. */
  function FlightsAfterFirst(flights: seq<string>, m: int): set<string>
  {
    set i | 1 <= i <= m && i < |flights| :: flights[i]
  }

  /** No flight is listed twice. */
  predicate DistinctFlights(flights: seq<string>)
  {
    forall a, b :: 0 <= a < b < |flights| ==> flights[a] != flights[b]
  }

  /** One more flight after the first. */
  lemma FlightsAfterFirstNext(flights: seq<string>, m: nat)
    requires m + 1 < |flights|
    ensures FlightsAfterFirst(flights, m + 1) == FlightsAfterFirst(flights, m) + {flights[m + 1]}
  {
  }

  /** Distinct flights after the first, up to the `m`-th, are `m` flights. */
  lemma {:induction false} FlightsAfterFirstSize(flights: seq<string>, m: nat)
    requires DistinctFlights(flights) && m < |flights|
    ensures |FlightsAfterFirst(flights, m)| == m
    decreases m
  {
    if m == 0 {
      assert FlightsAfterFirst(flights, 0) == {};
    } else {
      FlightsAfterFirstSize(flights, m - 1);
      FlightsAfterFirstNext(flights, m - 1);
      assert flights[m] !in FlightsAfterFirst(flights, m - 1);
    }
  }

  /** One action: only a switch adds a flight, the one after as many
      flights as have been switched to. */
  lemma StepSwitched(reg: Registry, flights: seq<string>, jigTypes: map<string, string>, st: Scan, a: Action)
    requires Step(reg, flights, jigTypes, st, a).Ok?
    ensures a.SwitchToNextBeluga? ==> |st.switched| + 1 < |flights|
    ensures a.SwitchToNextBeluga? ==>
      Step(reg, flights, jigTypes, st, a).value.switched == st.switched + {flights[|st.switched| + 1]}
    ensures !a.SwitchToNextBeluga? ==> Step(reg, flights, jigTypes, st, a).value.switched == st.switched
  {
    if a.SwitchToNextBeluga? {
      assert Step(reg, flights, jigTypes, st, a) == OnSwitch(flights, st);
    } else {
      StepOther(reg, flights, jigTypes, st, a);
    }
  }

  /** With distinct flights and nothing switched to at the start, a pass
      holding `m` switches has switched to the second to the `(m + 1)`-th
      flight, and there were that many flights. */
  lemma {:induction false} RunSwitched(
    reg: Registry, flights: seq<string>, jigTypes: map<string, string>, st0: Scan, plan: seq<Action>)
    requires DistinctFlights(flights) && st0.switched == {}
    requires Run(reg, flights, jigTypes, st0, plan).Ok?
    ensures Switches(plan) == 0 || Switches(plan) < |flights|
    ensures Run(reg, flights, jigTypes, st0, plan).value.switched == FlightsAfterFirst(flights, Switches(plan))
    decreases |plan|
  {
    if |plan| == 0 {
      assert FlightsAfterFirst(flights, 0) == {};
    } else {
      var front := plan[..|plan| - 1];
      var a := plan[|plan| - 1];
      RunLast(reg, flights, jigTypes, st0, plan);
      RunSwitched(reg, flights, jigTypes, st0, front);
      var st := Run(reg, flights, jigTypes, st0, front).value;
      var m := Switches(front);
      StepSwitched(reg, flights, jigTypes, st, a);
      if a.SwitchToNextBeluga? {
        if m == 0 {
          assert FlightsAfterFirst(flights, 0) == {};
        } else {
          FlightsAfterFirstSize(flights, m);
        }
        FlightsAfterFirstNext(flights, m);
      }
    }
  }

  /** A plan switching flights as often as there are flights, or more,
      fails: the last switch runs out of flights. */
  lemma TooManySwitches(
    reg: Registry, flights: seq<string>, jigTypes: map<string, string>, st0: Scan, plan: seq<Action>)
    requires DistinctFlights(flights) && st0.switched == {}
    requires Switches(plan) > 0 && Switches(plan) >= |flights|
    ensures Run(reg, flights, jigTypes, st0, plan).Err?
  {
    if Run(reg, flights, jigTypes, st0, plan).Ok? {
      RunSwitched(reg, flights, jigTypes, st0, plan);
    }
  }

  /** The racks that initially hold `j`. */
  function InitialRacks(racks: seq<(string, seq<string>)>, j: string): set<string>
  {
    set i | 0 <= i < |racks| && j in racks[i].1 :: racks[i].0
  }

  /** The racks that initially hold some jig. */
  function Occupied(racks: seq<(string, seq<string>)>): set<string>
  {
    set i | 0 <= i < |racks| && |racks[i].1| > 0 :: racks[i].0
  }

  /** Seeding a nonempty list of racks: the first rack, then the rest. */
  lemma RacksCons(racks: seq<(string, seq<string>)>, j: string)
    requires |racks| > 0
    ensures InitialRacks(racks, j) == (if j in racks[0].1 then {racks[0].0} else {}) + InitialRacks(racks[1..], j)
    ensures Occupied(racks) == (if |racks[0].1| > 0 then {racks[0].0} else {}) + Occupied(racks[1..])
  {
    var rest := racks[1..];
    assert forall i :: 0 <= i < |rest| ==> rest[i] == racks[i + 1];
    forall r | r in InitialRacks(racks, j) ensures r in (if j in racks[0].1 then {racks[0].0} else {}) + InitialRacks(rest, j) {
      var i :| 0 <= i < |racks| && j in racks[i].1 && racks[i].0 == r;
      if i > 0 {
        assert rest[i - 1] == racks[i];
      }
    }
    forall r | r in Occupied(racks) ensures r in (if |racks[0].1| > 0 then {racks[0].0} else {}) + Occupied(rest) {
      var i :| 0 <= i < |racks| && |racks[i].1| > 0 && racks[i].0 == r;
      if i > 0 {
        assert rest[i - 1] == racks[i];
      }
    }
  }

  /** Seeding one rack's jigs records the rack for each of them, clears the
      rack from the racks thought empty, and touches nothing else but the
      never-on-rack properties. */
  lemma {:induction false} SeedJigsFacts(reg: Registry, r: string, jigs: seq<string>, st: Scan, j: string)
    ensures var st' := SeedJigs(reg, r, jigs, st);
      && Racks(st'.used, j) == Racks(st.used, j) + (if j in jigs then {r} else {})
      && st'.thoughtEmpty == st.thoughtEmpty - (if |jigs| > 0 then {r} else {})
      && st' == st.(sat := st'.sat, used := st'.used, thoughtEmpty := st'.thoughtEmpty)
    decreases |jigs|
  {
    if |jigs| > 0 {
      var st1 := st.(
        sat := Mark(st.sat, Find(reg.neverOnRack, (jigs[0], r)), false),
        used := AddTo(st.used, jigs[0], r),
        thoughtEmpty := st.thoughtEmpty - {r});
      SeedJigsFacts(reg, r, jigs[1..], st1, j);
      assert j in jigs <==> j == jigs[0] || j in jigs[1..];
    }
  }

  /** A jig of the list falsifies its never-on-rack property for `r`. */
  predicate NeverOnRackHit(reg: Registry, r: string, jigs: seq<string>, p: PropId)
  {
    exists k :: 0 <= k < |jigs| && Find(reg.neverOnRack, (jigs[k], r)) == Some(p)
  }

  lemma {:induction false} SeedJigsSat(reg: Registry, r: string, jigs: seq<string>, st: Scan, p: PropId)
    ensures Find(SeedJigs(reg, r, jigs, st).sat, p) == if NeverOnRackHit(reg, r, jigs, p) then Some(false) else Find(st.sat, p)
    decreases |jigs|
  {
    if |jigs| > 0 {
      var st1 := st.(
        sat := Mark(st.sat, Find(reg.neverOnRack, (jigs[0], r)), false),
        used := AddTo(st.used, jigs[0], r),
        thoughtEmpty := st.thoughtEmpty - {r});
      SeedJigsSat(reg, r, jigs[1..], st1, p);
      if NeverOnRackHit(reg, r, jigs[1..], p) {
        var k :| 0 <= k < |jigs[1..]| && Find(reg.neverOnRack, (jigs[1..][k], r)) == Some(p);
        assert jigs[k + 1] == jigs[1..][k];
      }
      if NeverOnRackHit(reg, r, jigs, p) && Find(reg.neverOnRack, (jigs[0], r)) != Some(p) {
        var k :| 0 <= k < |jigs| && Find(reg.neverOnRack, (jigs[k], r)) == Some(p);
        assert jigs[1..][k - 1] == jigs[k];
      }
    }
  }

  /** Seeding the initial racks: the racks recorded for `j` gain the racks
      initially holding it, the occupied racks stop being thought empty,
      and only the property table changes otherwise. */
  lemma {:induction false} SeedFromFacts(reg: Registry, racks: seq<(string, seq<string>)>, st: Scan, j: string)
    ensures var st' := SeedFrom(reg, racks, st);
      && Racks(st'.used, j) == Racks(st.used, j) + InitialRacks(racks, j)
      && st'.thoughtEmpty == st.thoughtEmpty - Occupied(racks)
      && st' == st.(sat := st'.sat, used := st'.used, thoughtEmpty := st'.thoughtEmpty)
    decreases |racks|
  {
    if |racks| > 0 {
      var (r, jigs) := racks[0];
      var st1 := if |jigs| > 0 then
          SeedJigs(reg, r, jigs, st.(sat := Mark(st.sat, Find(reg.rackEmpty, r), false)))
        else st;
      if |jigs| > 0 {
        SeedJigsFacts(reg, r, jigs, st.(sat := Mark(st.sat, Find(reg.rackEmpty, r), false)), j);
      }
      SeedFromFacts(reg, racks[1..], st1, j);
      RacksCons(racks, j);
    }
  }

  /** Seeding some occupied rack falsifies `p`. */
  predicate SeedHit(reg: Registry, racks: seq<(string, seq<string>)>, p: PropId)
  {
    exists i :: 0 <= i < |racks| && |racks[i].1| > 0
      && (Find(reg.rackEmpty, racks[i].0) == Some(p) || NeverOnRackHit(reg, racks[i].0, racks[i].1, p))
  }

  lemma {:induction false} SeedFromSat(reg: Registry, racks: seq<(string, seq<string>)>, st: Scan, p: PropId)
    ensures Find(SeedFrom(reg, racks, st).sat, p) == if SeedHit(reg, racks, p) then Some(false) else Find(st.sat, p)
    decreases |racks|
  {
    if |racks| > 0 {
      var (r, jigs) := racks[0];
      var st0 := st.(sat := Mark(st.sat, Find(reg.rackEmpty, r), false));
      var st1 := if |jigs| > 0 then SeedJigs(reg, r, jigs, st0) else st;
      if |jigs| > 0 {
        SeedJigsSat(reg, r, jigs, st0, p);
      }
      SeedFromSat(reg, racks[1..], st1, p);
      var rest := racks[1..];
      if SeedHit(reg, rest, p) {
        var i :| 0 <= i < |rest| && |rest[i].1| > 0
          && (Find(reg.rackEmpty, rest[i].0) == Some(p) || NeverOnRackHit(reg, rest[i].0, rest[i].1, p));
        assert racks[i + 1] == rest[i];
      }
      if SeedHit(reg, racks, p) && !(|jigs| > 0 && (Find(reg.rackEmpty, r) == Some(p) || NeverOnRackHit(reg, r, jigs, p))) {
        var i :| 0 <= i < |racks| && |racks[i].1| > 0
          && (Find(reg.rackEmpty, racks[i].0) == Some(p) || NeverOnRackHit(reg, racks[i].0, racks[i].1, p));
        assert rest[i - 1] == racks[i];
      }
    }
  }

  /** For an always-empty property, seeding falsifies it exactly when its
      rack is initially occupied. */
  lemma SeedHitRackEmpty(reg: Registry, racks: Dict<string, seq<string>>, p: PropId, r: string)
    requires Find(reg.rackEmpty, r) == Some(p) && FiledOnlyIn(reg, p, RackEmptyKind)
    ensures SeedHit(reg, racks, p) <==> r in Occupied(racks)
  {
    Elsewhere(reg, p, RackEmptyKind, NeverOnRackKind);
    assert CountVal(reg.rackEmpty, p) == CountIn(reg, p, RackEmptyKind);
    if SeedHit(reg, racks, p) {
      var i :| 0 <= i < |racks| && |racks[i].1| > 0
        && (Find(reg.rackEmpty, racks[i].0) == Some(p) || NeverOnRackHit(reg, racks[i].0, racks[i].1, p));
      if NeverOnRackHit(reg, racks[i].0, racks[i].1, p) {
        var k :| 0 <= k < |racks[i].1| && Find(reg.neverOnRack, (racks[i].1[k], racks[i].0)) == Some(p);
        FindInValues(reg.neverOnRack, (racks[i].1[k], racks[i].0), p);
      } else {
        CountValUnique(reg.rackEmpty, p, racks[i].0, r);
      }
    }
    if r in Occupied(racks) {
      var i :| 0 <= i < |racks| && |racks[i].1| > 0 && racks[i].0 == r;
    }
  }

  /** For a never-on-rack property, seeding falsifies it exactly when its
      rack initially holds its jig. */
  lemma SeedHitNeverOnRack(reg: Registry, racks: Dict<string, seq<string>>, p: PropId, j: string, r: string)
    requires Find(reg.neverOnRack, (j, r)) == Some(p) && FiledOnlyIn(reg, p, NeverOnRackKind)
    ensures SeedHit(reg, racks, p) <==> r in InitialRacks(racks, j)
  {
    Elsewhere(reg, p, NeverOnRackKind, RackEmptyKind);
    assert CountVal(reg.neverOnRack, p) == CountIn(reg, p, NeverOnRackKind);
    if SeedHit(reg, racks, p) {
      var i :| 0 <= i < |racks| && |racks[i].1| > 0
        && (Find(reg.rackEmpty, racks[i].0) == Some(p) || NeverOnRackHit(reg, racks[i].0, racks[i].1, p));
      if Find(reg.rackEmpty, racks[i].0) == Some(p) {
        FindInValues(reg.rackEmpty, racks[i].0, p);
      } else {
        var k :| 0 <= k < |racks[i].1| && Find(reg.neverOnRack, (racks[i].1[k], racks[i].0)) == Some(p);
        CountValUnique(reg.neverOnRack, p, (racks[i].1[k], racks[i].0), (j, r));
      }
    }
    if r in InitialRacks(racks, j) {
      var i :| 0 <= i < |racks| && j in racks[i].1 && racks[i].0 == r;
      var k :| 0 <= k < |racks[i].1| && racks[i].1[k] == j;
      assert NeverOnRackHit(reg, racks[i].0, racks[i].1, p);
    }
  }

  /** Seeding touches no id outside the always-empty and never-on-rack
      slots. */
  lemma SeedHitOther(reg: Registry, racks: seq<(string, seq<string>)>, p: PropId)
    requires p !in Values(reg.rackEmpty) && p !in Values(reg.neverOnRack)
    ensures !SeedHit(reg, racks, p)
  {
    if SeedHit(reg, racks, p) {
      var i :| 0 <= i < |racks| && |racks[i].1| > 0
        && (Find(reg.rackEmpty, racks[i].0) == Some(p) || NeverOnRackHit(reg, racks[i].0, racks[i].1, p));
      if Find(reg.rackEmpty, racks[i].0) == Some(p) {
        FindInValues(reg.rackEmpty, racks[i].0, p);
      } else {
        var k :| 0 <= k < |racks[i].1| && Find(reg.neverOnRack, (racks[i].1[k], racks[i].0)) == Some(p);
        FindInValues(reg.neverOnRack, (racks[i].1[k], racks[i].0), p);
      }
    }
  }
}

=== FILE: checker_verdicts.dfy ===
/** The verdict of `check_plan_properties` on each kind of property,
    stated against the plan and the initial racks alone.

    Every statement is about a property that is the last one given with
    its kind and parameters (an earlier one with the same parameters has
    its id replaced in the registry), whose id is not the empty string
    (the at-least-one slot starts out holding the empty string), and
    about a run of the checker that does not abort. */
module CheckerVerdicts {
  import opened Basics
  import opened Dicts
  import opened Domain
  import opened Checker
  import opened CheckerRegistry
  import opened CheckerTrace
  import opened CheckerSwaps
  import opened CheckerFinal

  /** Rack `r` holds no jig initially and the plan puts none down on it. */
  predicate StaysEmpty(racks: seq<(string, seq<string>)>, plan: seq<Action>, r: string)
  {
    r !in Occupied(racks) && !PutDownOn(plan, r)
  }

  /** Some rack of the initial racks is empty and stays so. */
  predicate SomeRackStaysEmpty(racks: Dict<string, seq<string>>, plan: seq<Action>)
  {
    Keys(racks) - Occupied(racks) - PutRacks(plan) != {}
  }

  /** Rack `r` initially holds jig `j`. */
  predicate InitiallyOn(racks: seq<(string, seq<string>)>, j: string, r: string)
  {
    r in InitialRacks(racks, j)
  }

  /** The racks jig `j` is ever on: initially, or by a put-down of the plan. */
  function RacksOf(racks: seq<(string, seq<string>)>, plan: seq<Action>, j: string): set<string>
  {
    InitialRacks(racks, j) + PutTargets(plan, j)
  }

  /** Jig `j` is ever on at most one rack. */
  predicate AtMostOneRack(racks: seq<(string, seq<string>)>, plan: seq<Action>, j: string)
  {
    |RacksOf(racks, plan, j)| <= 1
  }

  /** Every rack jig `j` is ever on has a known size of at most `rs`. */
  predicate RacksWithin(racks: seq<(string, seq<string>)>, plan: seq<Action>, racksSize: map<string, int>, j: string, rs: int)
  {
    forall x :: x in RacksOf(racks, plan, j) ==> x in racksSize && racksSize[x] <= rs
  }

  /** Swaps of a plan: its pick-ups that are not the first of their
      (jig, trailer, side). */
  function Swaps(plan: seq<Action>): int
  {
    |Picks(plan)| - |Distinct(Picks(plan))|
  }

  /** The id filed under a property's parameters occurs in its kind's table. */
  lemma FiledCounts(reg: Registry, prop: Property, id: PropId)
    requires !prop.UnknownProperty? && Filed(reg, prop) == Some(id)
    ensures CountIn(reg, id, KindOf(prop)) > 0
  {
    match prop
    case UnloadBeluga(j, b, i) => FindInValues(reg.unload, (j, b, i), id);
    case LoadBeluga(j, b, i) => FindInValues(reg.load, (j, b, i), id);
    case DeliverToProductionLine(j, pl, i) => FindInValues(reg.deliver, (j, pl, i), id);
    case RackAlwaysEmpty(r) => FindInValues(reg.rackEmpty, r, id);
    case AtLeastOneRackAlwaysEmpty =>
    case JigAlwaysPlacedOnRackSizeLeq(j, rs) => FindInValues(reg.sizeLeq, (j, rs), id);
    case NumSwapsUsedLeq(ns) => FindInValues(reg.swapsLeq, ns, id);
    case JigNeverOnRack(j, r) => FindInValues(reg.neverOnRack, (j, r), id);
    case JigOnlyIfEverOnRack(j, r) => FindInValues(reg.onlyIf, (j, r), id);
    case JigToProductionLineOrder(j1, pl1, j2, pl2) => FindInValues(reg.lineOrder, (j1, pl1, j2, pl2), id);
    case JigToRackOrder(j1, r1, j2, r2) => FindInValues(reg.rackOrder, (j1, r1, j2, r2), id);
    case JigToProductionLineBeforeFlight(j, pl, b) => FindInValues(reg.beforeFlight, (j, pl, b), id);
  }

  /** The pieces of a successful check, with the property's id filed under
      its parameters and nowhere else. */
  lemma Established(
    props: Dict<PropId, Property>, plan: seq<Action>, flights: seq<string>,
    jigTypes: map<string, string>, racksInitial: Dict<string, seq<string>>, racksSize: map<string, int>, k: int
  ) returns (reg: Registry, st: Scan, sat: Dict<PropId, bool>)
    requires Check(props, plan, flights, jigTypes, racksInitial, racksSize).Ok?
    requires LastOfItsKind(props, k) && props[k].0 != ""
    ensures !props[k].1.UnknownProperty?
    ensures Run(reg, flights, jigTypes, Seed(reg, racksInitial), plan) == Ok(st)
    ensures Finalise(reg, st, racksSize) == Ok(sat)
    ensures (props[k].0 in Check(props, plan, flights, jigTypes, racksInitial, racksSize).value
             <==> Find(sat, props[k].0) == Some(true))
    ensures Filed(reg, props[k].1) == Some(props[k].0)
    ensures FiledOnlyIn(reg, props[k].0, KindOf(props[k].1))
  {
    reg, st, sat := Decompose(props, plan, flights, jigTypes, racksInitial, racksSize);
    DispatchFiled(props, k);
    DispatchCounts(props, props[k].0);
    KeysIff(props, props[k].0);
    FiledCounts(reg, props[k].1, props[k].0);
    SoleKind(reg, props[k].0, KindOf(props[k].1));
    TrueKeysExact(sat, props[k].0);
  }

  /** The slot a filed property's id sits in, per kind of property. */
  lemma FiledAs(reg: Registry, prop: Property, id: PropId)
    requires !prop.UnknownProperty? && Filed(reg, prop) == Some(id) && FiledOnlyIn(reg, id, KindOf(prop))
    ensures prop.UnloadBeluga? ==>
      Find(reg.unload, (prop.jig, prop.flight, prop.index)) == Some(id) && FiledOnlyIn(reg, id, UnloadKind)
    ensures prop.LoadBeluga? ==>
      Find(reg.load, (prop.jigOrType, prop.flight, prop.index)) == Some(id) && FiledOnlyIn(reg, id, LoadKind)
    ensures prop.DeliverToProductionLine? ==>
      Find(reg.deliver, (prop.jig, prop.line, prop.index)) == Some(id) && FiledOnlyIn(reg, id, DeliverKind)
    ensures prop.RackAlwaysEmpty? ==>
      Find(reg.rackEmpty, prop.rack) == Some(id) && FiledOnlyIn(reg, id, RackEmptyKind)
    ensures prop.AtLeastOneRackAlwaysEmpty? ==> FiledOnlyIn(reg, id, AtLeastOneKind)
    ensures prop.JigAlwaysPlacedOnRackSizeLeq? ==>
      Find(reg.sizeLeq, (prop.jig, prop.size)) == Some(id) && FiledOnlyIn(reg, id, SizeLeqKind)
    ensures prop.NumSwapsUsedLeq? ==>
      Find(reg.swapsLeq, prop.bound) == Some(id) && FiledOnlyIn(reg, id, SwapsLeqKind)
    ensures prop.JigNeverOnRack? ==>
      Find(reg.neverOnRack, (prop.jig, prop.rack)) == Some(id) && FiledOnlyIn(reg, id, NeverOnRackKind)
    ensures prop.JigOnlyIfEverOnRack? ==>
      Find(reg.onlyIf, (prop.jig, prop.rack)) == Some(id) && FiledOnlyIn(reg, id, OnlyIfKind)
  {
  }

  /** The state after seeding, read off the initial racks. */
  lemma Seeded(reg: Registry, racks: Dict<string, seq<string>>, p: PropId, j: string)
    ensures var st := Seed(reg, racks);
      && st.unloads == map[] && st.loads == map[] && st.delivers == map[] && st.swaps == [] && st.switched == {}
      && Find(st.sat, p) == (if SeedHit(reg, racks, p) then Some(false) else None)
      && Racks(st.used, j) == InitialRacks(racks, j)
      && st.thoughtEmpty == Keys(racks) - Occupied(racks)
  {
    SeedFromFacts(reg, racks, Start(racks), j);
    SeedFromSat(reg, racks, Start(racks), p);
  }

  /** An unload property holds exactly when the plan's `i`-th unload from
      flight `b`, counting from 0, is of jig `j`. */
  lemma VerdictUnload(
    props: Dict<PropId, Property>, plan: seq<Action>, flights: seq<string>,
    jigTypes: map<string, string>, racksInitial: Dict<string, seq<string>>, racksSize: map<string, int>, k: int)
    requires Check(props, plan, flights, jigTypes, racksInitial, racksSize).Ok?
    requires LastOfItsKind(props, k) && props[k].0 != "" && props[k].1.UnloadBeluga?
    ensures var prop := props[k].1;
      props[k].0 in Check(props, plan, flights, jigTypes, racksInitial, racksSize).value
      <==> NthIs(Unloads(plan, prop.flight), 0, prop.index, prop.jig)
  {
    var prop := props[k].1;
    var reg, st, sat := Established(props, plan, flights, jigTypes, racksInitial, racksSize, k);
    FiledAs(reg, props[k].1, props[k].0);
    FinalSetTrue(reg, st, racksSize, props[k].0, UnloadKind);
    RunUnload(reg, flights, jigTypes, Seed(reg, racksInitial), plan, props[k].0, prop.jig, prop.flight, prop.index);
    Seeded(reg, racksInitial, props[k].0, "");
  }

  /** A load property holds exactly when the plan's `i`-th load onto flight
      `b`, counting from 0, is of the named jig or of a jig of the named
      type. */
  lemma VerdictLoad(
    props: Dict<PropId, Property>, plan: seq<Action>, flights: seq<string>,
    jigTypes: map<string, string>, racksInitial: Dict<string, seq<string>>, racksSize: map<string, int>, k: int)
    requires Check(props, plan, flights, jigTypes, racksInitial, racksSize).Ok?
    requires LastOfItsKind(props, k) && props[k].0 != "" && props[k].1.LoadBeluga?
    ensures var prop := props[k].1;
      props[k].0 in Check(props, plan, flights, jigTypes, racksInitial, racksSize).value
      <==> NthLoadedAs(Loads(plan, prop.flight), 0, prop.index, jigTypes, prop.jigOrType)
  {
    var prop := props[k].1;
    var reg, st, sat := Established(props, plan, flights, jigTypes, racksInitial, racksSize, k);
    FiledAs(reg, props[k].1, props[k].0);
    FinalSetTrue(reg, st, racksSize, props[k].0, LoadKind);
    RunLoad(reg, flights, jigTypes, Seed(reg, racksInitial), plan, props[k].0, prop.jigOrType, prop.flight, prop.index);
    Seeded(reg, racksInitial, props[k].0, "");
  }

  /** A delivery property holds exactly when the plan's `i`-th delivery to
      production line `pl`, counting from 0, is of jig `j`. */
  lemma VerdictDeliver(
    props: Dict<PropId, Property>, plan: seq<Action>, flights: seq<string>,
    jigTypes: map<string, string>, racksInitial: Dict<string, seq<string>>, racksSize: map<string, int>, k: int)
    requires Check(props, plan, flights, jigTypes, racksInitial, racksSize).Ok?
    requires LastOfItsKind(props, k) && props[k].0 != "" && props[k].1.DeliverToProductionLine?
    ensures var prop := props[k].1;
      props[k].0 in Check(props, plan, flights, jigTypes, racksInitial, racksSize).value
      <==> NthIs(Deliveries(plan, prop.line), 0, prop.index, prop.jig)
  {
    var prop := props[k].1;
    var reg, st, sat := Established(props, plan, flights, jigTypes, racksInitial, racksSize, k);
    FiledAs(reg, props[k].1, props[k].0);
    FinalSetTrue(reg, st, racksSize, props[k].0, DeliverKind);
    RunDeliver(reg, flights, jigTypes, Seed(reg, racksInitial), plan, props[k].0, prop.jig, prop.line, prop.index);
    Seeded(reg, racksInitial, props[k].0, "");
  }

  /** An always-empty property holds exactly when the rack is initially
      empty and the plan never puts a jig down on it. */
  lemma VerdictRackEmpty(
    props: Dict<PropId, Property>, plan: seq<Action>, flights: seq<string>,
    jigTypes: map<string, string>, racksInitial: Dict<string, seq<string>>, racksSize: map<string, int>, k: int)
    requires Check(props, plan, flights, jigTypes, racksInitial, racksSize).Ok?
    requires LastOfItsKind(props, k) && props[k].0 != "" && props[k].1.RackAlwaysEmpty?
    ensures var r := props[k].1.rack;
      props[k].0 in Check(props, plan, flights, jigTypes, racksInitial, racksSize).value
      <==> StaysEmpty(racksInitial, plan, r)
  {
    var prop := props[k].1;
    var reg, st, sat := Established(props, plan, flights, jigTypes, racksInitial, racksSize, k);
    FiledAs(reg, props[k].1, props[k].0);
    RackEmptyResolved(reg, flights, jigTypes, racksInitial, racksSize, plan, st, sat, props[k].0, prop.rack);
  }

  lemma RackEmptyResolved(
    reg: Registry, flights: seq<string>, jigTypes: map<string, string>, racksInitial: Dict<string, seq<string>>,
    racksSize: map<string, int>, plan: seq<Action>, st: Scan, sat: Dict<PropId, bool>, p: PropId, r: string)
    requires Run(reg, flights, jigTypes, Seed(reg, racksInitial), plan) == Ok(st)
    requires Finalise(reg, st, racksSize) == Ok(sat)
    requires Find(reg.rackEmpty, r) == Some(p) && FiledOnlyIn(reg, p, RackEmptyKind)
    ensures Find(sat, p) == Some(StaysEmpty(racksInitial, plan, r))
  {
    FinalSetFalse(reg, st, racksSize, p, RackEmptyKind);
    RunRackEmpty(reg, flights, jigTypes, Seed(reg, racksInitial), plan, p, r);
    Seeded(reg, racksInitial, p, "");
    SeedHitRackEmpty(reg, racksInitial, p, r);
  }

  /** A never-on-rack property holds exactly when the rack does not
      initially hold the jig: put-downs in the plan play no part. */
  lemma VerdictNeverOnRack(
    props: Dict<PropId, Property>, plan: seq<Action>, flights: seq<string>,
    jigTypes: map<string, string>, racksInitial: Dict<string, seq<string>>, racksSize: map<string, int>, k: int)
    requires Check(props, plan, flights, jigTypes, racksInitial, racksSize).Ok?
    requires LastOfItsKind(props, k) && props[k].0 != "" && props[k].1.JigNeverOnRack?
    ensures var prop := props[k].1;
      props[k].0 in Check(props, plan, flights, jigTypes, racksInitial, racksSize).value
      <==> !InitiallyOn(racksInitial, prop.jig, prop.rack)
  {
    var prop := props[k].1;
    var reg, st, sat := Established(props, plan, flights, jigTypes, racksInitial, racksSize, k);
    FiledAs(reg, props[k].1, props[k].0);
    NeverOnRackPass(reg, flights, jigTypes, racksInitial, plan, st, props[k].0, prop.jig, prop.rack);
    NeverOnRackResolved(reg, st, racksSize, sat, props[k].0, InitiallyOn(racksInitial, prop.jig, prop.rack));
  }

  /** Finalisation turns the pass's verdict on a never-on-rack id into the
      property's truth value. */
  lemma NeverOnRackResolved(reg: Registry, st: Scan, racksSize: map<string, int>, sat: Dict<PropId, bool>, p: PropId, on: bool)
    requires Finalise(reg, st, racksSize) == Ok(sat) && FiledOnlyIn(reg, p, NeverOnRackKind)
    requires Find(st.sat, p) == if on then Some(false) else None
    ensures Find(sat, p) == Some(!on)
  {
    FinalSetFalse(reg, st, racksSize, p, NeverOnRackKind);
  }

  /** After the pass, a never-on-rack id is false when the rack initially
      held the jig and unset otherwise. */
  lemma NeverOnRackPass(
    reg: Registry, flights: seq<string>, jigTypes: map<string, string>, racksInitial: Dict<string, seq<string>>,
    plan: seq<Action>, st: Scan, p: PropId, j: string, r: string)
    requires Run(reg, flights, jigTypes, Seed(reg, racksInitial), plan) == Ok(st)
    requires Find(reg.neverOnRack, (j, r)) == Some(p) && FiledOnlyIn(reg, p, NeverOnRackKind)
    ensures Find(st.sat, p) == if InitiallyOn(racksInitial, j, r) then Some(false) else None
  {
    NeverOnRackUntouched(reg, p);
    RunFrame(reg, flights, jigTypes, Seed(reg, racksInitial), plan, p);
    Seeded(reg, racksInitial, p, "");
    SeedHitNeverOnRack(reg, racksInitial, p, j, r);
  }

  /** A never-on-rack id is in none of the tables the pass writes. */
  lemma NeverOnRackUntouched(reg: Registry, p: PropId)
    requires FiledOnlyIn(reg, p, NeverOnRackKind)
    ensures p !in Values(reg.unload) && p !in Values(reg.load) && p !in Values(reg.deliver)
    ensures p !in Values(reg.rackEmpty) && p !in Values(reg.rackOrder)
    ensures p !in Values(reg.lineOrder) && p !in Values(reg.beforeFlight)
  {
    Elsewhere(reg, p, NeverOnRackKind, UnloadKind);
    Elsewhere(reg, p, NeverOnRackKind, LoadKind);
    Elsewhere(reg, p, NeverOnRackKind, DeliverKind);
    Elsewhere(reg, p, NeverOnRackKind, RackEmptyKind);
    Elsewhere(reg, p, NeverOnRackKind, RackOrderKind);
    Elsewhere(reg, p, NeverOnRackKind, LineOrderKind);
    Elsewhere(reg, p, NeverOnRackKind, BeforeFlightKind);
  }

  /** The at-least-one property holds exactly when some rack is initially
      empty and never put down on. */
  lemma VerdictAtLeastOne(
    props: Dict<PropId, Property>, plan: seq<Action>, flights: seq<string>,
    jigTypes: map<string, string>, racksInitial: Dict<string, seq<string>>, racksSize: map<string, int>, k: int)
    requires Check(props, plan, flights, jigTypes, racksInitial, racksSize).Ok?
    requires LastOfItsKind(props, k) && props[k].0 != "" && props[k].1.AtLeastOneRackAlwaysEmpty?
    ensures props[k].0 in Check(props, plan, flights, jigTypes, racksInitial, racksSize).value
      <==> SomeRackStaysEmpty(racksInitial, plan)
  {
    var reg, st, sat := Established(props, plan, flights, jigTypes, racksInitial, racksSize, k);
    FiledAs(reg, props[k].1, props[k].0);
    AtLeastOneResolved(reg, flights, jigTypes, racksInitial, racksSize, plan, st, sat, props[k].0);
  }

  lemma AtLeastOneResolved(
    reg: Registry, flights: seq<string>, jigTypes: map<string, string>, racksInitial: Dict<string, seq<string>>,
    racksSize: map<string, int>, plan: seq<Action>, st: Scan, sat: Dict<PropId, bool>, p: PropId)
    requires Run(reg, flights, jigTypes, Seed(reg, racksInitial), plan) == Ok(st)
    requires Finalise(reg, st, racksSize) == Ok(sat)
    requires FiledOnlyIn(reg, p, AtLeastOneKind)
    ensures Find(sat, p) == Some(SomeRackStaysEmpty(racksInitial, plan))
  {
    FinalAtLeastOne(reg, st, racksSize, p);
    RunRacks(reg, flights, jigTypes, Seed(reg, racksInitial), plan, "");
    Seeded(reg, racksInitial, p, "");
    var left := Keys(racksInitial) - Occupied(racksInitial) - PutRacks(plan);
    if left != {} {
      var x :| x in left;
    }
    assert SomeRackStaysEmpty(racksInitial, plan) <==> left != {};
  }

  /** An only-if property of `(j, r)` holds exactly when `j` is on at most
      one rack over the initial racks and the plan's put-downs; `r` plays
      no part. */
  lemma VerdictOnlyIf(
    props: Dict<PropId, Property>, plan: seq<Action>, flights: seq<string>,
    jigTypes: map<string, string>, racksInitial: Dict<string, seq<string>>, racksSize: map<string, int>, k: int)
    requires Check(props, plan, flights, jigTypes, racksInitial, racksSize).Ok?
    requires LastOfItsKind(props, k) && props[k].0 != "" && props[k].1.JigOnlyIfEverOnRack?
    ensures var j := props[k].1.jig;
      props[k].0 in Check(props, plan, flights, jigTypes, racksInitial, racksSize).value
      <==> AtMostOneRack(racksInitial, plan, j)
  {
    var prop := props[k].1;
    var reg, st, sat := Established(props, plan, flights, jigTypes, racksInitial, racksSize, k);
    FiledAs(reg, props[k].1, props[k].0);
    OnlyIfResolved(reg, flights, jigTypes, racksInitial, racksSize, plan, st, sat, props[k].0, prop.jig, prop.rack);
  }

  lemma OnlyIfResolved(
    reg: Registry, flights: seq<string>, jigTypes: map<string, string>, racksInitial: Dict<string, seq<string>>,
    racksSize: map<string, int>, plan: seq<Action>, st: Scan, sat: Dict<PropId, bool>, p: PropId, j: string, r: string)
    requires Run(reg, flights, jigTypes, Seed(reg, racksInitial), plan) == Ok(st)
    requires Finalise(reg, st, racksSize) == Ok(sat)
    requires Find(reg.onlyIf, (j, r)) == Some(p) && FiledOnlyIn(reg, p, OnlyIfKind)
    ensures Find(sat, p) == Some(AtMostOneRack(racksInitial, plan, j))
  {
    FinalOnlyIf(reg, st, racksSize, p, j, r);
    RunRacks(reg, flights, jigTypes, Seed(reg, racksInitial), plan, j);
    Seeded(reg, racksInitial, p, j);
  }

  /** A rack-size property of `(j, rs)` holds exactly when every rack `j`
      is on, initially or by a put-down of the plan, has a size of at most
      `rs`. */
  lemma VerdictSizeLeq(
    props: Dict<PropId, Property>, plan: seq<Action>, flights: seq<string>,
    jigTypes: map<string, string>, racksInitial: Dict<string, seq<string>>, racksSize: map<string, int>, k: int)
    requires Check(props, plan, flights, jigTypes, racksInitial, racksSize).Ok?
    requires LastOfItsKind(props, k) && props[k].0 != "" && props[k].1.JigAlwaysPlacedOnRackSizeLeq?
    ensures var prop := props[k].1;
      props[k].0 in Check(props, plan, flights, jigTypes, racksInitial, racksSize).value
      <==> RacksWithin(racksInitial, plan, racksSize, prop.jig, prop.size)
  {
    var prop := props[k].1;
    var reg, st, sat := Established(props, plan, flights, jigTypes, racksInitial, racksSize, k);
    FiledAs(reg, props[k].1, props[k].0);
    SizeLeqResolved(reg, flights, jigTypes, racksInitial, racksSize, plan, st, sat, props[k].0, prop.jig, prop.size);
  }

  lemma SizeLeqResolved(
    reg: Registry, flights: seq<string>, jigTypes: map<string, string>, racksInitial: Dict<string, seq<string>>,
    racksSize: map<string, int>, plan: seq<Action>, st: Scan, sat: Dict<PropId, bool>, p: PropId, j: string, rs: int)
    requires Run(reg, flights, jigTypes, Seed(reg, racksInitial), plan) == Ok(st)
    requires Finalise(reg, st, racksSize) == Ok(sat)
    requires Find(reg.sizeLeq, (j, rs)) == Some(p) && FiledOnlyIn(reg, p, SizeLeqKind)
    ensures Find(sat, p) == Some(RacksWithin(racksInitial, plan, racksSize, j, rs))
  {
    FinalSizeLeq(reg, st, racksSize, p, j, rs);
    RunRacks(reg, flights, jigTypes, Seed(reg, racksInitial), plan, j);
    Seeded(reg, racksInitial, p, j);
  }

  /** A swap-bound property of `n` holds exactly when the plan's pick-ups
      that are not the first of their (jig, trailer, side) number at most
      `n`. */
  lemma VerdictSwapsLeq(
    props: Dict<PropId, Property>, plan: seq<Action>, flights: seq<string>,
    jigTypes: map<string, string>, racksInitial: Dict<string, seq<string>>, racksSize: map<string, int>, k: int)
    requires Check(props, plan, flights, jigTypes, racksInitial, racksSize).Ok?
    requires LastOfItsKind(props, k) && props[k].0 != "" && props[k].1.NumSwapsUsedLeq?
    ensures props[k].0 in Check(props, plan, flights, jigTypes, racksInitial, racksSize).value
      <==> Swaps(plan) <= props[k].1.bound
  {
    var prop := props[k].1;
    var reg, st, sat := Established(props, plan, flights, jigTypes, racksInitial, racksSize, k);
    FiledAs(reg, props[k].1, props[k].0);
    SwapsLeqResolved(reg, flights, jigTypes, racksInitial, racksSize, plan, st, sat, props[k].0, prop.bound);
  }

  lemma SwapsLeqResolved(
    reg: Registry, flights: seq<string>, jigTypes: map<string, string>, racksInitial: Dict<string, seq<string>>,
    racksSize: map<string, int>, plan: seq<Action>, st: Scan, sat: Dict<PropId, bool>, p: PropId, n: int)
    requires Run(reg, flights, jigTypes, Seed(reg, racksInitial), plan) == Ok(st)
    requires Finalise(reg, st, racksSize) == Ok(sat)
    requires Find(reg.swapsLeq, n) == Some(p) && FiledOnlyIn(reg, p, SwapsLeqKind)
    ensures Find(sat, p) == Some(Swaps(plan) <= n)
  {
    FinalSwapsLeq(reg, st, racksSize, p, n);
    Seeded(reg, racksInitial, p, "");
    SwapTotalOfPlan(reg, flights, jigTypes, Seed(reg, racksInitial), plan);
  }
}

=== FILE: dicts.dfy ===
/** Insertion-ordered dictionaries with Python `dict` semantics.

    A dictionary is the sequence of its items in insertion order, with
    pairwise distinct keys. Assigning to a present key replaces its value
    in place; assigning to a new key appends. Iterating over `items()` is
    then a fold over the sequence, in the same order as in Python.
 */
module Dicts {
  import opened Basics

  predicate DistinctKeys<K(==), V>(s: seq<(K, V)>)
  {
    forall i, j :: 0 <= i < j < |s| ==> s[i].0 != s[j].0
  }

  type Dict<K(==), V> = s: seq<(K, V)> | DistinctKeys(s) witness []

  /** Keys of a dictionary. */
  function Keys<K(==,!new), V>(d: seq<(K, V)>): set<K>
  {
    if |d| == 0 then {} else {d[0].0} + Keys(d[1..])
  }

  /** A key is a key of the dictionary exactly when some item carries it. */
  lemma {:induction false} KeysIff<K(!new), V>(d: seq<(K, V)>, k: K)
    ensures k in Keys(d) <==> exists i :: 0 <= i < |d| && d[i].0 == k
  {
    if |d| > 0 {
      KeysIff(d[1..], k);
      if k in Keys(d[1..]) {
        var i :| 0 <= i < |d[1..]| && d[1..][i].0 == k;
        assert d[i + 1].0 == k;
      }
      if k != d[0].0 && exists i :: 0 <= i < |d| && d[i].0 == k {
        var i :| 0 <= i < |d| && d[i].0 == k;
        assert d[1..][i - 1].0 == k;
      }
    }
  }

  /** Values of a dictionary. */
  function Values<K, V(!new)>(d: seq<(K, V)>): set<V>
  {
    if |d| == 0 then {} else {d[0].1} + Values(d[1..])
  }

  /** A value is a value of the dictionary exactly when some item carries it. */
  lemma {:induction false} ValuesIff<K, V(!new)>(d: seq<(K, V)>, v: V)
    ensures v in Values(d) <==> exists i :: 0 <= i < |d| && d[i].1 == v
  {
    if |d| > 0 {
      ValuesIff(d[1..], v);
      if v in Values(d[1..]) {
        var i :| 0 <= i < |d[1..]| && d[1..][i].1 == v;
        assert d[i + 1].1 == v;
      }
      if v != d[0].1 && exists i :: 0 <= i < |d| && d[i].1 == v {
        var i :| 0 <= i < |d| && d[i].1 == v;
        assert d[1..][i - 1].1 == v;
      }
    }
  }

  /** Lookup: the value stored under `k`, if any. */
  function Find<K(==,!new), V>(d: seq<(K, V)>, k: K): (r: Option<V>)
    ensures r.None? <==> k !in Keys(d)
  {
    if |d| == 0 then None
    else if d[0].0 == k then Some(d[0].1)
    else Find(d[1..], k)
  }

  /** A found value is stored in some item under the key. */
  lemma {:induction false} FindSome<K(!new), V>(d: seq<(K, V)>, k: K)
    requires Find(d, k).Some?
    ensures exists i :: 0 <= i < |d| && d[i] == (k, Find(d, k).value)
  {
    if d[0].0 != k {
      FindSome(d[1..], k);
      var i :| 0 <= i < |d[1..]| && d[1..][i] == (k, Find(d, k).value);
      assert d[i + 1] == d[1..][i];
    }
  }

  /** In a dictionary, the item at any position is what `Find` returns for its key. */
  lemma FindItem<K(!new), V>(d: Dict<K, V>, i: int)
    requires 0 <= i < |d|
    ensures Find(d, d[i].0) == Some(d[i].1)
  {
    if i > 0 && d[0].0 != d[i].0 {
      FindItem(d[1..], i - 1);
    }
  }

  /** Position of a present key. */
  function IndexOf<K(==,!new), V>(d: seq<(K, V)>, k: K): (i: nat)
    requires k in Keys(d)
    ensures i < |d| && d[i].0 == k
  {
    if d[0].0 == k then 0 else 1 + IndexOf(d[1..], k)
  }

  /** Overwriting the item at a position changes the lookup of that key only. */
  lemma {:induction false} FindOverwrite<K(!new), V>(d: Dict<K, V>, i: nat, v: V, k': K)
    requires i < |d|
    ensures Find(d[i := (d[i].0, v)], k') == if k' == d[i].0 then Some(v) else Find(d, k')
  {
    if i == 0 {
      if d[0].0 != k' {
        assert d[i := (d[i].0, v)][1..] == d[1..];
      }
    } else if d[0].0 != k' {
      assert d[i := (d[i].0, v)][1..] == d[1..][i - 1 := (d[i].0, v)];
      FindOverwrite(d[1..], i - 1, v, k');
    }
  }

  /** Appending a fresh key changes the lookup of that key only. */
  lemma {:induction false} FindAppend<K(!new), V>(d: seq<(K, V)>, k: K, v: V, k': K)
    requires k !in Keys(d)
    ensures Find(d + [(k, v)], k') == if k' == k then Some(v) else Find(d, k')
  {
    if |d| > 0 && d[0].0 != k' {
      assert (d + [(k, v)])[1..] == d[1..] + [(k, v)];
      FindAppend(d[1..], k, v, k');
    }
  }

  /** `d[k] = v`: replace in place when `k` is present, append otherwise. */
  function Put<K(==,!new), V>(d: Dict<K, V>, k: K, v: V): (r: Dict<K, V>)
    ensures Find(r, k) == Some(v)
    ensures forall k' :: k' != k ==> Find(r, k') == Find(d, k')
    ensures Keys(r) == Keys(d) + {k}
    ensures |r| == if k in Keys(d) then |d| else |d| + 1
  {
    if k in Keys(d) then
      var i := IndexOf(d, k);
      var r := d[i := (k, v)];
      assert forall j :: 0 <= j < |r| ==> r[j].0 == d[j].0;
      forall k' ensures Find(r, k') == if k' == k then Some(v) else Find(d, k') {
        FindOverwrite(d, i, v, k');
      }
      assert forall k' :: k' in Keys(r) <==> Find(r, k').Some?;
      r
    else
      KeysIff(d, k);
      var r := d + [(k, v)];
      forall k' ensures Find(r, k') == if k' == k then Some(v) else Find(d, k') {
        FindAppend(d, k, v, k');
      }
      assert forall k' :: k' in Keys(r) <==> Find(r, k').Some?;
      r
  }

  /** The keys of a sequence of items are those of all but its last item,
      plus the last item's key. */
  lemma {:induction false} KeysSnoc<K(!new), V>(d: seq<(K, V)>)
    requires |d| > 0
    ensures Keys(d) == Keys(d[..|d| - 1]) + {d[|d| - 1].0}
    decreases |d|
  {
    if |d| > 1 {
      assert d[1..][..|d| - 2] == d[..|d| - 1][1..];
      KeysSnoc(d[1..]);
    }
  }

  /** In a dictionary, the last key does not occur earlier. */
  lemma LastKeyFresh<K(!new), V>(d: Dict<K, V>)
    requires |d| > 0
    ensures d[|d| - 1].0 !in Keys(d[..|d| - 1])
  {
    KeysIff(d[..|d| - 1], d[|d| - 1].0);
  }

  /** The keys whose value is `true`, in insertion order. */
  function TrueKeys<K(==,!new)>(d: seq<(K, bool)>): (r: seq<K>)
    ensures forall k :: k in r <==> exists i :: 0 <= i < |d| && d[i] == (k, true)
  {
    if |d| == 0 then []
    else if d[0].1 then [d[0].0] + TrueKeys(d[1..])
    else TrueKeys(d[1..])
  }

  /** A key is listed by `TrueKeys` exactly when the dictionary maps it to `true`. */
  lemma {:induction false} TrueKeysExact<K(!new)>(d: Dict<K, bool>, k: K)
    ensures k in TrueKeys(d) <==> Find(d, k) == Some(true)
  {
    if k in TrueKeys(d) {
      var i :| 0 <= i < |d| && d[i] == (k, true);
      FindItem(d, i);
    }
    if Find(d, k) == Some(true) {
      FindSome(d, k);
    }
  }

  /** Number of items whose value is `v`. */
  function CountVal<K, V(==,!new)>(d: seq<(K, V)>, v: V): (n: nat)
    ensures n == 0 <==> v !in Values(d)
  {
    if |d| == 0 then 0 else (if d[0].1 == v then 1 else 0) + CountVal(d[1..], v)
  }

  /** A value stored under at most one item belongs to a single key. */
  lemma {:induction false} CountValUnique<K(!new), V(!new)>(d: seq<(K, V)>, v: V, k1: K, k2: K)
    requires CountVal(d, v) <= 1
    requires Find(d, k1) == Some(v) && Find(d, k2) == Some(v)
    ensures k1 == k2
  {
    if d[0].0 != k1 && d[0].0 != k2 {
      CountValUnique(d[1..], v, k1, k2);
    } else if d[0].0 == k1 && d[0].0 != k2 {
      FindInValues(d[1..], k2, v);
    } else if d[0].0 == k2 && d[0].0 != k1 {
      FindInValues(d[1..], k1, v);
    }
  }

  /** Storing `v` adds at most one occurrence of `v` and none of any other value. */
  lemma {:induction false} CountValPut<K(!new), V(!new)>(d: Dict<K, V>, k: K, v: V, q: V)
    ensures CountVal(Put(d, k, v), q) <= CountVal(d, q) + (if q == v then 1 else 0)
  {
    if k in Keys(d) {
      var i := IndexOf(d, k);
      CountValOverwrite(d, i, v, q);
    } else {
      CountValAppend(d, (k, v), q);
    }
  }

  lemma {:induction false} CountValOverwrite<K, V(!new)>(d: seq<(K, V)>, i: nat, v: V, q: V)
    requires i < |d|
    ensures CountVal(d[i := (d[i].0, v)], q)
         == CountVal(d, q) - (if d[i].1 == q then 1 else 0) + (if v == q then 1 else 0)
  {
    if i == 0 {
      assert d[i := (d[i].0, v)][1..] == d[1..];
    } else {
      assert d[i := (d[i].0, v)][1..] == d[1..][i - 1 := (d[i].0, v)];
      CountValOverwrite(d[1..], i - 1, v, q);
    }
  }

  lemma {:induction false} CountValAppend<K, V(!new)>(d: seq<(K, V)>, item: (K, V), q: V)
    ensures CountVal(d + [item], q) == CountVal(d, q) + (if item.1 == q then 1 else 0)
  {
    if |d| > 0 {
      assert (d + [item])[1..] == d[1..] + [item];
      CountValAppend(d[1..], item, q);
    }
  }

  /** Values of an item found by key. */
  lemma {:induction false} FindInValues<K(!new), V(!new)>(d: seq<(K, V)>, k: K, v: V)
    requires Find(d, k) == Some(v)
    ensures v in Values(d) && CountVal(d, v) >= 1
  {
    if d[0].0 != k {
      FindInValues(d[1..], k, v);
    }
  }
}

=== FILE: domain.dfy ===
/** The problem instance and plan vocabulary shared by the encoder and the
    plan checker: the records of parser.py and the seven plan actions. */
module Domain {
  import opened Basics

  /** The two transfer sides of a rack: towards the aircraft ("bside") and
      towards production ("fside"). */
  datatype Side = AircraftSide | ProductionSide

  function Opposite(s: Side): (o: Side)
    ensures o != s && (o == AircraftSide || o == ProductionSide)
  {
    if s == AircraftSide then ProductionSide else AircraftSide
  }

  lemma OppositeInvolutive(s: Side)
    ensures Opposite(Opposite(s)) == s
  {
  }

  datatype JigType = JigType(name: string, sizeEmpty: int, sizeLoaded: int)

  datatype Jig = Jig(name: string, typeName: string, empty: bool)

  /** A rack with its capacity and the jigs initially on it, listed from the
      aircraft side towards the production side. */
  datatype Rack = Rack(name: string, size: int, jigs: seq<string>)

  datatype ProductionLine = ProductionLine(name: string, schedule: seq<string>)

  /** A flight ("beluga"): jigs it brings in and jigs or jig types it takes out. */
  datatype Flight = Flight(name: string, incoming: seq<string>, outgoing: seq<string>)

  datatype ProblemDef = ProblemDef(
    trailersBeluga: seq<string>,
    trailersFactory: seq<string>,
    hangars: seq<string>,
    jigTypes: seq<JigType>,
    racks: seq<Rack>,
    jigs: seq<Jig>,
    productionLines: seq<ProductionLine>,
    flights: seq<Flight>)

  /** Lookup of a jig type by name; `None` is the NotFound case. */
  function FindJigType(types: seq<JigType>, name: string): (r: Option<JigType>)
    ensures r.Some? ==> r.value in types && r.value.name == name
    ensures r.None? <==> forall i :: 0 <= i < |types| ==> types[i].name != name
  {
    if |types| == 0 then None
    else if types[0].name == name then Some(types[0])
    else FindJigType(types[1..], name)
  }

  /** Lookup of a jig by name; `None` is the NotFound case. */
  function FindJig(jigs: seq<Jig>, name: string): (r: Option<Jig>)
    ensures r.Some? ==> r.value in jigs && r.value.name == name
    ensures r.None? <==> forall i :: 0 <= i < |jigs| ==> jigs[i].name != name
  {
    if |jigs| == 0 then None
    else if jigs[0].name == name then Some(jigs[0])
    else FindJig(jigs[1..], name)
  }

  /** One step of a plan, as written in a plan document: the action name
      selects the constructor, the named parameters its fields. A name that
      is none of the seven is kept as `Unrecognised`. */
  datatype Action =
    | UnloadBeluga(j: string, b: string, t: string)
    | LoadBeluga(j: string, b: string, t: string)
    | PutDownRack(j: string, t: string, r: string, s: Side)
    | PickUpRack(j: string, t: string, r: string, s: Side)
    | DeliverToHangar(j: string, h: string, t: string, pl: string)
    | GetFromHangar(j: string, h: string, t: string)
    | SwitchToNextBeluga(b: string)
    | Unrecognised(name: string)
}

=== FILE: driver.dfy ===
/** The `solve` command's search for a plan under a growing swap budget
    (beluga.py:68-95).

    One encoding is built with K swap slots, K being MAX_NUM_AVAILABLE_SWAPS
    (10 when unset). The solver is then asked for a plan using at most n
    swaps, for n = 0, 1, 2, ... until it returns one or n exceeds K. The
    solver is an oracle here: `solve(n)` is what it returns for budget n,
    a plan and its JSON export, either of which may be missing.
 */
module Driver {
  import opened Basics

  const DefaultSwapSlots: int := 10

  /** K: the environment's MAX_NUM_AVAILABLE_SWAPS, or the default. */
  function SwapSlots(env: Option<int>): int
  {
    match env
    case Some(k) => k
    case None => DefaultSwapSlots
  }

  /** How the command ends: exit status 0 with the plan found under budget
      `n`, exit status 2 when no budget up to K gives a plan, or a failed
      assertion when a plan comes without its JSON export. */
  datatype Exit<P, J> = Solved(n: nat, plan: P, json: J) | NoPlan | Aborted

  /** The largest budget tried: K, or 0 when K is negative (the first
      attempt happens before the bound is compared). */
  function LastBudget(k: int): nat
  {
    if k < 0 then 0 else k
  }

  /** Reference definition: the least budget from `n` up to `last` for which
      the solver returns a plan. */
  function FirstSolved<P, J>(solve: nat -> (Option<P>, Option<J>), n: nat, last: nat): (r: Option<nat>)
    ensures r.Some? ==> n <= r.value <= last && solve(r.value).0.Some?
    ensures r.Some? ==> forall m :: n <= m < r.value ==> solve(m).0.None?
    ensures r.None? ==> forall m :: n <= m <= last ==> solve(m).0.None?
    decreases last - n
  {
    if n > last then None
    else if solve(n).0.Some? then Some(n)
    else FirstSolved(solve, n + 1, last)
  }

  /** beluga.py:76-95, with the solver as an oracle. `tried` lists the
      budgets in the order the solver was asked. */
  method SolveGrowingBudget<P, J>(k: int, solve: nat -> (Option<P>, Option<J>))
    returns (outcome: Exit<P, J>, tried: seq<nat>)
    ensures 1 <= |tried| <= LastBudget(k) + 1
    ensures forall i :: 0 <= i < |tried| ==> tried[i] == i
    ensures forall i :: 0 <= i < |tried| - 1 ==> solve(tried[i]).0.None?
    ensures outcome.NoPlan? <==> FirstSolved(solve, 0, LastBudget(k)).None?
    ensures outcome.NoPlan? ==> |tried| == LastBudget(k) + 1
    ensures !outcome.NoPlan? ==> FirstSolved(solve, 0, LastBudget(k)) == Some(|tried| - 1)
    ensures outcome.Solved? ==> outcome.n == |tried| - 1 && solve(outcome.n) == (Some(outcome.plan), Some(outcome.json))
    ensures outcome.Aborted? <==> !outcome.NoPlan? && solve(|tried| - 1).1.None?
  {
    var n: nat := 0;
    tried := [];
    while true
      invariant n == |tried| <= LastBudget(k)
      invariant forall i :: 0 <= i < |tried| ==> tried[i] == i && solve(i).0.None?
      invariant FirstSolved(solve, 0, LastBudget(k)) == FirstSolved(solve, n, LastBudget(k))
      decreases LastBudget(k) - n
    {
      var (plan, json) := solve(n);
      tried := tried + [n];
      if plan.Some? {
        if json.None? {
          return Aborted, tried;
        }
        return Solved(n, plan.value, json.value), tried;
      }
      n := n + 1;
      if n > k {
        return NoPlan, tried;
      }
    }
  }
}

=== FILE: network.dfy ===
/** The temporal task network the encoder builds: which activities exist
    for a problem instance and the ordering constraints between their start
    and end time points, stated as a predicate over a schedule of integer
    times. The solver chooses the times; here a schedule is any assignment
    of them, and `Satisfies` says when it satisfies the encoder's constraints.

    `set_ordered(a, b)` of the planning library is read as `a.end < b.start`.
 */
module Network {
  import opened Basics
  import opened Domain

  /** Start and end time points of one activity. */
  datatype Interval = Interval(start: int, end: int)

  /** An unload from a flight followed by the put-down of the jig on a rack;
      `md` is the maximum put-down delay variable. */
  datatype Unloading = Unloading(unload: Interval, putdown: Interval, md: int)

  /** A pick-up from a rack followed by the load onto a flight. */
  datatype Loading = Loading(pickup: Interval, load: Interval)

  /** One production-line schedule entry: pick-up, delivery to a hangar, get
      back from the hangar, put-down on a rack, with the put-down delay
      variable of the get leg. */
  datatype Delivery = Delivery(pickup: Interval, deliver: Interval, get: Interval, putdown: Interval, md: int)

  /** One swap slot: its noop flag, the task's own interval, and when it is
      carried out, its pick-up and put-down and the two mid time points. */
  datatype SwapSlot = SwapSlot(noop: bool, task: Interval, pickup: Interval, putdown: Interval, mtpLb: int, mtpUb: int)

  /** Times for every activity of the network. `proceeds[i]` is the proceed
      to flight `i + 1`; `unloads[i]` and `loads[i]` belong to flight `i`,
      `lines[p]` to production line `p`. */
  datatype Schedule = Schedule(
    proceeds: seq<Interval>,
    unloads: seq<seq<Unloading>>,
    loads: seq<seq<Loading>>,
    lines: seq<seq<Delivery>>,
    numUsed: int,
    swaps: seq<SwapSlot>)

  /** Upper bound of the bounded integer variables (delays, mid time points). */
  const Bound := 1000

  /** The schedule has exactly the activities the encoder creates: one
      proceed per flight after the first, an unload pair per incoming jig, a
      load pair per outgoing entry, a delivery entry per scheduled jig, and
      `slots` swap slots. */
  predicate Shaped(pb: ProblemDef, slots: nat, sch: Schedule)
  {
    |sch.proceeds| == (if |pb.flights| == 0 then 0 else |pb.flights| - 1)
    && |sch.unloads| == |pb.flights| && |sch.loads| == |pb.flights|
    && (forall i :: 0 <= i < |pb.flights| ==>
          |sch.unloads[i]| == |pb.flights[i].incoming| && |sch.loads[i]| == |pb.flights[i].outgoing|)
    && |sch.lines| == |pb.productionLines|
    && (forall p :: 0 <= p < |pb.productionLines| ==> |sch.lines[p]| == |pb.productionLines[p].schedule|)
    && |sch.swaps| == slots
  }

  predicate Timed(iv: Interval)
  {
    iv.start <= iv.end
  }

  /** No activity ends before it starts. */
  predicate WellTimed(sch: Schedule)
  {
    (forall i :: 0 <= i < |sch.proceeds| ==> Timed(sch.proceeds[i]))
    && (forall i, a :: 0 <= i < |sch.unloads| && 0 <= a < |sch.unloads[i]| ==>
          Timed(sch.unloads[i][a].unload) && Timed(sch.unloads[i][a].putdown))
    && (forall i, a :: 0 <= i < |sch.loads| && 0 <= a < |sch.loads[i]| ==>
          Timed(sch.loads[i][a].pickup) && Timed(sch.loads[i][a].load))
    && (forall p, a :: 0 <= p < |sch.lines| && 0 <= a < |sch.lines[p]| ==>
          var e := sch.lines[p][a];
          Timed(e.pickup) && Timed(e.deliver) && Timed(e.get) && Timed(e.putdown))
    && (forall i :: 0 <= i < |sch.swaps| ==>
          Timed(sch.swaps[i].task) && Timed(sch.swaps[i].pickup) && Timed(sch.swaps[i].putdown))
  }

  /** `a` finishes strictly before `b` starts. */
  predicate Before(a: Interval, b: Interval)
  {
    a.end < b.start
  }

  /** Each interval finishes before the next one starts. */
  predicate Chain(xs: seq<Interval>)
  {
    forall i :: 0 < i < |xs| ==> Before(xs[i - 1], xs[i])
  }

  /** `x` happens while flight `i` (of `n`) is current: after the proceed to
      it and before the proceed to the next one. */
  predicate DuringFlight(ps: seq<Interval>, n: int, i: int, x: Interval)
    requires 0 <= i && |ps| == (if n == 0 then 0 else n - 1)
  {
    (0 < i ==> i - 1 < |ps| && Before(ps[i - 1], x))
    && (i < n - 1 ==> Before(x, ps[i]))
  }

  /** The unloading constraints of flight `i`. */
  predicate UnloadsOk(ps: seq<Interval>, n: int, i: int, us: seq<Unloading>)
    requires 0 <= i && |ps| == (if n == 0 then 0 else n - 1)
  {
    (forall a :: 0 <= a < |us| ==>
       Before(us[a].unload, us[a].putdown)
       && us[a].putdown.start - us[a].unload.start <= us[a].md && 0 <= us[a].md <= Bound
       && DuringFlight(ps, n, i, us[a].unload))
    && (forall a :: 0 < a < |us| ==> Before(us[a - 1].unload, us[a].unload))
  }

  /** The loading constraints of flight `i`. */
  predicate LoadsOk(ps: seq<Interval>, n: int, i: int, ls: seq<Loading>)
    requires 0 <= i && |ps| == (if n == 0 then 0 else n - 1)
  {
    (forall a :: 0 <= a < |ls| ==> Before(ls[a].pickup, ls[a].load) && DuringFlight(ps, n, i, ls[a].load))
    && (forall a :: 0 < a < |ls| ==> Before(ls[a - 1].load, ls[a].load))
  }

  /** The constraints of one production line's schedule. */
  predicate LineOk(es: seq<Delivery>)
  {
    (forall a :: 0 <= a < |es| ==>
       Before(es[a].pickup, es[a].deliver) && Before(es[a].deliver, es[a].get) && Before(es[a].get, es[a].putdown)
       && es[a].putdown.start - es[a].get.start <= es[a].md && 0 <= es[a].md <= Bound)
    && (forall a :: 0 < a < |es| ==> es[a - 1].deliver.start < es[a].deliver.start)
  }

  /** Slot `i` is used exactly when `i < numUsed`. */
  predicate SlotPresence(numUsed: int, i: int, sw: SwapSlot)
  {
    (i < numUsed && !sw.noop) || (i >= numUsed && sw.noop)
  }

  /** A used slot is a pick-up then a put-down, with the two mid time points
      between them; the mid time points are bounded variables. */
  predicate SlotBody(sw: SwapSlot)
  {
    0 <= sw.mtpLb <= Bound && 0 <= sw.mtpUb <= Bound
    && (!sw.noop ==>
          Before(sw.pickup, sw.putdown)
          && sw.pickup.end <= sw.mtpLb <= sw.putdown.start <= sw.mtpUb <= sw.putdown.end)
  }

  /** The swap slot constraints for `K = |swaps|` slots. */
  predicate SwapsOk(numUsed: int, swaps: seq<SwapSlot>)
  {
    0 <= numUsed <= |swaps|
    && (forall i :: 0 <= i < |swaps| ==> SlotPresence(numUsed, i, swaps[i]) && SlotBody(swaps[i]))
    && (forall i :: 0 < i < |swaps| ==> swaps[i - 1].task.start < swaps[i].task.start)
  }

  /** The schedule satisfies every ordering constraint of the network built
      for `pb` with `slots` swap slots. */
  predicate Satisfies(pb: ProblemDef, slots: nat, sch: Schedule)
  {
    var n := |pb.flights|;
    Shaped(pb, slots, sch) && WellTimed(sch)
    && Chain(sch.proceeds)
    && (forall i :: 0 <= i < n ==> UnloadsOk(sch.proceeds, n, i, sch.unloads[i]) && LoadsOk(sch.proceeds, n, i, sch.loads[i]))
    && (forall p :: 0 <= p < |sch.lines| ==> LineOk(sch.lines[p]))
    && SwapsOk(sch.numUsed, sch.swaps)
  }

  /** What an outgoing entry of a flight asks to load: a named jig, or any
      jig of a type. */
  datatype LoadTarget = FixedJig(jig: string) | AnyOfType(typeName: string)

  predicate StartsWith(s: string, prefix: string)
  {
    |prefix| <= |s| && s[..|prefix|] == prefix
  }

  /** Resolving an outgoing entry. The entry is first looked up as a jig type
      (a missing key otherwise); an entry starting with "jig" must also name
      a declared jig, and any other entry must start with "type". */
  function Outgoing(pb: ProblemDef, entry: string): (r: Result<LoadTarget>)
    ensures r.Ok? ==> FindJigType(pb.jigTypes, entry).Some?
    ensures r.Ok? && r.value.FixedJig? ==> r.value.jig == entry && StartsWith(entry, "jig") && FindJig(pb.jigs, entry).Some?
    ensures r.Ok? && r.value.AnyOfType? ==> r.value.typeName == entry && StartsWith(entry, "type")
    ensures FindJigType(pb.jigTypes, entry).Some? && !StartsWith(entry, "jig") && !StartsWith(entry, "type")
            ==> r == Err(FailedAssertion)
    ensures FindJigType(pb.jigTypes, entry).None? ==> r == Err(MissingKey)
    ensures FindJigType(pb.jigTypes, entry).Some? && StartsWith(entry, "jig")
            ==> (r.Ok? <==> FindJig(pb.jigs, entry).Some?)
    ensures FindJigType(pb.jigTypes, entry).Some? && !StartsWith(entry, "jig") && StartsWith(entry, "type")
            ==> r.Ok?
  {
    if FindJigType(pb.jigTypes, entry).None? then Err(MissingKey)
    else if StartsWith(entry, "jig") then
      if FindJig(pb.jigs, entry).Some? then Ok(FixedJig(entry)) else Err(MissingKey)
    else if StartsWith(entry, "type") then Ok(AnyOfType(entry))
    else Err(FailedAssertion)
  }
}

=== FILE: network_facts.dfy ===
/** What every schedule satisfying the network guarantees: flights are
    handled one at a time and in order, each flight's unloads and loads are
    strictly sequential, each production line is served in schedule order,
    and the used swap slots form a prefix of length `numUsed`. */
module NetworkFacts {
  import opened Basics
  import opened Domain
  import opened Network

  /** In a chain of well-timed intervals, every earlier interval finishes
      before every later one starts. */
  lemma {:induction false} ChainOrdered(xs: seq<Interval>, a: int, b: int)
    requires Chain(xs) && (forall i :: 0 <= i < |xs| ==> Timed(xs[i]))
    requires 0 <= a < b < |xs|
    ensures Before(xs[a], xs[b])
    decreases b - a
  {
    if a + 1 < b {
      ChainOrdered(xs, a, b - 1);
      assert Before(xs[b - 1], xs[b]);
    }
  }

  /** The proceed events of a satisfying schedule are totally ordered. */
  lemma ProceedsTotallyOrdered(pb: ProblemDef, slots: nat, sch: Schedule, a: int, b: int)
    requires Satisfies(pb, slots, sch) && 0 <= a < b < |sch.proceeds|
    ensures Before(sch.proceeds[a], sch.proceeds[b])
  {
    ChainOrdered(sch.proceeds, a, b);
  }

  /** Activities bracketed by an earlier flight finish before those
      bracketed by a later one start. */
  lemma Separated(ps: seq<Interval>, n: int, a: int, b: int, x: Interval, y: Interval)
    requires |ps| == (if n == 0 then 0 else n - 1) && Chain(ps) && (forall i :: 0 <= i < |ps| ==> Timed(ps[i]))
    requires 0 <= a < b < n
    requires DuringFlight(ps, n, a, x) && DuringFlight(ps, n, b, y)
    ensures Before(x, y)
  {
    if a < b - 1 {
      ChainOrdered(ps, a, b - 1);
    }
  }

  /** The unload and load activities carried out while flight `i` is current. */
  function FlightActivities(sch: Schedule, i: int): set<Interval>
    requires 0 <= i < |sch.unloads| && i < |sch.loads|
  {
    (set a | 0 <= a < |sch.unloads[i]| :: sch.unloads[i][a].unload)
    + (set a | 0 <= a < |sch.loads[i]| :: sch.loads[i][a].load)
  }

  /** Flights are handled in order: every unload and load of an earlier
      flight finishes before any unload or load of a later flight starts. */
  lemma FlightsInOrder(pb: ProblemDef, slots: nat, sch: Schedule, a: int, b: int)
    requires Satisfies(pb, slots, sch) && 0 <= a < b < |pb.flights|
    ensures forall x, y :: x in FlightActivities(sch, a) && y in FlightActivities(sch, b) ==> Before(x, y)
  {
    var n := |pb.flights|;
    forall x, y | x in FlightActivities(sch, a) && y in FlightActivities(sch, b)
      ensures Before(x, y)
    {
      assert UnloadsOk(sch.proceeds, n, a, sch.unloads[a]) && LoadsOk(sch.proceeds, n, a, sch.loads[a]);
      assert UnloadsOk(sch.proceeds, n, b, sch.unloads[b]) && LoadsOk(sch.proceeds, n, b, sch.loads[b]);
      assert DuringFlight(sch.proceeds, n, a, x);
      assert DuringFlight(sch.proceeds, n, b, y);
      Separated(sch.proceeds, n, a, b, x, y);
    }
  }

  /** Every unload and load of flight `i` lies strictly between the proceed
      to flight `i` and the proceed to flight `i + 1`. */
  lemma FlightBracketed(pb: ProblemDef, slots: nat, sch: Schedule, i: int, x: Interval)
    requires Satisfies(pb, slots, sch) && 0 <= i < |pb.flights| && x in FlightActivities(sch, i)
    ensures 0 < i ==> sch.proceeds[i - 1].end < x.start
    ensures i < |pb.flights| - 1 ==> x.end < sch.proceeds[i].start
  {
    var n := |pb.flights|;
    assert UnloadsOk(sch.proceeds, n, i, sch.unloads[i]) && LoadsOk(sch.proceeds, n, i, sch.loads[i]);
    assert DuringFlight(sch.proceeds, n, i, x);
  }

  /** Within a flight, unloads happen strictly one after another, in the
      order of the incoming list, and so do loads; each put-down starts
      within `md` of its unload's start. */
  lemma WithinFlight(pb: ProblemDef, slots: nat, sch: Schedule, i: int, a: int, b: int)
    requires Satisfies(pb, slots, sch) && 0 <= i < |pb.flights| && 0 <= a < b
    ensures b < |sch.unloads[i]| ==> Before(sch.unloads[i][a].unload, sch.unloads[i][b].unload)
    ensures b < |sch.loads[i]| ==> Before(sch.loads[i][a].load, sch.loads[i][b].load)
    ensures b < |sch.unloads[i]| ==>
              sch.unloads[i][b].putdown.start <= sch.unloads[i][b].unload.start + sch.unloads[i][b].md
              && sch.unloads[i][b].md <= Bound
  {
    var n := |pb.flights|;
    assert UnloadsOk(sch.proceeds, n, i, sch.unloads[i]) && LoadsOk(sch.proceeds, n, i, sch.loads[i]);
    if b < |sch.unloads[i]| {
      var us := sch.unloads[i];
      var xs := seq(|us|, k requires 0 <= k < |us| => us[k].unload);
      assert Chain(xs) by {
        forall k | 0 < k < |xs| ensures Before(xs[k - 1], xs[k]) {
          assert Before(us[k - 1].unload, us[k].unload);
        }
      }
      ChainOrdered(xs, a, b);
    }
    if b < |sch.loads[i]| {
      var ls := sch.loads[i];
      var xs := seq(|ls|, k requires 0 <= k < |ls| => ls[k].load);
      assert Chain(xs) by {
        forall k | 0 < k < |xs| ensures Before(xs[k - 1], xs[k]) {
          assert Before(ls[k - 1].load, ls[k].load);
        }
      }
      ChainOrdered(xs, a, b);
    }
  }

  lemma {:induction false} DeliveriesIncrease(es: seq<Delivery>, a: int, b: int)
    requires LineOk(es) && 0 <= a < b < |es|
    ensures es[a].deliver.start < es[b].deliver.start
    decreases b - a
  {
    if a + 1 < b {
      DeliveriesIncrease(es, a, b - 1);
    }
  }

  /** Along a production line, deliveries start in schedule order, and each
      entry runs pick-up, delivery, get and put-down strictly in that order. */
  lemma LineInOrder(pb: ProblemDef, slots: nat, sch: Schedule, p: int, a: int, b: int)
    requires Satisfies(pb, slots, sch) && 0 <= p < |pb.productionLines| && 0 <= a < b < |sch.lines[p]|
    ensures sch.lines[p][a].deliver.start < sch.lines[p][b].deliver.start
    ensures var e := sch.lines[p][b];
            e.pickup.end < e.deliver.start && e.deliver.end < e.get.start && e.get.end < e.putdown.start
            && e.pickup.end < e.putdown.start
  {
    assert LineOk(sch.lines[p]);
    DeliveriesIncrease(sch.lines[p], a, b);
    var e := sch.lines[p][b];
    assert Timed(e.deliver) && Timed(e.get);
  }

  /** Number of slots that are used (not noop). */
  function CountUsed(swaps: seq<SwapSlot>): nat
  {
    if |swaps| == 0 then 0 else (if swaps[|swaps| - 1].noop then 0 else 1) + CountUsed(swaps[..|swaps| - 1])
  }

  lemma {:induction false} CountUsedPrefix(swaps: seq<SwapSlot>, numUsed: int, k: nat)
    requires 0 <= numUsed && k <= |swaps|
    requires forall i :: 0 <= i < |swaps| ==> SlotPresence(numUsed, i, swaps[i])
    ensures CountUsed(swaps[..k]) == if k < numUsed then k else numUsed
  {
    if k > 0 {
      assert swaps[..k][..k - 1] == swaps[..k - 1];
      CountUsedPrefix(swaps, numUsed, k - 1);
      assert SlotPresence(numUsed, k - 1, swaps[k - 1]);
    }
  }

  /** The used swap slots are exactly the first `numUsed` ones, so their
      number is `numUsed`, between 0 and the number of slots; slot task
      starts strictly increase; and inside a used slot the pick-up ends by
      the lower mid point, which precedes the put-down's start, itself
      before the upper mid point, which is before the put-down ends. */
  lemma SwapSlots(pb: ProblemDef, slots: nat, sch: Schedule, a: int, b: int)
    requires Satisfies(pb, slots, sch)
    ensures 0 <= sch.numUsed <= slots
    ensures forall i :: 0 <= i < slots ==> (!sch.swaps[i].noop <==> i < sch.numUsed)
    ensures CountUsed(sch.swaps) == sch.numUsed
    ensures 0 <= a < b < slots ==> sch.swaps[a].task.start < sch.swaps[b].task.start
    ensures 0 <= b < slots && !sch.swaps[b].noop ==>
              var sw := sch.swaps[b];
              sw.pickup.end < sw.putdown.start
              && sw.pickup.end <= sw.mtpLb <= sw.putdown.start <= sw.mtpUb <= sw.putdown.end
  {
    var sw := sch.swaps;
    forall i | 0 <= i < slots ensures (!sw[i].noop <==> i < sch.numUsed) {
      assert SlotPresence(sch.numUsed, i, sw[i]);
    }
    CountUsedPrefix(sw, sch.numUsed, |sw|);
    assert sw[..|sw|] == sw;
    if 0 <= a < b < slots {
      SlotStartsIncrease(sw, a, b);
    }
    if 0 <= b < slots {
      assert SlotBody(sw[b]);
    }
  }

  lemma {:induction false} SlotStartsIncrease(sw: seq<SwapSlot>, a: int, b: int)
    requires forall i :: 0 < i < |sw| ==> sw[i - 1].task.start < sw[i].task.start
    requires 0 <= a < b < |sw|
    ensures sw[a].task.start < sw[b].task.start
    decreases b - a
  {
    if a + 1 < b {
      SlotStartsIncrease(sw, a, b - 1);
    }
  }

  /** The number of used slots determines every slot's noop flag: two
      satisfying schedules with the same `numUsed` use the same slots. */
  lemma PresenceDetermined(pb: ProblemDef, slots: nat, s1: Schedule, s2: Schedule, i: int)
    requires Satisfies(pb, slots, s1) && Satisfies(pb, slots, s2) && s1.numUsed == s2.numUsed
    requires 0 <= i < slots
    ensures s1.swaps[i].noop == s2.swaps[i].noop
  {
    assert SlotPresence(s1.numUsed, i, s1.swaps[i]);
    assert SlotPresence(s2.numUsed, i, s2.swaps[i]);
  }
}

/** The network the encoder builds is never contradictory on its own: for
    any problem instance, any number of slots and any number of used slots
    up to it, some schedule satisfies every ordering constraint. */
module NetworkWitness {
  import opened Basics
  import opened Domain
  import opened Network

  /** Number of incoming and outgoing entries over all flights. */
  function Entries(flights: seq<Flight>): nat
  {
    if |flights| == 0 then 0 else |flights[0].incoming| + |flights[0].outgoing| + Entries(flights[1..])
  }

  lemma {:induction false} EntriesBound(flights: seq<Flight>, i: int)
    requires 0 <= i < |flights|
    ensures |flights[i].incoming| + |flights[i].outgoing| <= Entries(flights)
  {
    if i > 0 {
      EntriesBound(flights[1..], i - 1);
    }
  }

  function At(t: int): Interval
  {
    Interval(t, t)
  }

  function BlockWidth(pb: ProblemDef): int
  {
    2 * Entries(pb.flights) + 4
  }

  /** The proceed to flight `i + 1` takes the last instant of block `i`. */
  function Proceeds(n: nat, w: int): (ps: seq<Interval>)
    requires w > 0
    ensures |ps| == (if n == 0 then 0 else n - 1)
    ensures Chain(ps) && forall i :: 0 <= i < |ps| ==> Timed(ps[i])
    ensures forall i :: 0 <= i < |ps| ==> ps[i] == At((i + 1) * w - 1)
  {
    var ps := seq(if n == 0 then 0 else n - 1, i => At((i + 1) * w - 1));
    assert forall i :: 0 < i < |ps| ==> Before(ps[i - 1], ps[i]) by {
      forall i | 0 < i < |ps| ensures Before(ps[i - 1], ps[i]) {
        assert i * w - 1 < (i + 1) * w - 1;
      }
    }
    ps
  }

  /** The unloads of flight `i`: alternate instants from the start of its block. */
  function FlightUnloads(i: int, w: int, k: nat): (us: seq<Unloading>)
    ensures |us| == k
    ensures forall a :: 0 <= a < k ==> us[a] == Unloading(At(i * w + 1 + 2 * a), At(i * w + 2 + 2 * a), 1)
  {
    seq(k, a => Unloading(At(i * w + 1 + 2 * a), At(i * w + 2 + 2 * a), 1))
  }

  function FlightLoads(i: int, w: int, k: nat): (ls: seq<Loading>)
    ensures |ls| == k
    ensures forall a :: 0 <= a < k ==> ls[a] == Loading(At(i * w + 1 + 2 * a), At(i * w + 2 + 2 * a))
  {
    seq(k, a => Loading(At(i * w + 1 + 2 * a), At(i * w + 2 + 2 * a)))
  }

  /** Flight `i`'s unloads and loads fit inside its block. */
  lemma FlightFits(pb: ProblemDef, ps: seq<Interval>, i: int)
    requires 0 <= i < |pb.flights|
    requires ps == Proceeds(|pb.flights|, BlockWidth(pb))
    ensures UnloadsOk(ps, |pb.flights|, i, FlightUnloads(i, BlockWidth(pb), |pb.flights[i].incoming|))
    ensures LoadsOk(ps, |pb.flights|, i, FlightLoads(i, BlockWidth(pb), |pb.flights[i].outgoing|))
  {
    var n, w := |pb.flights|, BlockWidth(pb);
    EntriesBound(pb.flights, i);
    var us := FlightUnloads(i, w, |pb.flights[i].incoming|);
    var ls := FlightLoads(i, w, |pb.flights[i].outgoing|);
    forall a | 0 <= a < |us| ensures DuringFlight(ps, n, i, us[a].unload) {
      if i > 0 { assert ps[i - 1] == At(i * w - 1); }
      if i < n - 1 { assert ps[i] == At((i + 1) * w - 1); }
    }
    forall a | 0 <= a < |ls| ensures DuringFlight(ps, n, i, ls[a].load) {
      if i > 0 { assert ps[i - 1] == At(i * w - 1); }
      if i < n - 1 { assert ps[i] == At((i + 1) * w - 1); }
    }
  }

  function LineEntries(k: nat): (es: seq<Delivery>)
    ensures |es| == k && LineOk(es)
    ensures forall a :: 0 <= a < k ==> es[a] == Delivery(At(4 * a), At(4 * a + 1), At(4 * a + 2), At(4 * a + 3), 1)
  {
    seq(k, a => Delivery(At(4 * a), At(4 * a + 1), At(4 * a + 2), At(4 * a + 3), 1))
  }

  /** Slots below `used` are used; each swaps between instants 0 and 1. */
  function Slots(slots: nat, used: nat): (sw: seq<SwapSlot>)
    requires used <= slots
    ensures |sw| == slots && SwapsOk(used, sw)
    ensures forall i :: 0 <= i < slots ==> Timed(sw[i].task) && Timed(sw[i].pickup) && Timed(sw[i].putdown)
  {
    seq(slots, i => SwapSlot(i >= used, At(i), At(0), At(1), 0, 1))
  }

  /** The unloads of every flight. */
  function AllUnloads(pb: ProblemDef): (us: seq<seq<Unloading>>)
    ensures |us| == |pb.flights|
    ensures forall i :: 0 <= i < |pb.flights| ==> us[i] == FlightUnloads(i, BlockWidth(pb), |pb.flights[i].incoming|)
  {
    seq(|pb.flights|, i requires 0 <= i < |pb.flights| => FlightUnloads(i, BlockWidth(pb), |pb.flights[i].incoming|))
  }

  /** The loads of every flight. */
  function AllLoads(pb: ProblemDef): (ls: seq<seq<Loading>>)
    ensures |ls| == |pb.flights|
    ensures forall i :: 0 <= i < |pb.flights| ==> ls[i] == FlightLoads(i, BlockWidth(pb), |pb.flights[i].outgoing|)
  {
    seq(|pb.flights|, i requires 0 <= i < |pb.flights| => FlightLoads(i, BlockWidth(pb), |pb.flights[i].outgoing|))
  }

  /** The deliveries of every production line. */
  function AllLines(pb: ProblemDef): (es: seq<seq<Delivery>>)
    ensures |es| == |pb.productionLines|
    ensures forall p :: 0 <= p < |pb.productionLines| ==> es[p] == LineEntries(|pb.productionLines[p].schedule|)
  {
    seq(|pb.productionLines|, p requires 0 <= p < |pb.productionLines| => LineEntries(|pb.productionLines[p].schedule|))
  }

  /** Every flight's unloads and loads meet its constraints. */
  lemma AllFlightsFit(pb: ProblemDef)
    ensures var n := |pb.flights|;
            forall i :: 0 <= i < n ==>
              UnloadsOk(Proceeds(n, BlockWidth(pb)), n, i, AllUnloads(pb)[i])
              && LoadsOk(Proceeds(n, BlockWidth(pb)), n, i, AllLoads(pb)[i])
  {
    var n, ps := |pb.flights|, Proceeds(|pb.flights|, BlockWidth(pb));
    forall i | 0 <= i < n
      ensures UnloadsOk(ps, n, i, AllUnloads(pb)[i]) && LoadsOk(ps, n, i, AllLoads(pb)[i])
    {
      FlightFits(pb, ps, i);
    }
  }

  /** Every interval of the witness is an instant. */
  lemma AllTimed(pb: ProblemDef, slots: nat, used: nat)
    requires used <= slots
    ensures WellTimed(Schedule(Proceeds(|pb.flights|, BlockWidth(pb)), AllUnloads(pb), AllLoads(pb), AllLines(pb),
                               used, Slots(slots, used)))
  {
  }

  /** Flight `i` owns the time block `[i * w, (i + 1) * w)`, with `w` larger
      than twice the number of incoming and outgoing entries of any flight;
      its unloads and loads take alternate instants after the block's start
      and the proceed to the next flight takes the block's last instant.
      Production lines use four instants per entry, and every used slot's
      swap happens between instants 0 and 1. */
  function Witness(pb: ProblemDef, slots: nat, used: nat): (sch: Schedule)
    requires used <= slots
    ensures Satisfies(pb, slots, sch) && sch.numUsed == used
  {
    AllFlightsFit(pb);
    AllTimed(pb, slots, used);
    Schedule(Proceeds(|pb.flights|, BlockWidth(pb)), AllUnloads(pb), AllLoads(pb), AllLines(pb), used, Slots(slots, used))
  }
}

=== FILE: refplan.dfy ===
/** The swap count of a reference plan (model.py:709-766) and the number of
    swap slots it leads to (model.py:163-165).

    The count walks the plan once. Each unload, load, delivery and get is
    paired with the put-down or pick-up the encoder's own task network
    gives it: an unload or a get with the next put-down of the same jig by
    the same trailer, a load or a delivery with the latest earlier pick-up
    of that jig by that trailer. The paired actions are marked seen, and the
    pick-ups left unseen are the swaps.
 */
module RefPlan {
  import opened Basics
  import opened Domain

  /** What the count reads from the encoder's task network: the known jig
      and production-line objects, and, in creation order, the jig of every
      unload/put-down pair, the number of pick-up/load pairs, the jig and
      line of every pick-up/delivery pair and the jig of every get/put-down
      pair. */
  datatype Network = Network(
    jigs: set<string>,
    lines: set<string>,
    unloads: seq<string>,
    loads: nat,
    delivers: seq<(string, string)>,
    gets: seq<string>)

  /** The incoming jigs of the flights, flight by flight. */
  function Incoming(flights: seq<Flight>): seq<string>
  {
    if |flights| == 0 then [] else flights[0].incoming + Incoming(flights[1..])
  }

  /** The number of incoming jigs over all flights. */
  function IncomingCount(flights: seq<Flight>): nat
  {
    Sum(seq(|flights|, i requires 0 <= i < |flights| => |flights[i].incoming|))
  }

  /** The number of scheduled jigs over all production lines. */
  function ScheduledCount(lines: seq<ProductionLine>): nat
  {
    Sum(seq(|lines|, p requires 0 <= p < |lines| => |lines[p].schedule|))
  }

  function OutgoingCount(flights: seq<Flight>): nat
  {
    if |flights| == 0 then 0 else |flights[0].outgoing| + OutgoingCount(flights[1..])
  }

  function LineDeliveries(lines: seq<ProductionLine>): seq<(string, string)>
  {
    if |lines| == 0 then []
    else (seq(|lines[0].schedule|, i requires 0 <= i < |lines[0].schedule| => (lines[0].schedule[i], lines[0].name)))
         + LineDeliveries(lines[1..])
  }

  /** The task network built from a problem: one unload pair per incoming
      jig of each flight (model.py:799-846), one load pair per outgoing
      entry (model.py:848-903), and one delivery pair and one get pair per
      scheduled jig of each production line (model.py:905-969). */
  function NetworkOf(pb: ProblemDef): (n: Network)
    ensures |n.delivers| == |n.gets|
    ensures forall i :: 0 <= i < |n.gets| ==> n.gets[i] == n.delivers[i].0
  {
    var ds := LineDeliveries(pb.productionLines);
    Network(
      set j | j in pb.jigs :: j.name,
      set pl | pl in pb.productionLines :: pl.name,
      Incoming(pb.flights),
      OutgoingCount(pb.flights),
      ds,
      seq(|ds|, i requires 0 <= i < |ds| => ds[i].0))
  }

  /** Unload pairs: one per incoming jig of each flight, and a jig has one
      exactly when some flight brings it in. */
  lemma {:induction false} IncomingPairs(flights: seq<Flight>, j: string)
    ensures |Incoming(flights)| == IncomingCount(flights)
    ensures j in Incoming(flights) <==> exists i :: 0 <= i < |flights| && j in flights[i].incoming
    decreases |flights|
  {
    if |flights| > 0 {
      var rest := flights[1..];
      IncomingPairs(rest, j);
      assert seq(|flights|, i requires 0 <= i < |flights| => |flights[i].incoming|)[1..]
          == seq(|rest|, i requires 0 <= i < |rest| => |rest[i].incoming|);
      if j in Incoming(rest) {
        var i :| 0 <= i < |rest| && j in rest[i].incoming;
        assert flights[i + 1] == rest[i];
      }
      if exists i :: 0 <= i < |flights| && j in flights[i].incoming {
        var i :| 0 <= i < |flights| && j in flights[i].incoming;
        if i > 0 {
          assert rest[i - 1] == flights[i];
        }
      }
    }
  }

  /** Delivery pairs: one per scheduled jig of each line, and `(j, pl)` is
      one exactly when `j` is in the schedule of a line named `pl`. */
  lemma {:induction false} DeliveryPairs(lines: seq<ProductionLine>, j: string, pl: string)
    ensures |LineDeliveries(lines)| == ScheduledCount(lines)
    ensures (j, pl) in LineDeliveries(lines)
        <==> exists p :: 0 <= p < |lines| && lines[p].name == pl && j in lines[p].schedule
    decreases |lines|
  {
    if |lines| > 0 {
      var rest := lines[1..];
      var first := seq(|lines[0].schedule|, i requires 0 <= i < |lines[0].schedule| => (lines[0].schedule[i], lines[0].name));
      DeliveryPairs(rest, j, pl);
      assert LineDeliveries(lines) == first + LineDeliveries(rest);
      assert seq(|lines|, p requires 0 <= p < |lines| => |lines[p].schedule|)[1..]
          == seq(|rest|, p requires 0 <= p < |rest| => |rest[p].schedule|);
      assert (j, pl) in first <==> lines[0].name == pl && j in lines[0].schedule by {
        if j in lines[0].schedule {
          var i :| 0 <= i < |lines[0].schedule| && lines[0].schedule[i] == j;
          assert first[i] == (j, lines[0].name);
        }
      }
      if (j, pl) in LineDeliveries(rest) {
        var p :| 0 <= p < |rest| && rest[p].name == pl && j in rest[p].schedule;
        assert lines[p + 1] == rest[p];
      }
      if exists p :: 0 <= p < |lines| && lines[p].name == pl && j in lines[p].schedule {
        var p :| 0 <= p < |lines| && lines[p].name == pl && j in lines[p].schedule;
        if p > 0 {
          assert rest[p - 1] == lines[p];
        }
      }
    }
  }

  /** The network built from a problem has one unload pair per incoming
      jig, one load pair per outgoing entry, and one delivery pair and one
      get pair per scheduled jig; a jig has an unload pair exactly when a
      flight brings it in, and `(j, pl)` is a delivery pair exactly when
      `j` is in the schedule of line `pl`. */
  lemma NetworkOfProblem(pb: ProblemDef, j: string, pl: string)
    ensures var n := NetworkOf(pb);
      && |n.unloads| == IncomingCount(pb.flights)
      && (j in n.unloads <==> exists i :: 0 <= i < |pb.flights| && j in pb.flights[i].incoming)
      && |n.delivers| == |n.gets| == ScheduledCount(pb.productionLines)
      && ((j, pl) in n.delivers
          <==> exists p :: 0 <= p < |pb.productionLines| && pb.productionLines[p].name == pl
                           && j in pb.productionLines[p].schedule)
  {
    IncomingPairs(pb.flights, j);
    DeliveryPairs(pb.productionLines, j, pl);
  }

  /** Lookup of a jig object by name: a missing key for a name that is not
      a declared jig. */
  function JigObject(net: Network, name: string): Result<string>
  {
    if name in net.jigs then Ok(name) else Err(MissingKey)
  }

  /** The jig named by an action (the empty name for a switch or an
      unrecognised action, which have none). */
  function JigOf(a: Action): string
  {
    match a
    case UnloadBeluga(j, _, _) => j
    case LoadBeluga(j, _, _) => j
    case PutDownRack(j, _, _, _) => j
    case PickUpRack(j, _, _, _) => j
    case DeliverToHangar(j, _, _, _) => j
    case GetFromHangar(j, _, _) => j
    case _ => ""
  }

  /** The trailer named by an action (the empty name when there is none). */
  function TrailerOf(a: Action): string
  {
    match a
    case UnloadBeluga(_, _, t) => t
    case LoadBeluga(_, _, t) => t
    case PutDownRack(_, t, _, _) => t
    case PickUpRack(_, t, _, _) => t
    case DeliverToHangar(_, _, t, _) => t
    case GetFromHangar(_, _, t) => t
    case _ => ""
  }

  /** The forward search of an unload or a get (model.py:723-730,
      776-783): the first put-down from position `l` on whose jig is `j`
      and whose trailer is `t` is marked seen. The jig of every put-down
      passed over is looked up as an object. */
  function NextPutDown(net: Network, plan: seq<Action>, l: nat, j: string, t: string, seen: set<int>): (r: Result<set<int>>)
    ensures r.Ok? ==> seen <= r.value
    ensures r.Ok? ==> forall x :: x in r.value && x !in seen ==> l <= x < |plan| && plan[x].PutDownRack?
    decreases |plan| - l
  {
    if l >= |plan| then Ok(seen)
    else if plan[l].PutDownRack? then
      var jl :- JigObject(net, plan[l].j);
      if j == jl && t == plan[l].t then Ok(seen + {l})
      else NextPutDown(net, plan, l + 1, j, t, seen)
    else NextPutDown(net, plan, l + 1, j, t, seen)
  }

  /** The backward search of a load or a delivery (model.py:738-746,
      755-763): the latest pick-up before position `l + 1` whose jig is `j`
      and whose trailer is `t` is marked seen. For a delivery the jig of
      every pick-up passed over is looked up as an object; for a load the
      names are compared directly. */
  function LastPickUp(net: Network, plan: seq<Action>, l: int, j: string, t: string, lookup: bool, seen: set<int>): (r: Result<set<int>>)
    requires l < |plan|
    ensures !lookup ==> r.Ok?
    ensures r.Ok? ==> seen <= r.value
    ensures r.Ok? ==> forall x :: x in r.value && x !in seen ==> 0 <= x <= l
    decreases l + 1
  {
    if l < 0 then Ok(seen)
    else if plan[l].PickUpRack? then
      var jl :- if lookup then JigObject(net, plan[l].j) else Ok(plan[l].j);
      if j == jl && t == plan[l].t then Ok(seen + {l})
      else LastPickUp(net, plan, l - 1, j, t, lookup, seen)
    else LastPickUp(net, plan, l - 1, j, t, lookup, seen)
  }

  /** The loop over the unload pairs or the get pairs for the action at `k`
      (model.py:719-731, 770-784): the first pair of the action's jig marks
      the action and searches forward for its put-down. */
  function MatchForward(net: Network, plan: seq<Action>, k: nat, pairs: seq<string>, seen: set<int>): (r: Result<set<int>>)
    requires k < |plan|
    ensures r.Ok? ==> seen <= r.value
    ensures r.Ok? ==> forall x :: x in r.value && x !in seen ==> x == k || (k < x < |plan| && plan[x].PutDownRack?)
    decreases |pairs|
  {
    if |pairs| == 0 then Ok(seen)
    else
      var jk :- JigObject(net, JigOf(plan[k]));
      if pairs[0] == jk && k !in seen then NextPutDown(net, plan, k + 1, pairs[0], TrailerOf(plan[k]), seen + {k})
      else MatchForward(net, plan, k, pairs[1..], seen)
  }

  /** The loop over the delivery pairs for the delivery at `k`
      (model.py:750-764): the first pair of the delivery's jig and line
      marks the delivery and searches backward for its pick-up. */
  function MatchDelivery(net: Network, plan: seq<Action>, k: nat, pairs: seq<(string, string)>, seen: set<int>): (r: Result<set<int>>)
    requires k < |plan| && plan[k].DeliverToHangar?
    ensures r.Ok? ==> seen <= r.value
    ensures r.Ok? ==> forall x :: x in r.value && x !in seen ==> 0 <= x <= k
    decreases |pairs|
  {
    if |pairs| == 0 then Ok(seen)
    else
      var jk :- JigObject(net, plan[k].j);
      if pairs[0].0 == jk then
        var plk :- if plan[k].pl in net.lines then Ok(plan[k].pl) else Err(MissingKey);
        if pairs[0].1 == plk && k !in seen then LastPickUp(net, plan, k - 1, pairs[0].0, plan[k].t, true, seen + {k})
        else MatchDelivery(net, plan, k, pairs[1..], seen)
      else MatchDelivery(net, plan, k, pairs[1..], seen)
  }

  /** What the action at `k` marks (one turn of model.py:717-790), `loads`
      being the number of loads met before it. A load beyond the network's
      load pairs raises IndexError (model.py:734). */
  function StepSeen(net: Network, plan: seq<Action>, k: nat, loads: nat, seen: set<int>): (r: Result<set<int>>)
    requires k < |plan|
    ensures r.Ok? ==> seen <= r.value
    ensures r.Ok? ==> forall x :: x in r.value && x !in seen ==> x <= k || (x < |plan| && plan[x].PutDownRack?)
  {
    match plan[k]
    case UnloadBeluga(_, _, _) => MatchForward(net, plan, k, net.unloads, seen)
    case LoadBeluga(j, _, t) =>
      if loads >= net.loads then Err(IndexOutOfRange)
      else LastPickUp(net, plan, k - 1, j, t, false, seen + {k})
    case DeliverToHangar(_, _, _, _) => MatchDelivery(net, plan, k, net.delivers, seen)
    case GetFromHangar(_, _, _) => MatchForward(net, plan, k, net.gets, seen)
    case SwitchToNextBeluga(_) => Ok(seen + {k})
    case _ => Ok(seen)
  }

  /** The marking pass from position `k` on. */
  function MarkSeen(net: Network, plan: seq<Action>, k: nat, loads: nat, seen: set<int>): (r: Result<set<int>>)
    requires k <= |plan|
    ensures r.Ok? ==> seen <= r.value
    decreases |plan| - k
  {
    if k == |plan| then Ok(seen)
    else
      var seen' :- StepSeen(net, plan, k, loads, seen);
      MarkSeen(net, plan, k + 1, if plan[k].LoadBeluga? then loads + 1 else loads, seen')
  }

  /** Positions of the pick-ups in a plan. */
  function PickUps(plan: seq<Action>): set<int>
  {
    set k | 0 <= k < |plan| && plan[k].PickUpRack?
  }

  /** The reference plan's swap count (model.py:709-794): its pick-ups left
      unseen by the marking pass. */
  function RefSwaps(net: Network, plan: seq<Action>): (r: Result<nat>)
    ensures r.Ok? <==> MarkSeen(net, plan, 0, 0, {}).Ok?
    ensures r.Ok? ==> r.value == |Unpartnered(net, plan)|
  {
    var seen :- MarkSeen(net, plan, 0, 0, {});
    UnseenUnpartnered(net, plan);
    Ok(|PickUps(plan) - seen|)
  }

  /** The number of swap slots (model.py:163-165): the margin, plus the
      reference plan's swap count when there is a reference plan. */
  function SwapSlotCount(net: Network, reference: Option<seq<Action>>, margin: int): (r: Result<int>)
    ensures reference.None? ==> r == Ok(margin)
    ensures reference.Some? ==> (r.Err? <==> RefSwaps(net, reference.value).Err?)
    ensures r.Ok? && reference.Some? ==> r.value == margin + |Unpartnered(net, reference.value)|
  {
    match reference
    case None => Ok(margin)
    case Some(plan) =>
      var c :- RefSwaps(net, plan);
      Ok(c + margin)
  }

  /** `l` is the latest pick-up before position `k` of the jig and by the
      trailer of the action at `k`. */
  predicate LatestPickUp(plan: seq<Action>, k: int, l: int)
    requires 0 <= k < |plan|
  {
    0 <= l < k && plan[l].PickUpRack? && plan[l].j == JigOf(plan[k]) && plan[l].t == TrailerOf(plan[k])
    && forall m :: l < m < k ==> !(plan[m].PickUpRack? && plan[m].j == JigOf(plan[k]) && plan[m].t == TrailerOf(plan[k]))
  }

  /** The backward search marks the latest matching pick-up. */
  lemma {:induction false} LastPickUpFinds(
    net: Network, plan: seq<Action>, m: int, j: string, t: string, lookup: bool, seen: set<int>, l: int)
    requires 0 <= l <= m < |plan| && plan[l].PickUpRack? && plan[l].j == j && plan[l].t == t
    requires forall x :: l < x <= m ==> !(plan[x].PickUpRack? && plan[x].j == j && plan[x].t == t)
    requires LastPickUp(net, plan, m, j, t, lookup, seen).Ok?
    ensures l in LastPickUp(net, plan, m, j, t, lookup, seen).value
    decreases m
  {
    if m > l {
      LastPickUpFinds(net, plan, m - 1, j, t, lookup, seen, l);
    }
  }

  /** The pick-up a load or a delivery is paired with. */
  predicate Partner(net: Network, plan: seq<Action>, k: int, l: int)
  {
    0 <= k < |plan| && LatestPickUp(plan, k, l)
    && (plan[k].LoadBeluga? || (plan[k].DeliverToHangar? && (plan[k].j, plan[k].pl) in net.delivers))
  }

  /** Before position `k`, only earlier positions and put-downs are seen. */
  predicate SeenSoFar(plan: seq<Action>, k: int, seen: set<int>)
  {
    forall x :: x in seen ==> x < k || (0 <= x < |plan| && plan[x].PutDownRack?)
  }

  /** The delivery loop marks the delivery's pick-up when one of the
      network's pairs has its jig and line. */
  lemma {:induction false} MatchDeliveryFinds(
    net: Network, plan: seq<Action>, k: nat, pairs: seq<(string, string)>, seen: set<int>, l: int)
    requires k < |plan| && plan[k].DeliverToHangar? && (plan[k].j, plan[k].pl) in pairs && k !in seen
    requires LatestPickUp(plan, k, l) && MatchDelivery(net, plan, k, pairs, seen).Ok?
    ensures l in MatchDelivery(net, plan, k, pairs, seen).value
    decreases |pairs|
  {
    if pairs[0] == (plan[k].j, plan[k].pl) {
      LastPickUpFinds(net, plan, k - 1, plan[k].j, plan[k].t, true, seen + {k}, l);
    } else {
      MatchDeliveryFinds(net, plan, k, pairs[1..], seen, l);
    }
  }

  /** Every pick-up paired with a later load or delivery is seen by the end
      of the marking pass. */
  lemma {:induction false} MarkSeenPartner(
    net: Network, plan: seq<Action>, k0: nat, loads: nat, seen: set<int>, k: int, l: int)
    requires k0 <= k && SeenSoFar(plan, k0, seen) && Partner(net, plan, k, l)
    requires MarkSeen(net, plan, k0, loads, seen).Ok?
    ensures l in MarkSeen(net, plan, k0, loads, seen).value
    decreases |plan| - k0
  {
    var seen' := StepSeen(net, plan, k0, loads, seen).value;
    var loads' := if plan[k0].LoadBeluga? then loads + 1 else loads;
    assert MarkSeen(net, plan, k0, loads, seen) == MarkSeen(net, plan, k0 + 1, loads', seen');
    if k0 == k {
      if plan[k].LoadBeluga? {
        LastPickUpFinds(net, plan, k - 1, plan[k].j, plan[k].t, false, seen + {k}, l);
      } else {
        MatchDeliveryFinds(net, plan, k, net.delivers, seen, l);
      }
    } else {
      MarkSeenPartner(net, plan, k0 + 1, loads', seen', k, l);
    }
  }

  /** The pick-ups not paired with any later load or delivery. */
  function Unpartnered(net: Network, plan: seq<Action>): set<int>
  {
    set l | l in PickUps(plan) && forall k | 0 <= k < |plan| :: !Partner(net, plan, k, l)
  }

  /** The backward search marks at most one new position: the latest
      pick-up up to `m` of jig `j` by trailer `t`. */
  lemma {:induction false} LastPickUpOnly(
    net: Network, plan: seq<Action>, m: int, j: string, t: string, lookup: bool, seen: set<int>, x: int)
    requires m < |plan| && LastPickUp(net, plan, m, j, t, lookup, seen).Ok?
    requires x in LastPickUp(net, plan, m, j, t, lookup, seen).value && x !in seen
    ensures 0 <= x <= m && plan[x].PickUpRack? && plan[x].j == j && plan[x].t == t
    ensures forall y :: x < y <= m ==> !(plan[y].PickUpRack? && plan[y].j == j && plan[y].t == t)
    decreases m + 1
  {
    if !(plan[m].PickUpRack? && plan[m].j == j && plan[m].t == t) {
      LastPickUpOnly(net, plan, m - 1, j, t, lookup, seen, x);
    }
  }

  /** A pick-up the delivery loop marks is the latest one of the
      delivery's jig by its trailer, and a pair has the delivery's jig and
      line. */
  lemma {:induction false} MatchDeliveryOnly(
    net: Network, plan: seq<Action>, k: nat, pairs: seq<(string, string)>, seen: set<int>, x: int)
    requires k < |plan| && plan[k].DeliverToHangar? && MatchDelivery(net, plan, k, pairs, seen).Ok?
    requires x in MatchDelivery(net, plan, k, pairs, seen).value && x !in seen && 0 <= x < |plan| && plan[x].PickUpRack?
    ensures (plan[k].j, plan[k].pl) in pairs && LatestPickUp(plan, k, x)
    decreases |pairs|
  {
    if pairs[0] == (plan[k].j, plan[k].pl) && k !in seen {
      LastPickUpOnly(net, plan, k - 1, plan[k].j, plan[k].t, true, seen + {k}, x);
    } else {
      MatchDeliveryOnly(net, plan, k, pairs[1..], seen, x);
    }
  }

  /** Every pick-up in `seen` is paired with some load or delivery. */
  predicate PartneredSeen(net: Network, plan: seq<Action>, seen: set<int>)
  {
    forall x :: x in seen && 0 <= x < |plan| && plan[x].PickUpRack? ==> exists k | 0 <= k < |plan| :: Partner(net, plan, k, x)
  }

  /** The pick-ups the action at `k` marks are the ones it is paired with. */
  lemma StepSeenPartner(net: Network, plan: seq<Action>, k: nat, loads: nat, seen: set<int>, x: int)
    requires k < |plan| && StepSeen(net, plan, k, loads, seen).Ok?
    requires x in StepSeen(net, plan, k, loads, seen).value && x !in seen && 0 <= x < |plan| && plan[x].PickUpRack?
    ensures Partner(net, plan, k, x)
  {
    match plan[k]
    case LoadBeluga(j, _, t) =>
      LastPickUpOnly(net, plan, k - 1, j, t, false, seen + {k}, x);
    case DeliverToHangar(_, _, _, _) =>
      MatchDeliveryOnly(net, plan, k, net.delivers, seen, x);
    case _ =>
  }

  /** The marking pass marks only pick-ups some load or delivery is
      paired with. */
  lemma {:induction false} MarkSeenPartnered(net: Network, plan: seq<Action>, k0: nat, loads: nat, seen: set<int>)
    requires k0 <= |plan| && MarkSeen(net, plan, k0, loads, seen).Ok? && PartneredSeen(net, plan, seen)
    ensures PartneredSeen(net, plan, MarkSeen(net, plan, k0, loads, seen).value)
    decreases |plan| - k0
  {
    if k0 < |plan| {
      var seen' := StepSeen(net, plan, k0, loads, seen).value;
      var loads' := if plan[k0].LoadBeluga? then loads + 1 else loads;
      assert MarkSeen(net, plan, k0, loads, seen) == MarkSeen(net, plan, k0 + 1, loads', seen');
      forall x | x in seen' && 0 <= x < |plan| && plan[x].PickUpRack?
        ensures exists k | 0 <= k < |plan| :: Partner(net, plan, k, x)
      {
        if x !in seen {
          StepSeenPartner(net, plan, k0, loads, seen, x);
        }
      }
      MarkSeenPartnered(net, plan, k0 + 1, loads', seen');
    }
  }

  /** The pick-ups the marking pass leaves unseen are exactly the ones no
      load or delivery is paired with. */
  lemma UnseenUnpartnered(net: Network, plan: seq<Action>)
    requires MarkSeen(net, plan, 0, 0, {}).Ok?
    ensures PickUps(plan) - MarkSeen(net, plan, 0, 0, {}).value == Unpartnered(net, plan)
  {
    var seen := MarkSeen(net, plan, 0, 0, {}).value;
    forall l | l in PickUps(plan) - seen
      ensures l in Unpartnered(net, plan)
    {
      forall k ensures !Partner(net, plan, k, l) {
        if Partner(net, plan, k, l) {
          MarkSeenPartner(net, plan, 0, 0, {}, k, l);
        }
      }
    }
    MarkSeenPartnered(net, plan, 0, 0, {});
  }
}

=== FILE: reify.dfy ===
/** The property reifiers of the encoder. Each one introduces a boolean
    variable of the task network whose value, in any solution, says whether
    a property of the plan holds, and adds the constraint defining it. The
    variables are cached by name: a reifier first looks its variable's name
    up among the network's variables and, when it is already there, returns
    it without adding anything.

    A solution is modelled as an `Assignment` of the encoder's decision
    variables and of the boolean reification variables; a constraint is
    modelled by what it says about an assignment (`Holds`).
 */
module Reify {
  import opened Basics
  import opened Domain
  import opened World

  /** What the reifiers read from the encoder: the racks in input order,
      the declared jigs, the initial state, and the jigs that have an unload
      leg and those that have a get leg (the keys of the encoder's per-jig
      variable tables). */
  datatype Encoder = Encoder(
    racks: seq<string>,
    jigs: set<string>,
    initial: State,
    unloadJigs: set<string>,
    getJigs: set<string>)

  /** A definition added to the task network, keeping what the constraint
      needs that the assignment does not carry. */
  datatype Constraint =
    | RackEmptyDef(v: string, rack: string, initiallyEmpty: bool)
    | AtLeastOneDef(v: string, members: seq<string>)
    | SizeLeqDef(v: string, jig: string, bound: int, initialSize: Option<int>, viaUnload: bool, viaGet: bool)
    | SwapsLeqDef(v: string, bound: int)

  /** The reification variables and the constraints added so far. */
  datatype Net = Net(vars: set<string>, constraints: seq<Constraint>)

  /** Values of the decision variables the reifiers refer to: the rack and
      the rack size chosen for each unload and get leg, and for each swap
      slot its jig, target rack and target rack size; the number of used
      swap slots; and the reification variables. */
  datatype Assignment = Assignment(
    unloadRack: map<string, string>,
    getRack: map<string, string>,
    unloadRs: map<string, int>,
    getRs: map<string, int>,
    swapJig: seq<string>,
    swapRack2: seq<string>,
    swapRs: seq<int>,
    numUsed: int,
    flags: map<string, bool>)

  function Flag(asg: Assignment, v: string): bool
  {
    v in asg.flags && asg.flags[v]
  }

  /** No put-down variable (unload leg, get leg or swap target) is `r`;
      whether the put-down is actually carried out is not considered. */
  predicate NoPutDownOn(asg: Assignment, r: string)
  {
    (forall j :: j in asg.unloadRack ==> asg.unloadRack[j] != r)
    && (forall j :: j in asg.getRack ==> asg.getRack[j] != r)
    && (forall i :: 0 <= i < |asg.swapRack2| ==> asg.swapRack2[i] != r)
  }

  /** Every rack-size term of a size bound holds: the initial rack's size,
      the unload and get legs' rack sizes when those legs exist, and the
      target rack size of every swap slot whose jig is `j`. */
  predicate SizeTerms(asg: Assignment, j: string, bound: int, initialSize: Option<int>, viaUnload: bool, viaGet: bool)
  {
    (initialSize.Some? ==> initialSize.value <= bound)
    && (viaUnload ==> j in asg.unloadRs && asg.unloadRs[j] <= bound)
    && (viaGet ==> j in asg.getRs && asg.getRs[j] <= bound)
    && (forall i :: 0 <= i < |asg.swapJig| ==> asg.swapJig[i] != j || (i < |asg.swapRs| && asg.swapRs[i] <= bound))
  }

  predicate Holds(asg: Assignment, c: Constraint)
  {
    match c
    case RackEmptyDef(v, r, init) => Flag(asg, v) == (init && NoPutDownOn(asg, r))
    case AtLeastOneDef(v, members) => Flag(asg, v) == exists i :: 0 <= i < |members| && Flag(asg, members[i])
    case SizeLeqDef(v, j, bound, initialSize, viaUnload, viaGet) =>
      Flag(asg, v) == SizeTerms(asg, j, bound, initialSize, viaUnload, viaGet)
    case SwapsLeqDef(v, bound) => Flag(asg, v) == (asg.numUsed <= bound)
  }

  /** The assignment satisfies every constraint of the network. */
  predicate Models(asg: Assignment, net: Net)
  {
    forall i :: 0 <= i < |net.constraints| ==> Holds(asg, net.constraints[i])
  }

  /** `net'` is `net` with possibly more variables and more constraints
      appended. */
  predicate Extends(net: Net, net': Net)
  {
    net.vars <= net'.vars && |net.constraints| <= |net'.constraints|
    && net'.constraints[..|net.constraints|] == net.constraints
  }

  // ---------------------------------------------------------------------
  // Variable names
  // ---------------------------------------------------------------------

  function RackVarName(r: string): string
  {
    r + "_always_empty"
  }

  const AtLeastOneName := "at_least_one_rack_always_empty"

  function SizeVarName(j: string): string
  {
    j + "_always_placed_on_rack_shorter_or_same_size_as"
  }

  function Digit(d: int): char
    requires 0 <= d < 10
  {
    "0123456789"[d]
  }

  /** Decimal digits of a natural number, as Python's `str` writes them. */
  function Decimal(n: nat): string
  {
    if n < 10 then [Digit(n)] else Decimal(n / 10) + [Digit(n % 10)]
  }

  function IntToString(v: int): string
  {
    if v < 0 then "-" + Decimal(-v) else Decimal(v)
  }

  function SwapsVarName(v: int): string
  {
    "num_swaps_used_leq_" + IntToString(v)
  }

  // ---------------------------------------------------------------------
  // Reifiers
  // ---------------------------------------------------------------------

  /** The rack starts with its free space equal to its size. */
  predicate InitiallyEmpty(enc: Encoder, r: string)
  {
    r in enc.initial.freeSpace && r in enc.initial.rackSize
    && enc.initial.freeSpace[r] == enc.initial.rackSize[r]
  }

  /** Adds a fresh boolean variable with its defining constraint, or returns
      the cached one. */
  function Cached(net: Net, name: string, def: Constraint): (r: (Net, string))
    ensures r.1 == name && name in r.0.vars && Extends(net, r.0)
    ensures name in net.vars ==> r.0 == net
    ensures name !in net.vars ==> r.0 == Net(net.vars + {name}, net.constraints + [def])
  {
    if name in net.vars then (net, name)
    else (Net(net.vars + {name}, net.constraints + [def]), name)
  }

  /** `rack_always_empty(r)`: true exactly when the rack starts empty and no
      put-down variable selects it. A name that is not a rack aborts with a
      missing key, even when the variable is cached, since the rack's
      initial values are read first. */
  function ReifyRackEmpty(enc: Encoder, net: Net, r: string): (res: Result<(Net, string)>)
    ensures res.Ok? <==> r in enc.racks && r in enc.initial.freeSpace && r in enc.initial.rackSize
    ensures res.Ok? ==> res.value.1 == RackVarName(r) && RackVarName(r) in res.value.0.vars && Extends(net, res.value.0)
  {
    if r !in enc.racks || r !in enc.initial.freeSpace || r !in enc.initial.rackSize then Err(MissingKey)
    else Ok(Cached(net, RackVarName(r), RackEmptyDef(RackVarName(r), r, InitiallyEmpty(enc, r))))
  }

  /** Reifies `rack_always_empty` for each rack in turn, collecting the
      variables. */
  function ReifyRacks(enc: Encoder, net: Net, racks: seq<string>): (res: Result<(Net, seq<string>)>)
    ensures res.Ok? ==> |res.value.1| == |racks| && Extends(net, res.value.0)
    ensures res.Ok? ==> forall k :: 0 <= k < |racks| ==> res.value.1[k] == RackVarName(racks[k])
    decreases |racks|
  {
    if |racks| == 0 then Ok((net, []))
    else
      var first :- ReifyRackEmpty(enc, net, racks[0]);
      var rest :- ReifyRacks(enc, first.0, racks[1..]);
      Ok((rest.0, [first.1] + rest.1))
  }

  /** `at_least_one_rack_always_empty`: the disjunction of every rack's
      `rack_always_empty` variable. The variable is added before the racks
      are reified, so a rack whose own variable name coincides with it gets
      this variable back. */
  function ReifyAtLeastOne(enc: Encoder, net: Net): (res: Result<(Net, string)>)
    ensures res.Ok? ==> res.value.1 == AtLeastOneName && AtLeastOneName in res.value.0.vars && Extends(net, res.value.0)
    ensures AtLeastOneName in net.vars ==> res == Ok((net, AtLeastOneName))
  {
    if AtLeastOneName in net.vars then Ok((net, AtLeastOneName))
    else
      var net1 := Net(net.vars + {AtLeastOneName}, net.constraints);
      var reified :- ReifyRacks(enc, net1, enc.racks);
      var net2 := reified.0;
      Ok((Net(net2.vars, net2.constraints + [AtLeastOneDef(AtLeastOneName, reified.1)]), AtLeastOneName))
  }

  /** The initial rack-size term of a size bound: the size of the rack the
      jig initially sits on, when it sits on a rack whose size is set. */
  function InitialRackSize(enc: Encoder, j: string): Option<int>
  {
    if j in enc.initial.at && enc.initial.at[j].OnRack? && enc.initial.at[j].rack in enc.racks
       && enc.initial.at[j].rack in enc.initial.rackSize
    then Some(enc.initial.rackSize[enc.initial.at[j].rack])
    else None
  }

  /** `jig_always_placed_on_rack_shorter_or_same_size_as(j, bound)`. The cache
      key ignores the bound. A jig that is not declared aborts with a missing
      key, and a jig with no term besides the swap slots' (not initially on
      a rack, never unloaded, never got) fails the encoder's assertion. */
  function ReifySizeLeq(enc: Encoder, net: Net, j: string, bound: int): (res: Result<(Net, string)>)
    ensures res.Ok? ==> res.value.1 == SizeVarName(j) && SizeVarName(j) in res.value.0.vars && Extends(net, res.value.0)
    ensures SizeVarName(j) in net.vars ==> res == Ok((net, SizeVarName(j)))
  {
    var name := SizeVarName(j);
    if name in net.vars then Ok((net, name))
    else if j !in enc.jigs then Err(MissingKey)
    else
      var initialSize := InitialRackSize(enc, j);
      var viaUnload := j in enc.unloadJigs;
      var viaGet := j in enc.getJigs;
      if initialSize.None? && !viaUnload && !viaGet then Err(FailedAssertion)
      else Ok(Cached(net, name, SizeLeqDef(name, j, bound, initialSize, viaUnload, viaGet)))
  }

  /** `num_swaps_used_leq(val)`: the number of used swap slots is at most `val`. */
  function ReifySwapsLeq(net: Net, val: int): (res: (Net, string))
    ensures res.1 == SwapsVarName(val) && SwapsVarName(val) in res.0.vars && Extends(net, res.0)
  {
    Cached(net, SwapsVarName(val), SwapsLeqDef(SwapsVarName(val), val))
  }
}

=== FILE: reify_facts.dfy ===
/** Properties of the reifiers: caching, the meaning of each fresh variable
    in every solution of the network, and the corner cases of the cache. */
module ReifyFacts {
  import opened Basics
  import opened World
  import opened Reify

  lemma ModelsHolds(asg: Assignment, net: Net, c: Constraint)
    requires Models(asg, net) && c in net.constraints
    ensures Holds(asg, c)
  {
    var i :| 0 <= i < |net.constraints| && net.constraints[i] == c;
  }

  /** A solution of an extended network is a solution of the original one. */
  lemma ModelsExtends(asg: Assignment, net: Net, net': Net)
    requires Extends(net, net') && Models(asg, net')
    ensures Models(asg, net)
  {
    forall i | 0 <= i < |net.constraints|
      ensures Holds(asg, net.constraints[i])
    {
      assert net.constraints[i] == net'.constraints[i];
    }
  }

  lemma ExtendsKeeps(net: Net, net': Net, c: Constraint)
    requires Extends(net, net') && c in net.constraints
    ensures c in net'.constraints
  {
    var i :| 0 <= i < |net.constraints| && net.constraints[i] == c;
    assert net'.constraints[i] == c;
  }

  lemma SuffixCancel(a: string, b: string, s: string)
    requires a + s == b + s
    ensures a == b
  {
    assert |a| == |b|;
    assert a == (a + s)[..|a|];
    assert b == (b + s)[..|b|];
  }

  // ---------------------------------------------------------------------
  // rack_always_empty
  // ---------------------------------------------------------------------

  /** Different racks get different variables. */
  lemma RackVarNameInjective(r1: string, r2: string)
    ensures RackVarName(r1) == RackVarName(r2) <==> r1 == r2
  {
    if RackVarName(r1) == RackVarName(r2) {
      SuffixCancel(r1, r2, "_always_empty");
    }
  }

  /** The only rack whose variable name is the at-least-one variable's name. */
  lemma RackVarNameClash(r: string)
    ensures RackVarName(r) == AtLeastOneName <==> r == "at_least_one_rack"
  {
    assert AtLeastOneName == RackVarName("at_least_one_rack");
    RackVarNameInjective(r, "at_least_one_rack");
  }

  /** A second call returns the cached variable and leaves the network as it is. */
  lemma RackEmptyMemo(enc: Encoder, net: Net, r: string)
    requires ReifyRackEmpty(enc, net, r).Ok?
    ensures var (net1, v) := ReifyRackEmpty(enc, net, r).value;
            ReifyRackEmpty(enc, net1, r) == Ok((net1, v))
  {
  }

  /** In every solution of the network the fresh variable is true exactly when
      the rack starts empty and no put-down variable selects it. */
  lemma RackEmptyMeaning(enc: Encoder, net: Net, r: string, asg: Assignment)
    requires RackVarName(r) !in net.vars
    requires ReifyRackEmpty(enc, net, r).Ok?
    requires Models(asg, ReifyRackEmpty(enc, net, r).value.0)
    ensures var v := ReifyRackEmpty(enc, net, r).value.1;
            Flag(asg, v) <==> (enc.initial.freeSpace[r] == enc.initial.rackSize[r] && NoPutDownOn(asg, r))
  {
    var net1 := ReifyRackEmpty(enc, net, r).value.0;
    assert net1.constraints[|net.constraints|] == RackEmptyDef(RackVarName(r), r, InitiallyEmpty(enc, r));
  }

  /** The rack's definition is in the network. */
  predicate RackDefined(enc: Encoder, net: Net, r: string)
  {
    RackEmptyDef(RackVarName(r), r, InitiallyEmpty(enc, r)) in net.constraints
  }

  /** Every rack variable present in the network comes with its definition. */
  predicate RackDefsSound(enc: Encoder, net: Net)
  {
    forall r :: r in enc.racks && RackVarName(r) in net.vars ==> RackDefined(enc, net, r)
  }

  lemma RackDefinedExtends(enc: Encoder, net: Net, net': Net, r: string)
    requires Extends(net, net') && RackDefined(enc, net, r)
    ensures RackDefined(enc, net', r)
  {
    ExtendsKeeps(net, net', RackEmptyDef(RackVarName(r), r, InitiallyEmpty(enc, r)));
  }

  /** Reifying a rack keeps every rack variable defined, and defines its own. */
  lemma RackEmptySound(enc: Encoder, net: Net, r: string)
    requires RackDefsSound(enc, net)
    requires ReifyRackEmpty(enc, net, r).Ok?
    ensures RackDefsSound(enc, ReifyRackEmpty(enc, net, r).value.0)
    ensures RackDefined(enc, ReifyRackEmpty(enc, net, r).value.0, r)
  {
    var net1 := ReifyRackEmpty(enc, net, r).value.0;
    if RackVarName(r) !in net.vars {
      assert net1.constraints[|net.constraints|] == RackEmptyDef(RackVarName(r), r, InitiallyEmpty(enc, r));
      forall r' | r' in enc.racks && RackVarName(r') in net1.vars
        ensures RackDefined(enc, net1, r')
      {
        if RackVarName(r') in net.vars {
          RackDefinedExtends(enc, net, net1, r');
        } else {
          RackVarNameInjective(r', r);
        }
      }
    }
  }

  lemma {:induction false} RacksSound(enc: Encoder, net: Net, racks: seq<string>)
    requires RackDefsSound(enc, net)
    requires ReifyRacks(enc, net, racks).Ok?
    ensures RackDefsSound(enc, ReifyRacks(enc, net, racks).value.0)
    ensures forall k :: 0 <= k < |racks| ==> RackDefined(enc, ReifyRacks(enc, net, racks).value.0, racks[k])
    decreases |racks|
  {
    if |racks| > 0 {
      var first := ReifyRackEmpty(enc, net, racks[0]).value;
      RackEmptySound(enc, net, racks[0]);
      RacksSound(enc, first.0, racks[1..]);
      var net2 := ReifyRacks(enc, first.0, racks[1..]).value.0;
      assert ReifyRacks(enc, net, racks).value.0 == net2;
      RackDefinedExtends(enc, first.0, net2, racks[0]);
      forall k | 0 < k < |racks|
        ensures RackDefined(enc, net2, racks[k])
      {
        assert racks[k] == racks[1..][k - 1];
      }
    }
  }

  /** `ReifyRacks` fails exactly when one of the names is not a rack with
      initial values. */
  lemma {:induction false} RacksOk(enc: Encoder, net: Net, racks: seq<string>)
    ensures ReifyRacks(enc, net, racks).Ok? <==>
            forall k :: 0 <= k < |racks| ==>
              racks[k] in enc.racks && racks[k] in enc.initial.freeSpace && racks[k] in enc.initial.rackSize
    decreases |racks|
  {
    if |racks| > 0 {
      var first := ReifyRackEmpty(enc, net, racks[0]);
      if first.Ok? {
        RacksOk(enc, first.value.0, racks[1..]);
        assert forall k :: 0 < k < |racks| ==> racks[k] == racks[1..][k - 1];
      }
    }
  }

  // ---------------------------------------------------------------------
  // at_least_one_rack_always_empty
  // ---------------------------------------------------------------------

  /** The at-least-one variable succeeds exactly when every rack has its
      initial values, and a second call returns it unchanged. */
  lemma AtLeastOneOkAndMemo(enc: Encoder, net: Net)
    requires AtLeastOneName !in net.vars
    ensures ReifyAtLeastOne(enc, net).Ok? <==>
            forall k :: 0 <= k < |enc.racks| ==> enc.racks[k] in enc.initial.freeSpace && enc.racks[k] in enc.initial.rackSize
    ensures ReifyAtLeastOne(enc, net).Ok? ==>
            var (net1, v) := ReifyAtLeastOne(enc, net).value;
            ReifyAtLeastOne(enc, net1) == Ok((net1, v))
  {
    RacksOk(enc, Net(net.vars + {AtLeastOneName}, net.constraints), enc.racks);
  }

  /** When no rack is called "at_least_one_rack" and the rack variables
      already in the network are defined, the fresh at-least-one variable is
      true in a solution exactly when some rack starts empty and no put-down
      variable selects it. */
  lemma AtLeastOneMeaning(enc: Encoder, net: Net, asg: Assignment)
    requires "at_least_one_rack" !in enc.racks
    requires AtLeastOneName !in net.vars
    requires RackDefsSound(enc, net)
    requires ReifyAtLeastOne(enc, net).Ok?
    requires Models(asg, ReifyAtLeastOne(enc, net).value.0)
    ensures Flag(asg, AtLeastOneName) <==>
            exists k :: 0 <= k < |enc.racks| && InitiallyEmpty(enc, enc.racks[k]) && NoPutDownOn(asg, enc.racks[k])
  {
    var net1 := Net(net.vars + {AtLeastOneName}, net.constraints);
    forall r | r in enc.racks && RackVarName(r) in net1.vars
      ensures RackDefined(enc, net1, r)
    {
      RackVarNameClash(r);
    }
    RacksSound(enc, net1, enc.racks);
    var (net2, vs) := ReifyRacks(enc, net1, enc.racks).value;
    var net3 := ReifyAtLeastOne(enc, net).value.0;
    assert net3.constraints == net2.constraints + [AtLeastOneDef(AtLeastOneName, vs)];
    ModelsHolds(asg, net3, AtLeastOneDef(AtLeastOneName, vs));
    assert Extends(net2, net3);
    ModelsExtends(asg, net2, net3);
    forall k | 0 <= k < |enc.racks|
      ensures Flag(asg, vs[k]) == (InitiallyEmpty(enc, enc.racks[k]) && NoPutDownOn(asg, enc.racks[k]))
    {
      ModelsHolds(asg, net2, RackEmptyDef(RackVarName(enc.racks[k]), enc.racks[k], InitiallyEmpty(enc, enc.racks[k])));
    }
  }

  /** A rack named "at_least_one_rack" gets the at-least-one variable back
      from its own reification, so the disjunction mentions the variable it
      defines and no longer forces it: with that single non-empty rack, a
      solution may set the variable although no rack stays empty. */
  lemma AtLeastOneSelfReference()
    ensures var st := Blank().(freeSpace := map["at_least_one_rack" := 1], rackSize := map["at_least_one_rack" := 2]);
            var enc := Encoder(["at_least_one_rack"], {}, st, {}, {});
            var res := ReifyAtLeastOne(enc, Net({}, []));
            && res == Ok((Net({AtLeastOneName}, [AtLeastOneDef(AtLeastOneName, [AtLeastOneName])]), AtLeastOneName))
            && !InitiallyEmpty(enc, "at_least_one_rack")
            && Models(Assignment(map[], map[], map[], map[], [], [], [], 0, map[AtLeastOneName := true]), res.value.0)
  {
    var st := Blank().(freeSpace := map["at_least_one_rack" := 1], rackSize := map["at_least_one_rack" := 2]);
    var enc := Encoder(["at_least_one_rack"], {}, st, {}, {});
    var net1 := Net({AtLeastOneName}, []);
    RackVarNameClash("at_least_one_rack");
    assert ReifyRackEmpty(enc, net1, "at_least_one_rack") == Ok((net1, AtLeastOneName));
    assert ["at_least_one_rack"][1..] == [];
    assert ReifyRacks(enc, net1, []) == Ok((net1, []));
    assert [AtLeastOneName] + [] == [AtLeastOneName];
    assert ReifyRacks(enc, net1, ["at_least_one_rack"]) == Ok((net1, [AtLeastOneName]));
    assert Net({} + {AtLeastOneName}, []) == net1;
    assert [] + [AtLeastOneDef(AtLeastOneName, [AtLeastOneName])] == [AtLeastOneDef(AtLeastOneName, [AtLeastOneName])];
    var res := ReifyAtLeastOne(enc, Net({}, []));
    assert res == Ok((Net({AtLeastOneName}, [AtLeastOneDef(AtLeastOneName, [AtLeastOneName])]), AtLeastOneName));
    assert !InitiallyEmpty(enc, "at_least_one_rack");
    var asg := Assignment(map[], map[], map[], map[], [], [], [], 0, map[AtLeastOneName := true]);
    assert Flag(asg, [AtLeastOneName][0]);
    assert Holds(asg, AtLeastOneDef(AtLeastOneName, [AtLeastOneName]));
    assert Models(asg, res.value.0);
  }

  // ---------------------------------------------------------------------
  // jig_always_placed_on_rack_shorter_or_same_size_as
  // ---------------------------------------------------------------------

  /** The cache is keyed by the jig alone: once reified for one bound, the
      variable is returned unchanged for any other bound. */
  lemma SizeLeqMemo(enc: Encoder, net: Net, j: string, bound: int, bound': int)
    requires ReifySizeLeq(enc, net, j, bound).Ok?
    ensures var (net1, v) := ReifySizeLeq(enc, net, j, bound).value;
            ReifySizeLeq(enc, net1, j, bound') == Ok((net1, v))
  {
  }

  /** In every solution the fresh variable is true exactly when each rack the
      jig may be placed on has a size within the bound: the rack it starts
      on, the rack its unload leg and its get leg choose, and the target
      rack of every swap slot that moves it. */
  lemma SizeLeqMeaning(enc: Encoder, net: Net, j: string, bound: int, asg: Assignment)
    requires SizeVarName(j) !in net.vars
    requires ReifySizeLeq(enc, net, j, bound).Ok?
    requires Models(asg, ReifySizeLeq(enc, net, j, bound).value.0)
    ensures Flag(asg, SizeVarName(j)) <==>
            && ((j in enc.initial.at && enc.initial.at[j].OnRack? && enc.initial.at[j].rack in enc.racks
                 && enc.initial.at[j].rack in enc.initial.rackSize)
                ==> enc.initial.rackSize[enc.initial.at[j].rack] <= bound)
            && (j in enc.unloadJigs ==> j in asg.unloadRs && asg.unloadRs[j] <= bound)
            && (j in enc.getJigs ==> j in asg.getRs && asg.getRs[j] <= bound)
            && (forall i :: 0 <= i < |asg.swapJig| && asg.swapJig[i] == j ==> i < |asg.swapRs| && asg.swapRs[i] <= bound)
  {
    var net1 := ReifySizeLeq(enc, net, j, bound).value.0;
    var def := SizeLeqDef(SizeVarName(j), j, bound, InitialRackSize(enc, j), j in enc.unloadJigs, j in enc.getJigs);
    assert net1.constraints[|net.constraints|] == def;
  }

  /** A fresh size bound aborts exactly when the jig is not declared, or is
      neither initially on a rack nor unloaded nor delivered to a line. */
  lemma SizeLeqFails(enc: Encoder, net: Net, j: string, bound: int)
    requires SizeVarName(j) !in net.vars
    ensures ReifySizeLeq(enc, net, j, bound) == Err(MissingKey) <==> j !in enc.jigs
    ensures ReifySizeLeq(enc, net, j, bound) == Err(FailedAssertion) <==>
            j in enc.jigs && !(j in enc.initial.at && enc.initial.at[j].OnRack? && enc.initial.at[j].rack in enc.racks
                               && enc.initial.at[j].rack in enc.initial.rackSize)
            && j !in enc.unloadJigs && j !in enc.getJigs
  {
  }

  // ---------------------------------------------------------------------
  // num_swaps_used_leq
  // ---------------------------------------------------------------------

  /** A second call with the same bound returns the cached variable. */
  lemma SwapsLeqMemo(net: Net, val: int)
    ensures var (net1, v) := ReifySwapsLeq(net, val);
            ReifySwapsLeq(net1, val) == (net1, v)
  {
  }

  /** In every solution the fresh variable is true exactly when at most
      `val` swap slots are used. */
  lemma SwapsLeqMeaning(net: Net, val: int, asg: Assignment)
    requires SwapsVarName(val) !in net.vars
    requires Models(asg, ReifySwapsLeq(net, val).0)
    ensures Flag(asg, SwapsVarName(val)) <==> asg.numUsed <= val
  {
    var net1 := ReifySwapsLeq(net, val).0;
    assert net1.constraints[|net.constraints|] == SwapsLeqDef(SwapsVarName(val), val);
  }

  lemma {:induction false} DecimalShape(n: nat)
    ensures |Decimal(n)| >= 1 && Decimal(n)[0] != '-'
    ensures n >= 10 ==> |Decimal(n)| >= 2
    decreases n
  {
    if n >= 10 {
      DecimalShape(n / 10);
    }
  }

  lemma {:induction false} DecimalInjective(a: nat, b: nat)
    requires Decimal(a) == Decimal(b)
    ensures a == b
    decreases a
  {
    DecimalShape(a);
    DecimalShape(b);
    if a >= 10 && b >= 10 {
      var da, db := Decimal(a), Decimal(b);
      assert da[|da| - 1] == Digit(a % 10) && db[|db| - 1] == Digit(b % 10);
      assert Decimal(a / 10) == da[..|da| - 1] == db[..|db| - 1] == Decimal(b / 10);
      DecimalInjective(a / 10, b / 10);
    }
  }

  lemma PrefixCancel(p: string, a: string, b: string)
    requires p + a == p + b
    ensures a == b
  {
    assert a == (p + a)[|p|..];
    assert b == (p + b)[|p|..];
  }

  lemma IntToStringInjective(v1: int, v2: int)
    requires IntToString(v1) == IntToString(v2)
    ensures v1 == v2
  {
    if v1 < 0 && v2 < 0 {
      PrefixCancel("-", Decimal(-v1), Decimal(-v2));
      DecimalInjective(-v1, -v2);
    } else if v1 >= 0 && v2 >= 0 {
      DecimalInjective(v1, v2);
    } else if v1 < 0 {
      DecimalShape(v2);
    } else {
      DecimalShape(v1);
    }
  }

  /** Different bounds get different variables, so unlike the size bound the
      cache never answers one bound with another's variable. */
  lemma SwapsVarNameInjective(v1: int, v2: int)
    requires SwapsVarName(v1) == SwapsVarName(v2)
    ensures v1 == v2
  {
    PrefixCancel("num_swaps_used_leq_", IntToString(v1), IntToString(v2));
    IntToStringInjective(v1, v2);
  }
}

=== FILE: world.dfy ===
/** The logistics state machine of the planning encoder: the fluents of the
    planning problem as a world state, the initial state built from a
    problem instance, and the seven action schemas as partial transitions.

    Effects follow the planning library's semantics: every right-hand side
    is evaluated in the state before the action, so a put-down sets the
    jig's position from the rack's `next` counter as it was before the
    same action decremented it.
 */
module World {
  import opened Basics
  import opened Domain

  /** Values of the `at` fluent: the part location holding a jig. */
  datatype Loc = OnRack(rack: string) | OnFlight(flight: string) | InHangar(hangar: string) | OnTrailer(trailer: string)

  /** Lower and upper bound of the bounded integer fluents (free space,
      sizes) and of the integer action parameters. */
  const Bound := 1000

  /** One valuation of all fluents. `next` defaults to 0 and `available`
      defaults to true, as declared; the other fluents are partial until
      the initial state sets them. */
  datatype State = State(
    jigSize: map<string, int>,
    jigSizeEmpty: map<string, int>,
    jigEmpty: map<string, bool>,
    freeSpace: map<string, int>,
    rackSize: map<string, int>,
    current: Option<string>,
    nextFlight: map<string, string>,
    hangarFree: map<string, bool>,
    unavailable: set<string>,
    trailerSide: map<string, Side>,
    at: map<string, Loc>,
    next: map<(string, Side), int>,
    pos: map<(string, Side), int>)

  /** The `next(r, s)` fluent with its default. */
  function Next(st: State, r: string, s: Side): int
  {
    if (r, s) in st.next then st.next[(r, s)] else 0
  }

  /** Two maps agree on one key: both lack it, or both hold the same value. */
  predicate Agree<K, V(==)>(m1: map<K, V>, m2: map<K, V>, k: K)
  {
    (k in m1 <==> k in m2) && (k in m1 ==> m1[k] == m2[k])
  }

  predicate Available(st: State, t: string)
  {
    t !in st.unavailable
  }

  /** The size a jig occupies: its type's empty or loaded size. */
  function JigSizeOf(types: seq<JigType>, j: Jig): (r: Result<int>)
    ensures r.Ok? <==> FindJigType(types, j.typeName).Some?
    ensures r.Ok? ==> r.value == (if j.empty then FindJigType(types, j.typeName).value.sizeEmpty
                                  else FindJigType(types, j.typeName).value.sizeLoaded)
  {
    match FindJigType(types, j.typeName)
    case None => Err(MissingKey)
    case Some(tp) => Ok(if j.empty then tp.sizeEmpty else tp.sizeLoaded)
  }

  /** The initial state before any fluent is set. */
  function Blank(): State
  {
    State(map[], map[], map[], map[], map[], None, map[], map[], {}, map[], map[], map[], map[])
  }

  /** Size fluents of every declared jig, in declaration order. */
  function SeedJigs(types: seq<JigType>, jigs: seq<Jig>, st: State): (r: Result<State>)
    ensures r.Ok? <==> forall i :: 0 <= i < |jigs| ==> FindJigType(types, jigs[i].typeName).Some?
    ensures r.Ok? ==> r.value == st.(jigSize := r.value.jigSize, jigSizeEmpty := r.value.jigSizeEmpty, jigEmpty := r.value.jigEmpty)
    decreases |jigs|
  {
    if |jigs| == 0 then Ok(st)
    else
      var j := jigs[0];
      match FindJigType(types, j.typeName)
      case None => Err(MissingKey)
      case Some(tp) =>
        SeedJigs(types, jigs[1..], SeedJig(st, j, tp))
  }

  /** Size fluents of one jig of type `tp`. */
  function SeedJig(st: State, j: Jig, tp: JigType): State
  {
    st.(jigSize := st.jigSize[j.name := if j.empty then tp.sizeEmpty else tp.sizeLoaded],
        jigSizeEmpty := st.jigSizeEmpty[j.name := tp.sizeEmpty],
        jigEmpty := st.jigEmpty[j.name := j.empty])
  }

  /** Current flight and the `next_beluga` chain, in input order. */
  function ChainFlights(flights: seq<Flight>, st: State): (r: State)
    ensures |flights| > 0 ==> r.current == Some(flights[0].name)
    ensures |flights| == 0 ==> r.current == st.current
    ensures r == st.(current := r.current, nextFlight := r.nextFlight)
  {
    if |flights| == 0 then st
    else ChainFrom(flights, 1, st.(current := Some(flights[0].name)))
  }

  function ChainFrom(flights: seq<Flight>, i: nat, st: State): (r: State)
    requires 1 <= i <= |flights|
    ensures r == st.(nextFlight := r.nextFlight)
    decreases |flights| - i
  {
    if i == |flights| then st
    else ChainFrom(flights, i + 1, st.(nextFlight := st.nextFlight[flights[i - 1].name := flights[i].name]))
  }

  function FreeHangars(hangars: seq<string>, st: State): (r: State)
    ensures r == st.(hangarFree := r.hangarFree)
    ensures forall h :: h in st.hangarFree && st.hangarFree[h] ==> h in r.hangarFree && r.hangarFree[h]
    ensures forall i :: 0 <= i < |hangars| ==> hangars[i] in r.hangarFree && r.hangarFree[hangars[i]]
    ensures forall h :: h !in hangars ==> Agree(r.hangarFree, st.hangarFree, h)
  {
    if |hangars| == 0 then st
    else FreeHangars(hangars[1..], st.(hangarFree := st.hangarFree[hangars[0] := true]))
  }

  function SideTrailers(trailers: seq<string>, s: Side, st: State): (r: State)
    ensures r == st.(trailerSide := r.trailerSide)
    ensures forall x :: x in st.trailerSide && st.trailerSide[x] == s ==> x in r.trailerSide && r.trailerSide[x] == s
    ensures forall i :: 0 <= i < |trailers| ==> trailers[i] in r.trailerSide && r.trailerSide[trailers[i]] == s
    ensures forall x :: x !in trailers ==> Agree(r.trailerSide, st.trailerSide, x)
  {
    if |trailers| == 0 then st
    else SideTrailers(trailers[1..], s, st.(trailerSide := st.trailerSide[trailers[0] := s]))
  }

  /** Place the jigs `names[k..]` of rack `r`: the k-th jig gets position k
      on the aircraft side and -k on the production side. Returns the state
      and the space occupied by `names[k..]`. */
  function PlaceRackJigs(pb: ProblemDef, r: string, names: seq<string>, k: nat, st: State): (res: Result<(State, int)>)
    requires k <= |names|
    ensures res.Ok? <==> forall m :: k <= m < |names| ==>
                           FindJig(pb.jigs, names[m]).Some?
                           && FindJigType(pb.jigTypes, FindJig(pb.jigs, names[m]).value.typeName).Some?
    ensures res.Err? ==> res.fault == MissingKey
    ensures res.Ok? ==> res.value.0 == st.(pos := res.value.0.pos, at := res.value.0.at)
    decreases |names| - k
  {
    if k == |names| then Ok((st, 0))
    else
      match FindJig(pb.jigs, names[k])
      case None => Err(MissingKey)
      case Some(jig) =>
        var size :- JigSizeOf(pb.jigTypes, jig);
        var st' := st.(pos := st.pos[(names[k], AircraftSide) := k][(names[k], ProductionSide) := -(k as int)],
                       at := st.at[names[k] := OnRack(r)]);
        var rest :- PlaceRackJigs(pb, r, names, k + 1, st');
        Ok((rest.0, size + rest.1))
  }

  /** Seeds one rack: places its jigs, then sets its free space to its size
      less the space they occupy, its size, and its production-side counter. */
  function SeedRack(pb: ProblemDef, rack: Rack, st: State): (r: Result<State>)
    ensures r.Ok? <==> PlaceRackJigs(pb, rack.name, rack.jigs, 0, st).Ok?
    ensures r.Ok? ==> r.value == st.(freeSpace := r.value.freeSpace, rackSize := r.value.rackSize,
                                     next := r.value.next, pos := r.value.pos, at := r.value.at)
  {
    var placed :- PlaceRackJigs(pb, rack.name, rack.jigs, 0, st);
    Ok(placed.0.(freeSpace := placed.0.freeSpace[rack.name := rack.size - placed.1],
                 next := placed.0.next[(rack.name, ProductionSide) := -|rack.jigs| + 1],
                 rackSize := placed.0.rackSize[rack.name := rack.size]))
  }

  function SeedRacks(pb: ProblemDef, racks: seq<Rack>, st: State): (r: Result<State>)
    ensures r.Ok? ==> r.value == st.(freeSpace := r.value.freeSpace, rackSize := r.value.rackSize,
                                     next := r.value.next, pos := r.value.pos, at := r.value.at)
  {
    if |racks| == 0 then Ok(st)
    else
      var st' :- SeedRack(pb, racks[0], st);
      SeedRacks(pb, racks[1..], st')
  }

  /** Jigs arriving on a flight start on that flight; this overrides any
      initial rack placement of the same jig. */
  function PlaceIncoming(jigNames: set<string>, flights: seq<Flight>, st: State): (r: Result<State>)
    ensures r.Ok? <==> forall i, k :: 0 <= i < |flights| && 0 <= k < |flights[i].incoming| ==> flights[i].incoming[k] in jigNames
    ensures r.Ok? ==> r.value == st.(at := r.value.at)
  {
    if |flights| == 0 then Ok(st)
    else
      var st' :- PlaceOnFlight(jigNames, flights[0].name, flights[0].incoming, st);
      PlaceIncoming(jigNames, flights[1..], st')
  }

  function PlaceOnFlight(jigNames: set<string>, b: string, incoming: seq<string>, st: State): (r: Result<State>)
    ensures r.Ok? <==> forall k :: 0 <= k < |incoming| ==> incoming[k] in jigNames
    ensures r.Ok? ==> r.value == st.(at := r.value.at)
  {
    if |incoming| == 0 then Ok(st)
    else if incoming[0] !in jigNames then Err(MissingKey)
    else PlaceOnFlight(jigNames, b, incoming[1..], st.(at := st.at[incoming[0] := OnFlight(b)]))
  }

  function JigNames(jigs: seq<Jig>): set<string>
  {
    set i | 0 <= i < |jigs| :: jigs[i].name
  }

  /** The initial state, set in the encoder's order: jig sizes, flights,
      hangars, trailers, racks, then incoming jigs. A jig or jig type that
      is not declared aborts with a missing key. */
  function Initial(pb: ProblemDef): Result<State>
  {
    var st1 :- SeedJigs(pb.jigTypes, pb.jigs, Blank());
    var st2 := ChainFlights(pb.flights, st1);
    var st3 := FreeHangars(pb.hangars, st2);
    var st4 := SideTrailers(pb.trailersFactory, ProductionSide, SideTrailers(pb.trailersBeluga, AircraftSide, st3));
    var st5 :- SeedRacks(pb, pb.racks, st4);
    PlaceIncoming(JigNames(pb.jigs), pb.flights, st5)
  }

  /** A grounded action. `PutDown` carries the opposite side `os`, the rack
      size `rs` and the delay `d` as parameters, `PickUp` carries `os`, and
      `Deliver` carries its production line, which no precondition reads. */
  datatype Op =
    | Unload(j: string, b: string, t: string)
    | Load(j: string, b: string, t: string)
    | PutDown(j: string, t: string, r: string, s: Side, os: Side, rs: int, d: int)
    | PickUp(j: string, t: string, r: string, s: Side, os: Side)
    | Deliver(j: string, h: string, t: string, pl: string)
    | Get(j: string, h: string, t: string)
    | Proceed(b: string)

  /** Trailer `t` on side `s`, free, takes jig `j`. */
  predicate CanTake(st: State, t: string, s: Side)
  {
    t in st.trailerSide && st.trailerSide[t] == s && Available(st, t)
  }

  /** Trailer `t` on side `s`, occupied, holds jig `j`. */
  predicate CanGive(st: State, j: string, t: string, s: Side)
  {
    t in st.trailerSide && st.trailerSide[t] == s && !Available(st, t)
    && j in st.at && st.at[j] == OnTrailer(t)
  }

  function Take(st: State, j: string, t: string): State
  {
    st.(unavailable := st.unavailable + {t}, at := st.at[j := OnTrailer(t)])
  }

  function Release(st: State, t: string): State
  {
    st.(unavailable := st.unavailable - {t})
  }

  predicate InBounds(x: int)
  {
    0 <= x <= Bound
  }

  /** The put-down effects on the two position values. With `os == s` the
      two assignments target the same fluent; they conflict unless they
      assign the same value, and a plan with conflicting effects is
      rejected. */
  function PlacePositions(st: State, j: string, r: string, s: Side, os: Side): Option<map<(string, Side), int>>
  {
    var n := Next(st, r, s);
    if os == s && n - 1 != -n + 1 then None
    else Some(st.pos[(j, s) := n - 1][(j, os) := -n + 1])
  }

  /** Applying an action: `None` when a precondition fails, a fluent it
      reads is undefined, or a bounded fluent would leave its range. */
  function Apply(st: State, op: Op): Option<State>
  {
    match op
    case Unload(j, b, t) =>
      if CanTake(st, t, AircraftSide) && j in st.at && st.at[j] == OnFlight(b)
      then Some(Take(st, j, t)) else None
    case Load(j, b, t) =>
      if CanGive(st, j, t, AircraftSide) && j in st.jigEmpty && st.jigEmpty[j]
      then Some(Release(st, t).(at := st.at[j := OnFlight(b)])) else None
    case PutDown(j, t, r, s, os, rs, d) =>
      if CanGive(st, j, t, s) && r in st.rackSize && st.rackSize[r] == rs && InBounds(rs) && InBounds(d)
         && r in st.freeSpace && j in st.jigSize && InBounds(st.freeSpace[r] - st.jigSize[j])
      then
        match PlacePositions(st, j, r, s, os)
        case None => None
        case Some(pos') =>
          Some(Release(st, t).(freeSpace := st.freeSpace[r := st.freeSpace[r] - st.jigSize[j]],
                               next := st.next[(r, s) := Next(st, r, s) - 1],
                               pos := pos',
                               at := st.at[j := OnRack(r)]))
      else None
    case PickUp(j, t, r, s, os) =>
      if j in st.at && st.at[j] == OnRack(r) && (j, s) in st.pos && Next(st, r, s) == st.pos[(j, s)]
         && CanTake(st, t, s) && r in st.freeSpace && j in st.jigSize && InBounds(st.freeSpace[r] + st.jigSize[j])
      then Some(Take(st, j, t).(freeSpace := st.freeSpace[r := st.freeSpace[r] + st.jigSize[j]],
                                next := st.next[(r, s) := Next(st, r, s) + 1]))
      else None
    case Deliver(j, h, t, pl) =>
      if CanGive(st, j, t, ProductionSide) && h in st.hangarFree && st.hangarFree[h] && j in st.jigSizeEmpty
      then Some(Release(st, t).(hangarFree := st.hangarFree[h := false],
                                at := st.at[j := InHangar(h)],
                                jigSize := st.jigSize[j := st.jigSizeEmpty[j]],
                                jigEmpty := st.jigEmpty[j := true]))
      else None
    case Get(j, h, t) =>
      if CanTake(st, t, ProductionSide) && j in st.at && st.at[j] == InHangar(h) && h in st.hangarFree
      then Some(Take(st, j, t).(hangarFree := st.hangarFree[h := true])) else None
    case Proceed(b) =>
      if st.current.Some? && st.current.value in st.nextFlight && st.nextFlight[st.current.value] == b
      then Some(st.(current := Some(b))) else None
  }

  /** Applying a sequence of actions in order. */
  function ApplyAll(st: State, ops: seq<Op>): Option<State>
    decreases |ops|
  {
    if |ops| == 0 then Some(st)
    else match Apply(st, ops[0])
      case None => None
      case Some(st') => ApplyAll(st', ops[1..])
  }
}

=== FILE: world_facts.dfy ===
/** Facts about the logistics state machine: what each action does to the
    rack counters, which action undoes which, the invariant tying a racked
    jig's two positions together, and the layout of the initial state. */
module WorldFacts {
  import opened Basics
  import opened Domain
  import opened World

  // ---------------------------------------------------------------------
  // Rack transfers
  // ---------------------------------------------------------------------

  /** A put-down towards side `s`, with `os` its opposite side, moves the jig
      from a trailer on side `s` onto the rack: the rack loses the jig's size
      in free space, `next(r, s)` drops by one, the jig's two positions are
      the old `next - 1` and its negation, and the trailer is free again. */
  lemma PutDownEffects(st: State, j: string, t: string, r: string, s: Side, rs: int, d: int, st': State)
    requires Apply(st, PutDown(j, t, r, s, Opposite(s), rs, d)) == Some(st')
    ensures t in st.trailerSide && st.trailerSide[t] == s && !Available(st, t)
    ensures j in st.at && st.at[j] == OnTrailer(t)
    ensures r in st.rackSize && st.rackSize[r] == rs
    ensures j in st.jigSize && r in st.freeSpace && r in st'.freeSpace
    ensures st'.freeSpace[r] == st.freeSpace[r] - st.jigSize[j] && 0 <= st'.freeSpace[r] <= Bound
    ensures Next(st', r, s) == Next(st, r, s) - 1
    ensures Next(st', r, Opposite(s)) == Next(st, r, Opposite(s))
    ensures (j, s) in st'.pos && (j, Opposite(s)) in st'.pos
    ensures st'.pos[(j, s)] == Next(st, r, s) - 1
    ensures st'.pos[(j, s)] + st'.pos[(j, Opposite(s))] == 0
    ensures st'.at[j] == OnRack(r) && Available(st', t)
  {
  }

  /** A put-down followed by a pick-up of the same jig, by the same trailer,
      from the same rack side: the pick-up is enabled, and free space,
      every `next` counter, every jig location and trailer availability are
      as before the put-down. */
  lemma PutDownThenPickUp(st: State, j: string, t: string, r: string, s: Side, os: Side, rs: int, d: int, os': Side, st1: State)
    requires Apply(st, PutDown(j, t, r, s, os, rs, d)) == Some(st1) && FreeSpaceInRange(st)
    ensures Apply(st1, PickUp(j, t, r, s, os')).Some?
    ensures var st2 := Apply(st1, PickUp(j, t, r, s, os')).value;
            st2.freeSpace == st.freeSpace && st2.at == st.at && st2.unavailable == st.unavailable
            && (forall r', s' :: Next(st2, r', s') == Next(st, r', s'))
  {
    assert Apply(st1, PickUp(j, t, r, s, os')).Some?;
    var st2 := Apply(st1, PickUp(j, t, r, s, os')).value;
    assert st2.freeSpace == st.freeSpace[r := st.freeSpace[r] - st.jigSize[j] + st.jigSize[j]];
    assert st2.at == st.at[j := OnRack(r)][j := OnTrailer(t)];
    assert st2.unavailable == st.unavailable - {t} + {t};
  }

  /** The converse round trip: a pick-up followed by a put-down of the same
      jig, by the same trailer, back onto the same rack side. The put-down is
      enabled, restores free space, counters, locations and availability,
      and gives the jig back the position it had. */
  lemma PickUpThenPutDown(st: State, j: string, t: string, r: string, s: Side, os: Side, d: int, st1: State)
    requires Apply(st, PickUp(j, t, r, s, os)) == Some(st1) && FreeSpaceInRange(st)
    requires r in st.rackSize && 0 <= st.rackSize[r] <= Bound && 0 <= d <= Bound
    ensures Apply(st1, PutDown(j, t, r, s, Opposite(s), st.rackSize[r], d)).Some?
    ensures var st2 := Apply(st1, PutDown(j, t, r, s, Opposite(s), st.rackSize[r], d)).value;
            st2.freeSpace == st.freeSpace && st2.at == st.at && st2.unavailable == st.unavailable
            && (forall r', s' :: Next(st2, r', s') == Next(st, r', s'))
            && st2.pos[(j, s)] == st.pos[(j, s)]
  {
    assert Apply(st1, PutDown(j, t, r, s, Opposite(s), st.rackSize[r], d)).Some?;
    var st2 := Apply(st1, PutDown(j, t, r, s, Opposite(s), st.rackSize[r], d)).value;
    assert st2.freeSpace == st.freeSpace[r := st.freeSpace[r] + st.jigSize[j] - st.jigSize[j]];
    assert st2.at == st.at[j := OnTrailer(t)][j := OnRack(r)];
    assert st2.unavailable == st.unavailable + {t} - {t};
  }

  /** A jig sitting on a rack has both positions set, negatives of each other. */
  predicate Balanced(st: State)
  {
    forall j :: j in st.at && st.at[j].OnRack? ==>
      (j, AircraftSide) in st.pos && (j, ProductionSide) in st.pos
      && st.pos[(j, AircraftSide)] + st.pos[(j, ProductionSide)] == 0
  }

  /** A put-down whose `os` is the opposite of its side `s`. The rack-swap
      method of the encoder (model.py:684-701) takes its opposite side as
      a free parameter of its own, so a put-down inside a swap need not be
      well-sided, and `ApplyBalanced` says nothing about one that is not. */
  predicate WellSided(op: Op)
  {
    op.PutDown? ==> op.os == Opposite(op.s)
  }

  /** Every well-sided action keeps racked jigs balanced. */
  lemma ApplyBalanced(st: State, op: Op, st': State)
    requires Balanced(st) && WellSided(op) && Apply(st, op) == Some(st')
    ensures Balanced(st')
  {
    if op.PutDown? {
      PutDownEffects(st, op.j, op.t, op.r, op.s, op.rs, op.d, st');
      assert op.s == AircraftSide || op.s == ProductionSide;
    }
  }

  lemma {:induction false} ApplyAllBalanced(st: State, ops: seq<Op>, st': State)
    requires Balanced(st) && ApplyAll(st, ops) == Some(st')
    requires forall i :: 0 <= i < |ops| ==> WellSided(ops[i])
    ensures Balanced(st')
    decreases |ops|
  {
    if |ops| > 0 {
      var st1 := Apply(st, ops[0]).value;
      ApplyBalanced(st, ops[0], st1);
      ApplyAllBalanced(st1, ops[1..], st');
    }
  }

  /** Every free-space value lies within the fluent's declared range. */
  predicate FreeSpaceInRange(st: State)
  {
    forall r :: r in st.freeSpace ==> 0 <= st.freeSpace[r] <= Bound
  }

  /** An action changes free space only where it stays in range. */
  lemma ApplyFreeSpace(st: State, op: Op, st': State)
    requires FreeSpaceInRange(st) && Apply(st, op) == Some(st')
    ensures FreeSpaceInRange(st')
  {
    match op
    case PutDown(j, t, r, s, os, rs, d) =>
    case PickUp(j, t, r, s, os) =>
    case _ => assert st'.freeSpace == st.freeSpace;
  }

  /** No sequence of actions takes a rack's free space out of range, so it
      is never negative once it starts in range. */
  lemma {:induction false} ApplyAllFreeSpace(st: State, ops: seq<Op>, st': State)
    requires FreeSpaceInRange(st) && ApplyAll(st, ops) == Some(st')
    ensures FreeSpaceInRange(st')
    decreases |ops|
  {
    if |ops| > 0 {
      var st1 := Apply(st, ops[0]).value;
      ApplyFreeSpace(st, ops[0], st1);
      ApplyAllFreeSpace(st1, ops[1..], st');
    }
  }

  // ---------------------------------------------------------------------
  // Hangars, loading, flights
  // ---------------------------------------------------------------------

  /** A delivery empties the jig into the hangar and occupies it: no other
      delivery can use that hangar, while a get by any free production-side
      trailer is enabled and frees the hangar again. */
  lemma DeliverThenGet(st: State, j: string, h: string, t: string, pl: string, st1: State, j': string, t': string, pl': string, t2: string)
    requires Apply(st, Deliver(j, h, t, pl)) == Some(st1)
    requires t2 in st.trailerSide && st.trailerSide[t2] == ProductionSide && Available(st1, t2)
    ensures st1.jigEmpty[j] && st1.jigSize[j] == st.jigSizeEmpty[j] && st1.at[j] == InHangar(h)
    ensures Apply(st1, Deliver(j', h, t', pl')) == None
    ensures Apply(st1, Get(j, h, t2)).Some?
    ensures var st2 := Apply(st1, Get(j, h, t2)).value;
            st2.hangarFree == st.hangarFree && st2.at[j] == OnTrailer(t2)
  {
    var st2 := Apply(st1, Get(j, h, t2)).value;
    assert st2.hangarFree == st.hangarFree[h := false][h := true];
  }

  /** Only an empty jig can be loaded onto a flight. */
  lemma LoadNeedsEmpty(st: State, j: string, b: string, t: string)
    requires Apply(st, Load(j, b, t)).Some?
    ensures j in st.jigEmpty && st.jigEmpty[j]
  {
  }

  /** An unload puts the jig on an aircraft-side trailer and occupies it;
      loading the same jig, when it is empty, back onto the same flight from
      that trailer restores the state exactly. */
  lemma UnloadThenLoad(st: State, j: string, b: string, t: string, st1: State)
    requires Apply(st, Unload(j, b, t)) == Some(st1) && j in st.jigEmpty && st.jigEmpty[j]
    ensures j in st.at && st.at[j] == OnFlight(b) && t in st.trailerSide && st.trailerSide[t] == AircraftSide
    ensures Available(st, t) && !Available(st1, t) && st1.at[j] == OnTrailer(t)
    ensures Apply(st1, Load(j, b, t)) == Some(st)
  {
    var st2 := Apply(st1, Load(j, b, t)).value;
    assert st2.unavailable == st.unavailable;
    assert st2.at == st.at;
  }

  /** Once empty, a jig stays empty: only a delivery writes the flag, and it
      writes true. */
  lemma {:induction false} EmptyStaysEmpty(st: State, ops: seq<Op>, st': State, j: string)
    requires ApplyAll(st, ops) == Some(st') && j in st.jigEmpty && st.jigEmpty[j]
    ensures j in st'.jigEmpty && st'.jigEmpty[j]
    decreases |ops|
  {
    if |ops| > 0 {
      var st1 := Apply(st, ops[0]).value;
      ApplyKeepsEmpty(st, ops[0], st1, j);
      EmptyStaysEmpty(st1, ops[1..], st', j);
    }
  }

  lemma ApplyKeepsEmpty(st: State, op: Op, st': State, j: string)
    requires Apply(st, op) == Some(st') && j in st.jigEmpty && st.jigEmpty[j]
    ensures j in st'.jigEmpty && st'.jigEmpty[j]
  {
    match op
    case Deliver(j', h, t, pl) =>
    case _ => assert st'.jigEmpty == st.jigEmpty;
  }

  /** Proceeding to `flights[a..b]` one after another. */
  function ProceedOps(flights: seq<Flight>, a: nat, b: nat): (ops: seq<Op>)
    requires a <= b <= |flights|
    ensures |ops| == b - a && forall i :: 0 <= i < |ops| ==> ops[i] == Proceed(flights[a + i].name)
    decreases b - a
  {
    if a == b then [] else [Proceed(flights[a].name)] + ProceedOps(flights, a + 1, b)
  }

  /** The `next_beluga` links from `flights[k]` up to `flights[m]`. */
  predicate Chained(st: State, flights: seq<Flight>, k: nat, m: nat)
    requires k <= m < |flights|
  {
    forall q :: k < q <= m ==> Linked(st, flights, q)
  }

  /** `next_beluga(flights[q - 1]) == flights[q]`. */
  predicate Linked(st: State, flights: seq<Flight>, q: nat)
    requires 1 <= q < |flights|
  {
    flights[q - 1].name in st.nextFlight && st.nextFlight[flights[q - 1].name] == flights[q].name
  }

  /** Along a chain, the flights are visited in order: proceeding to each
      next flight in turn succeeds and ends at `flights[m]`. */
  lemma {:induction false} ProceedAlongChain(st: State, flights: seq<Flight>, k: nat, m: nat)
    requires k <= m < |flights| && Chained(st, flights, k, m)
    requires st.current == Some(flights[k].name)
    ensures ApplyAll(st, ProceedOps(flights, k + 1, m + 1)) == Some(st.(current := Some(flights[m].name)))
    decreases m - k
  {
    if k < m {
      var st1 := st.(current := Some(flights[k + 1].name));
      assert Linked(st, flights, k + 1);
      assert Apply(st, Proceed(flights[k + 1].name)) == Some(st1);
      forall q | k + 1 < q <= m
        ensures Linked(st1, flights, q)
      {
        assert Linked(st, flights, q);
      }
      ProceedAlongChain(st1, flights, k + 1, m);
      assert ProceedOps(flights, k + 1, m + 1)[1..] == ProceedOps(flights, k + 2, m + 1);
    }
  }

  predicate DistinctFlights(flights: seq<Flight>)
  {
    forall a, b :: 0 <= a < b < |flights| ==> flights[a].name != flights[b].name
  }

  lemma {:induction false} ChainFromLinks(flights: seq<Flight>, i: nat, st: State, q: nat)
    requires 1 <= i <= |flights| && DistinctFlights(flights)
    requires 1 <= q < |flights|
    requires q < i ==> flights[q - 1].name in st.nextFlight && st.nextFlight[flights[q - 1].name] == flights[q].name
    ensures var r := ChainFrom(flights, i, st);
            flights[q - 1].name in r.nextFlight && r.nextFlight[flights[q - 1].name] == flights[q].name
    decreases |flights| - i
  {
    if i < |flights| {
      var st' := st.(nextFlight := st.nextFlight[flights[i - 1].name := flights[i].name]);
      if q < i {
        assert flights[i - 1].name != flights[q - 1].name;
      }
      ChainFromLinks(flights, i + 1, st', q);
    }
  }

  /** Only the flight fields of the initial state come from the flight chain. */
  lemma InitialChain(pb: ProblemDef, st: State)
    requires Initial(pb) == Ok(st)
    ensures SeedJigs(pb.jigTypes, pb.jigs, Blank()).Ok?
    ensures var st2 := ChainFlights(pb.flights, SeedJigs(pb.jigTypes, pb.jigs, Blank()).value);
            st.current == st2.current && st.nextFlight == st2.nextFlight
  {
  }

  /** In the initial state the current flight is the first one and, when
      flight names are distinct, each flight links to the next in input
      order; hence the flights can be visited in exactly that order, and
      from `flights[m]` no flight but `flights[m + 1]` can be proceeded to. */
  lemma InitialFlights(pb: ProblemDef, st: State, m: nat, b: string)
    requires Initial(pb) == Ok(st) && DistinctFlights(pb.flights) && m < |pb.flights|
    ensures st.current == Some(pb.flights[0].name)
    ensures ApplyAll(st, ProceedOps(pb.flights, 1, m + 1)) == Some(st.(current := Some(pb.flights[m].name)))
    ensures Apply(st.(current := Some(pb.flights[m].name)), Proceed(b)).Some?
            <==> m + 1 < |pb.flights| && b == pb.flights[m + 1].name
  {
    InitialChain(pb, st);
    var fl := pb.flights;
    var st1 := SeedJigs(pb.jigTypes, pb.jigs, Blank()).value;
    var st1' := st1.(current := Some(fl[0].name));
    assert st1'.nextFlight == map[];
    assert st.nextFlight == ChainFrom(fl, 1, st1').nextFlight;
    forall q | 1 <= q < |fl|
      ensures Linked(st, fl, q)
    {
      ChainFromLinks(fl, 1, st1', q);
    }
    assert Chained(st, fl, 0, m);
    ProceedAlongChain(st, fl, 0, m);
    if m + 1 == |fl| {
      ChainFromMissing(fl, 1, st1', m);
    } else {
      assert Linked(st, fl, m + 1);
    }
  }

  /** The last flight has no successor. */
  lemma {:induction false} ChainFromMissing(flights: seq<Flight>, i: nat, st: State, m: nat)
    requires 1 <= i <= |flights| && DistinctFlights(flights) && m + 1 == |flights|
    requires flights[m].name !in st.nextFlight
    ensures flights[m].name !in ChainFrom(flights, i, st).nextFlight
    decreases |flights| - i
  {
    if i < |flights| {
      assert flights[i - 1].name != flights[m].name;
      ChainFromMissing(flights, i + 1, st.(nextFlight := st.nextFlight[flights[i - 1].name := flights[i].name]), m);
    }
  }
}

=== FILE: world_initial.dfy ===
/** The layout of the initial state: where each initially racked jig sits,
    and the counters and free space of each rack. */
module WorldInitial {
  import opened Basics
  import opened Domain
  import opened World
  import opened WorldFacts

  /** The size of a declared jig, as the encoder computes it from its type. */
  function SizeOfJig(pb: ProblemDef, name: string): Option<int>
  {
    match FindJig(pb.jigs, name)
    case None => None
    case Some(jig) =>
      match FindJigType(pb.jigTypes, jig.typeName)
      case None => None
      case Some(tp) => Some(if jig.empty then tp.sizeEmpty else tp.sizeLoaded)
  }

  /** Total size of a list of jigs; `None` when one of them, or its type,
      is not declared. */
  function RackLoad(pb: ProblemDef, names: seq<string>): Option<int>
  {
    if |names| == 0 then Some(0)
    else match (SizeOfJig(pb, names[0]), RackLoad(pb, names[1..]))
      case (Some(a), Some(b)) => Some(a + b)
      case _ => None
  }

  /** Placing `names[k..]` succeeds exactly when all their sizes are known,
      and occupies their total size. */
  lemma {:induction false} PlaceRackJigsLoad(pb: ProblemDef, r: string, names: seq<string>, k: nat, st: State)
    requires k <= |names|
    ensures PlaceRackJigs(pb, r, names, k, st).Ok? <==> RackLoad(pb, names[k..]).Some?
    ensures PlaceRackJigs(pb, r, names, k, st).Ok? ==> PlaceRackJigs(pb, r, names, k, st).value.1 == RackLoad(pb, names[k..]).value
    decreases |names| - k
  {
    if k < |names| {
      assert names[k..][1..] == names[k + 1..];
      match FindJig(pb.jigs, names[k])
      case None =>
      case Some(jig) =>
        if JigSizeOf(pb.jigTypes, jig).Ok? {
          var st' := st.(pos := st.pos[(names[k], AircraftSide) := k][(names[k], ProductionSide) := -(k as int)],
                         at := st.at[names[k] := OnRack(r)]);
          PlaceRackJigsLoad(pb, r, names, k + 1, st');
        }
    }
  }

  /** Placing `names[k..]` leaves the position and location of any other jig alone. */
  lemma {:induction false} PlaceRackJigsFrame(pb: ProblemDef, r: string, names: seq<string>, k: nat, st: State, x: string)
    requires k <= |names| && forall m :: k <= m < |names| ==> names[m] != x
    requires PlaceRackJigs(pb, r, names, k, st).Ok?
    ensures var st' := PlaceRackJigs(pb, r, names, k, st).value.0;
            Agree(st'.pos, st.pos, (x, AircraftSide)) && Agree(st'.pos, st.pos, (x, ProductionSide)) && Agree(st'.at, st.at, x)
    decreases |names| - k
  {
    if k < |names| {
      var jig := FindJig(pb.jigs, names[k]).value;
      var st' := st.(pos := st.pos[(names[k], AircraftSide) := k][(names[k], ProductionSide) := -(k as int)],
                     at := st.at[names[k] := OnRack(r)]);
      PlaceRackJigsFrame(pb, r, names, k + 1, st', x);
    }
  }

  /** The i-th jig of a rack's list, when it is not listed again further on,
      ends at position i from the aircraft side and -i from the production
      side, on that rack. */
  lemma {:induction false} PlaceRackJigsPos(pb: ProblemDef, r: string, names: seq<string>, k: nat, st: State, i: nat)
    requires k <= i < |names| && forall m :: i < m < |names| ==> names[m] != names[i]
    requires PlaceRackJigs(pb, r, names, k, st).Ok?
    ensures var st' := PlaceRackJigs(pb, r, names, k, st).value.0;
            (names[i], AircraftSide) in st'.pos && st'.pos[(names[i], AircraftSide)] == i
            && (names[i], ProductionSide) in st'.pos && st'.pos[(names[i], ProductionSide)] == -(i as int)
            && names[i] in st'.at && st'.at[names[i]] == OnRack(r)
    decreases |names| - k
  {
    var st' := st.(pos := st.pos[(names[k], AircraftSide) := k][(names[k], ProductionSide) := -(k as int)],
                   at := st.at[names[k] := OnRack(r)]);
    if k == i {
      PlaceRackJigsFrame(pb, r, names, k + 1, st', names[i]);
    } else {
      PlaceRackJigsPos(pb, r, names, k + 1, st', i);
    }
  }

  /** The step of `SeedRacks` for its first rack. */
  function SeedOne(pb: ProblemDef, rack: Rack, st: State): State
    requires PlaceRackJigs(pb, rack.name, rack.jigs, 0, st).Ok?
  {
    SeedRack(pb, rack, st).value
  }

  /** `SeedRacks` seeds its first rack, then the rest. */
  lemma SeedRacksStep(pb: ProblemDef, racks: seq<Rack>, st: State)
    requires |racks| > 0 && SeedRacks(pb, racks, st).Ok?
    ensures PlaceRackJigs(pb, racks[0].name, racks[0].jigs, 0, st).Ok?
    ensures SeedRacks(pb, racks, st) == SeedRacks(pb, racks[1..], SeedOne(pb, racks[0], st))
  {
  }

  /** `x` is listed on none of the racks. */
  predicate Unlisted(racks: seq<Rack>, x: string)
  {
    forall q, m :: 0 <= q < |racks| && 0 <= m < |racks[q].jigs| ==> racks[q].jigs[m] != x
  }

  /** Seeding racks that do not list `x` leaves its position and location alone. */
  lemma {:induction false} SeedRacksFrameJig(pb: ProblemDef, racks: seq<Rack>, st: State, x: string)
    requires Unlisted(racks, x) && SeedRacks(pb, racks, st).Ok?
    ensures var st' := SeedRacks(pb, racks, st).value;
            Agree(st'.pos, st.pos, (x, AircraftSide)) && Agree(st'.pos, st.pos, (x, ProductionSide)) && Agree(st'.at, st.at, x)
    decreases |racks|
  {
    if |racks| > 0 {
      SeedRacksStep(pb, racks, st);
      assert forall m :: 0 <= m < |racks[0].jigs| ==> racks[0].jigs[m] != x;
      PlaceRackJigsFrame(pb, racks[0].name, racks[0].jigs, 0, st, x);
      assert Unlisted(racks[1..], x) by {
        forall q, m | 0 <= q < |racks[1..]| && 0 <= m < |racks[1..][q].jigs|
          ensures racks[1..][q].jigs[m] != x
        {
          assert racks[1..][q] == racks[q + 1];
        }
      }
      SeedRacksFrameJig(pb, racks[1..], SeedOne(pb, racks[0], st), x);
    }
  }

  /** Seeding racks not named `name` leaves that rack's free space, size and
      production-side counter alone; no rack's aircraft-side counter is set. */
  lemma {:induction false} SeedRacksFrameRack(pb: ProblemDef, racks: seq<Rack>, st: State, name: string)
    requires SeedRacks(pb, racks, st).Ok?
    ensures var st' := SeedRacks(pb, racks, st).value;
            Agree(st'.next, st.next, (name, AircraftSide))
    ensures (forall q :: 0 <= q < |racks| ==> racks[q].name != name) ==>
            var st' := SeedRacks(pb, racks, st).value;
            Agree(st'.freeSpace, st.freeSpace, name) && Agree(st'.rackSize, st.rackSize, name)
            && Agree(st'.next, st.next, (name, ProductionSide))
    decreases |racks|
  {
    if |racks| > 0 {
      SeedRacksFrameRack(pb, racks[1..], SeedOne(pb, racks[0], st), name);
      if forall q :: 0 <= q < |racks| ==> racks[q].name != name {
        assert racks[0].name != name;
        assert forall q :: 0 <= q < |racks[1..]| ==> racks[1..][q].name != name by {
          forall q | 0 <= q < |racks[1..]| ensures racks[1..][q].name != name {
            assert racks[1..][q] == racks[q + 1];
          }
        }
      }
    }
  }

  /** No rack after `racks[ri]` lists the jig `racks[ri].jigs[i]`, and that
      rack lists it no further down. */
  predicate LastListing(racks: seq<Rack>, ri: nat, i: nat)
    requires ri < |racks| && i < |racks[ri].jigs|
  {
    (forall m :: i < m < |racks[ri].jigs| ==> racks[ri].jigs[m] != racks[ri].jigs[i])
    && Unlisted(racks[ri + 1..], racks[ri].jigs[i])
  }

  /** The last listing of a jig decides its initial placement. */
  lemma {:induction false} SeedRacksJig(pb: ProblemDef, racks: seq<Rack>, st: State, ri: nat, i: nat)
    requires ri < |racks| && i < |racks[ri].jigs| && LastListing(racks, ri, i)
    requires SeedRacks(pb, racks, st).Ok?
    ensures var st' := SeedRacks(pb, racks, st).value;
            var x := racks[ri].jigs[i];
            (x, AircraftSide) in st'.pos && st'.pos[(x, AircraftSide)] == i
            && (x, ProductionSide) in st'.pos && st'.pos[(x, ProductionSide)] == -(i as int)
            && x in st'.at && st'.at[x] == OnRack(racks[ri].name)
    decreases |racks|
  {
    var st1 := SeedOne(pb, racks[0], st);
    if ri == 0 {
      PlaceRackJigsPos(pb, racks[0].name, racks[0].jigs, 0, st, i);
      assert racks[1..] == racks[ri + 1..];
      SeedRacksFrameJig(pb, racks[1..], st1, racks[0].jigs[i]);
    } else {
      assert racks[1..][ri - 1] == racks[ri] && racks[1..][ri - 1 + 1..] == racks[ri + 1..];
      SeedRacksJig(pb, racks[1..], st1, ri - 1, i);
    }
  }

  /** A rack whose name no later rack reuses gets its size, its free space
      (size minus the total size of its jigs) and its production-side
      counter `-n + 1` from its own entry. */
  lemma {:induction false} SeedRacksRack(pb: ProblemDef, racks: seq<Rack>, st: State, ri: nat)
    requires ri < |racks| && forall q :: ri < q < |racks| ==> racks[q].name != racks[ri].name
    requires SeedRacks(pb, racks, st).Ok?
    ensures RackLoad(pb, racks[ri].jigs).Some?
    ensures var st' := SeedRacks(pb, racks, st).value;
            var rack := racks[ri];
            rack.name in st'.rackSize && st'.rackSize[rack.name] == rack.size
            && rack.name in st'.freeSpace && st'.freeSpace[rack.name] == rack.size - RackLoad(pb, rack.jigs).value
            && Next(st', rack.name, ProductionSide) == -|rack.jigs| + 1
    decreases |racks|
  {
    var st1 := SeedOne(pb, racks[0], st);
    if ri == 0 {
      PlaceRackJigsLoad(pb, racks[0].name, racks[0].jigs, 0, st);
      assert racks[0].jigs[0..] == racks[0].jigs;
      assert forall q :: 0 <= q < |racks[1..]| ==> racks[1..][q].name != racks[0].name by {
        forall q | 0 <= q < |racks[1..]| ensures racks[1..][q].name != racks[0].name {
          assert racks[1..][q] == racks[q + 1];
        }
      }
      SeedRacksFrameRack(pb, racks[1..], st1, racks[0].name);
    } else {
      assert racks[1..][ri - 1] == racks[ri];
      SeedRacksRack(pb, racks[1..], st1, ri - 1);
    }
  }

  /** A jig no flight brings in keeps its location through `PlaceIncoming`. */
  lemma {:induction false} PlaceIncomingFrame(names: set<string>, flights: seq<Flight>, st: State, x: string)
    requires forall q, m :: 0 <= q < |flights| && 0 <= m < |flights[q].incoming| ==> flights[q].incoming[m] != x
    requires PlaceIncoming(names, flights, st).Ok?
    ensures Agree(PlaceIncoming(names, flights, st).value.at, st.at, x)
    decreases |flights|
  {
    if |flights| > 0 {
      var st1 := PlaceOnFlight(names, flights[0].name, flights[0].incoming, st).value;
      PlaceOnFlightFrame(names, flights[0].name, flights[0].incoming, st, x);
      assert forall q, m :: 0 <= q < |flights[1..]| && 0 <= m < |flights[1..][q].incoming| ==> flights[1..][q].incoming[m] != x by {
        forall q, m | 0 <= q < |flights[1..]| && 0 <= m < |flights[1..][q].incoming|
          ensures flights[1..][q].incoming[m] != x
        {
          assert flights[1..][q] == flights[q + 1];
        }
      }
      PlaceIncomingFrame(names, flights[1..], st1, x);
    }
  }

  lemma {:induction false} PlaceOnFlightFrame(names: set<string>, b: string, incoming: seq<string>, st: State, x: string)
    requires forall m :: 0 <= m < |incoming| ==> incoming[m] != x
    requires PlaceOnFlight(names, b, incoming, st).Ok?
    ensures Agree(PlaceOnFlight(names, b, incoming, st).value.at, st.at, x)
    decreases |incoming|
  {
    if |incoming| > 0 {
      PlaceOnFlightFrame(names, b, incoming[1..], st.(at := st.at[incoming[0] := OnFlight(b)]), x);
    }
  }

  /** The state handed to `SeedRacks` by `Initial`, which sets no rack or jig
      location fluent. */
  function BeforeRacks(pb: ProblemDef, st1: State): State
  {
    SideTrailers(pb.trailersFactory, ProductionSide,
      SideTrailers(pb.trailersBeluga, AircraftSide, FreeHangars(pb.hangars, ChainFlights(pb.flights, st1))))
  }

  lemma InitialSteps(pb: ProblemDef, st: State)
    requires Initial(pb) == Ok(st)
    ensures SeedJigs(pb.jigTypes, pb.jigs, Blank()).Ok?
    ensures var st4 := BeforeRacks(pb, SeedJigs(pb.jigTypes, pb.jigs, Blank()).value);
            st4.pos == map[] && st4.at == map[] && st4.next == map[] && st4.freeSpace == map[] && st4.rackSize == map[]
            && SeedRacks(pb, pb.racks, st4).Ok?
            && PlaceIncoming(JigNames(pb.jigs), pb.flights, SeedRacks(pb, pb.racks, st4).value) == Ok(st)
  {
  }

  /** Initial placement of a racked jig: the k-th jig on a rack's list sits
      on that rack at position k from the aircraft side and -k from the
      production side, provided it is listed nowhere further on and no
      flight brings it in. */
  lemma InitialJig(pb: ProblemDef, st: State, ri: nat, k: nat)
    requires Initial(pb) == Ok(st)
    requires ri < |pb.racks| && k < |pb.racks[ri].jigs| && LastListing(pb.racks, ri, k)
    requires forall q, m :: 0 <= q < |pb.flights| && 0 <= m < |pb.flights[q].incoming| ==> pb.flights[q].incoming[m] != pb.racks[ri].jigs[k]
    ensures var x := pb.racks[ri].jigs[k];
            (x, AircraftSide) in st.pos && st.pos[(x, AircraftSide)] == k
            && (x, ProductionSide) in st.pos && st.pos[(x, ProductionSide)] == -(k as int)
            && x in st.at && st.at[x] == OnRack(pb.racks[ri].name)
  {
    InitialSteps(pb, st);
    var st4 := BeforeRacks(pb, SeedJigs(pb.jigTypes, pb.jigs, Blank()).value);
    var st5 := SeedRacks(pb, pb.racks, st4).value;
    SeedRacksJig(pb, pb.racks, st4, ri, k);
    PlaceIncomingFrame(JigNames(pb.jigs), pb.flights, st5, pb.racks[ri].jigs[k]);
  }

  /** Initial counters of a rack whose name no later rack reuses: size as
      declared, free space the size minus the total size of its jigs (empty
      or loaded size by each jig's flag), `next` at `-n + 1` on the
      production side and at its default 0 on the aircraft side. */
  lemma InitialRack(pb: ProblemDef, st: State, ri: nat)
    requires Initial(pb) == Ok(st)
    requires ri < |pb.racks| && forall q :: ri < q < |pb.racks| ==> pb.racks[q].name != pb.racks[ri].name
    ensures RackLoad(pb, pb.racks[ri].jigs).Some?
    ensures var rack := pb.racks[ri];
            rack.name in st.rackSize && st.rackSize[rack.name] == rack.size
            && rack.name in st.freeSpace && st.freeSpace[rack.name] == rack.size - RackLoad(pb, rack.jigs).value
            && Next(st, rack.name, ProductionSide) == -|rack.jigs| + 1
            && Next(st, rack.name, AircraftSide) == 0
  {
    InitialSteps(pb, st);
    var st4 := BeforeRacks(pb, SeedJigs(pb.jigTypes, pb.jigs, Blank()).value);
    SeedRacksRack(pb, pb.racks, st4, ri);
    SeedRacksFrameRack(pb, pb.racks, st4, pb.racks[ri].name);
  }

  /** No jig after `jigs[i]` reuses its name. */
  predicate LastNamed(jigs: seq<Jig>, i: nat)
  {
    i < |jigs| && forall m :: i < m < |jigs| ==> jigs[m].name != jigs[i].name
  }

  /** The size fluents of jig `j` as its type fixes them: its current size
      is the type's empty or loaded size by the jig's flag, its empty size
      is the type's, and its emptiness is the flag. */
  predicate JigSeeded(types: seq<JigType>, j: Jig, st: State)
  {
    FindJigType(types, j.typeName).Some?
    && var tp := FindJigType(types, j.typeName).value;
    && j.name in st.jigSize && st.jigSize[j.name] == (if j.empty then tp.sizeEmpty else tp.sizeLoaded)
    && j.name in st.jigSizeEmpty && st.jigSizeEmpty[j.name] == tp.sizeEmpty
    && j.name in st.jigEmpty && st.jigEmpty[j.name] == j.empty
  }

  /** Seeding one jig sets the size fluents of its name and of no other. */
  lemma SeedJigAt(types: seq<JigType>, st: State, j: Jig, tp: JigType, x: string)
    requires FindJigType(types, j.typeName) == Some(tp)
    ensures x == j.name ==> JigSeeded(types, j, SeedJig(st, j, tp))
    ensures x != j.name ==>
            var st' := SeedJig(st, j, tp);
            Agree(st'.jigSize, st.jigSize, x) && Agree(st'.jigSizeEmpty, st.jigSizeEmpty, x)
            && Agree(st'.jigEmpty, st.jigEmpty, x)
  {
  }

  /** Seeding jigs not named `x` leaves the size fluents of `x` alone. */
  lemma {:induction false} SeedJigsFrame(types: seq<JigType>, jigs: seq<Jig>, st: State, x: string)
    requires SeedJigs(types, jigs, st).Ok? && forall m :: 0 <= m < |jigs| ==> jigs[m].name != x
    ensures var st' := SeedJigs(types, jigs, st).value;
            Agree(st'.jigSize, st.jigSize, x) && Agree(st'.jigSizeEmpty, st.jigSizeEmpty, x)
            && Agree(st'.jigEmpty, st.jigEmpty, x)
    decreases |jigs|
  {
    if |jigs| > 0 {
      var tp := FindJigType(types, jigs[0].typeName).value;
      var st1 := SeedJig(st, jigs[0], tp);
      assert SeedJigs(types, jigs, st) == SeedJigs(types, jigs[1..], st1);
      assert forall m :: 0 <= m < |jigs[1..]| ==> jigs[1..][m].name != x by {
        forall m | 0 <= m < |jigs[1..]| ensures jigs[1..][m].name != x {
          assert jigs[1..][m] == jigs[m + 1];
        }
      }
      SeedJigAt(types, st, jigs[0], tp, x);
      SeedJigsFrame(types, jigs[1..], st1, x);
    }
  }

  /** The last jig of a name decides the size fluents of that name. */
  lemma {:induction false} SeedJigsJig(types: seq<JigType>, jigs: seq<Jig>, st: State, i: nat)
    requires SeedJigs(types, jigs, st).Ok? && LastNamed(jigs, i)
    ensures JigSeeded(types, jigs[i], SeedJigs(types, jigs, st).value)
    decreases |jigs|
  {
    var tp := FindJigType(types, jigs[0].typeName).value;
    var st1 := SeedJig(st, jigs[0], tp);
    assert SeedJigs(types, jigs, st) == SeedJigs(types, jigs[1..], st1);
    if i == 0 {
      assert forall m :: 0 <= m < |jigs[1..]| ==> jigs[1..][m].name != jigs[0].name by {
        forall m | 0 <= m < |jigs[1..]| ensures jigs[1..][m].name != jigs[0].name {
          assert jigs[1..][m] == jigs[m + 1];
        }
      }
      SeedJigAt(types, st, jigs[0], tp, jigs[0].name);
      SeedJigsFrame(types, jigs[1..], st1, jigs[0].name);
    } else {
      assert jigs[1..][i - 1] == jigs[i];
      assert LastNamed(jigs[1..], i - 1) by {
        forall m | i - 1 < m < |jigs[1..]| ensures jigs[1..][m].name != jigs[1..][i - 1].name {
          assert jigs[1..][m] == jigs[m + 1];
        }
      }
      SeedJigsJig(types, jigs[1..], st1, i - 1);
    }
  }

  /** `FindJig` returns the first jig of a name. */
  lemma {:induction false} FindJigFirst(jigs: seq<Jig>, i: nat)
    requires i < |jigs| && forall m :: 0 <= m < i ==> jigs[m].name != jigs[i].name
    ensures FindJig(jigs, jigs[i].name) == Some(jigs[i])
    decreases i
  {
    if i > 0 {
      assert jigs[1..][i - 1] == jigs[i];
      assert forall m :: 0 <= m < i - 1 ==> jigs[1..][m].name != jigs[i].name by {
        forall m | 0 <= m < i - 1 ensures jigs[1..][m].name != jigs[i].name {
          assert jigs[1..][m] == jigs[m + 1];
        }
      }
      FindJigFirst(jigs[1..], i - 1);
    }
  }

  /** Initial size fluents (model.py:273-280): a jig whose name no later jig
      reuses has its type's empty or loaded size by its flag, its type's
      empty size and its flag; when the name is unique, that size is the
      one the rack seeding charges for it. */
  lemma InitialJigSize(pb: ProblemDef, st: State, i: nat)
    requires Initial(pb) == Ok(st) && LastNamed(pb.jigs, i)
    ensures JigSeeded(pb.jigTypes, pb.jigs[i], st)
    ensures (forall m :: 0 <= m < i ==> pb.jigs[m].name != pb.jigs[i].name)
            ==> SizeOfJig(pb, pb.jigs[i].name) == Some(st.jigSize[pb.jigs[i].name])
  {
    InitialSteps(pb, st);
    SeedJigsJig(pb.jigTypes, pb.jigs, Blank(), i);
    if forall m :: 0 <= m < i ==> pb.jigs[m].name != pb.jigs[i].name {
      FindJigFirst(pb.jigs, i);
    }
  }

  /** Initial trailer sides (model.py:342-349): a factory trailer is on the
      production side, a beluga trailer that is not also a factory trailer
      on the aircraft side, and any other name has no side. */
  lemma InitialTrailerSide(pb: ProblemDef, st: State, x: string)
    requires Initial(pb) == Ok(st)
    ensures x in pb.trailersFactory ==> x in st.trailerSide && st.trailerSide[x] == ProductionSide
    ensures x !in pb.trailersFactory && x in pb.trailersBeluga ==> x in st.trailerSide && st.trailerSide[x] == AircraftSide
    ensures x !in pb.trailersFactory && x !in pb.trailersBeluga ==> x !in st.trailerSide
  {
    InitialSteps(pb, st);
    var st1 := SeedJigs(pb.jigTypes, pb.jigs, Blank()).value;
    var st3 := FreeHangars(pb.hangars, ChainFlights(pb.flights, st1));
    assert st3.trailerSide == map[];
  }

  /** A jig listed on a flight is on that flight after `PlaceOnFlight`. */
  lemma {:induction false} PlaceOnFlightAt(names: set<string>, b: string, incoming: seq<string>, st: State, m: nat)
    requires PlaceOnFlight(names, b, incoming, st).Ok? && m < |incoming|
    ensures var x := incoming[m]; var st' := PlaceOnFlight(names, b, incoming, st).value;
            x in st'.at && st'.at[x] == OnFlight(b)
    decreases |incoming|
  {
    var st1 := st.(at := st.at[incoming[0] := OnFlight(b)]);
    if m > 0 {
      assert incoming[1..][m - 1] == incoming[m];
      PlaceOnFlightAt(names, b, incoming[1..], st1, m - 1);
    } else if m' :| 0 <= m' < |incoming[1..]| && incoming[1..][m'] == incoming[0] {
      PlaceOnFlightAt(names, b, incoming[1..], st1, m');
    } else {
      PlaceOnFlightFrame(names, b, incoming[1..], st1, incoming[0]);
    }
  }

  /** A jig that flight `q` brings in and no later flight does is on flight
      `q` after `PlaceIncoming`. */
  lemma {:induction false} PlaceIncomingAt(names: set<string>, flights: seq<Flight>, st: State, q: nat, m: nat)
    requires PlaceIncoming(names, flights, st).Ok?
    requires q < |flights| && m < |flights[q].incoming|
    requires forall q', m' :: q < q' < |flights| && 0 <= m' < |flights[q'].incoming|
                              ==> flights[q'].incoming[m'] != flights[q].incoming[m]
    ensures var x := flights[q].incoming[m]; var st' := PlaceIncoming(names, flights, st).value;
            x in st'.at && st'.at[x] == OnFlight(flights[q].name)
    decreases |flights|
  {
    var st1 := PlaceOnFlight(names, flights[0].name, flights[0].incoming, st).value;
    var x := flights[q].incoming[m];
    if q == 0 {
      PlaceOnFlightAt(names, flights[0].name, flights[0].incoming, st, m);
      assert forall q', m' :: 0 <= q' < |flights[1..]| && 0 <= m' < |flights[1..][q'].incoming|
                              ==> flights[1..][q'].incoming[m'] != x by {
        forall q', m' | 0 <= q' < |flights[1..]| && 0 <= m' < |flights[1..][q'].incoming|
          ensures flights[1..][q'].incoming[m'] != x
        {
          assert flights[1..][q'] == flights[q' + 1];
        }
      }
      PlaceIncomingFrame(names, flights[1..], st1, x);
    } else {
      assert flights[1..][q - 1] == flights[q];
      assert forall q', m' :: q - 1 < q' < |flights[1..]| && 0 <= m' < |flights[1..][q'].incoming|
                              ==> flights[1..][q'].incoming[m'] != x by {
        forall q', m' | q - 1 < q' < |flights[1..]| && 0 <= m' < |flights[1..][q'].incoming|
          ensures flights[1..][q'].incoming[m'] != x
        {
          assert flights[1..][q'] == flights[q' + 1];
        }
      }
      PlaceIncomingAt(names, flights[1..], st1, q - 1, m);
    }
  }

  /** Initial location of an incoming jig (model.py:383-387): a jig that
      flight `q` brings in and no later flight does starts on flight `q`,
      whatever rack lists it. */
  lemma InitialIncoming(pb: ProblemDef, st: State, q: nat, m: nat)
    requires Initial(pb) == Ok(st)
    requires q < |pb.flights| && m < |pb.flights[q].incoming|
    requires forall q', m' :: q < q' < |pb.flights| && 0 <= m' < |pb.flights[q'].incoming|
                              ==> pb.flights[q'].incoming[m'] != pb.flights[q].incoming[m]
    ensures var x := pb.flights[q].incoming[m];
            x in st.at && st.at[x] == OnFlight(pb.flights[q].name)
  {
    InitialSteps(pb, st);
    var st4 := BeforeRacks(pb, SeedJigs(pb.jigTypes, pb.jigs, Blank()).value);
    PlaceIncomingAt(JigNames(pb.jigs), pb.flights, SeedRacks(pb, pb.racks, st4).value, q, m);
  }

  /** In the initial state every racked jig is balanced. */
  lemma InitialBalanced(pb: ProblemDef, st: State)
    requires Initial(pb) == Ok(st)
    ensures Balanced(st)
  {
    InitialSteps(pb, st);
    var st4 := BeforeRacks(pb, SeedJigs(pb.jigTypes, pb.jigs, Blank()).value);
    SeedRacksBalanced(pb, pb.racks, st4);
    PlaceIncomingBalanced(JigNames(pb.jigs), pb.flights, SeedRacks(pb, pb.racks, st4).value);
  }

  lemma {:induction false} PlaceRackJigsBalanced(pb: ProblemDef, r: string, names: seq<string>, k: nat, st: State)
    requires k <= |names| && Balanced(st) && PlaceRackJigs(pb, r, names, k, st).Ok?
    ensures Balanced(PlaceRackJigs(pb, r, names, k, st).value.0)
    decreases |names| - k
  {
    if k < |names| {
      var st' := st.(pos := st.pos[(names[k], AircraftSide) := k][(names[k], ProductionSide) := -(k as int)],
                     at := st.at[names[k] := OnRack(r)]);
      PlaceRackJigsBalanced(pb, r, names, k + 1, st');
    }
  }

  lemma {:induction false} SeedRacksBalanced(pb: ProblemDef, racks: seq<Rack>, st: State)
    requires Balanced(st) && SeedRacks(pb, racks, st).Ok?
    ensures Balanced(SeedRacks(pb, racks, st).value)
    decreases |racks|
  {
    if |racks| > 0 {
      SeedRacksStep(pb, racks, st);
      PlaceRackJigsBalanced(pb, racks[0].name, racks[0].jigs, 0, st);
      SeedRacksBalanced(pb, racks[1..], SeedOne(pb, racks[0], st));
    }
  }

  lemma {:induction false} PlaceIncomingBalanced(names: set<string>, flights: seq<Flight>, st: State)
    requires Balanced(st) && PlaceIncoming(names, flights, st).Ok?
    ensures Balanced(PlaceIncoming(names, flights, st).value)
    decreases |flights|
  {
    if |flights| > 0 {
      PlaceOnFlightBalanced(names, flights[0].name, flights[0].incoming, st);
      PlaceIncomingBalanced(names, flights[1..], PlaceOnFlight(names, flights[0].name, flights[0].incoming, st).value);
    }
  }

  lemma {:induction false} PlaceOnFlightBalanced(names: set<string>, b: string, incoming: seq<string>, st: State)
    requires Balanced(st) && PlaceOnFlight(names, b, incoming, st).Ok?
    ensures Balanced(PlaceOnFlight(names, b, incoming, st).value)
    decreases |incoming|
  {
    if |incoming| > 0 {
      PlaceOnFlightBalanced(names, b, incoming[1..], st.(at := st.at[incoming[0] := OnFlight(b)]));
    }
  }
}
